=== FILE: README.md ===
# A Telegram bot that appends records to spreadsheet tabs, in Dafny

The bot takes free-text records (`key: value` lines) from a chat and appends
them as rows to a tab of a Google spreadsheet. When a record names a column
the tab lacks, the bot asks, one column at a time, whether to add it. The
repository implements this protocol more than once, and every copy is
modelled here as written:

- `bot.py` over the `SheetsManager` of `sheets_manager.py`. This manager
  keeps a cache of `Table`s with a case-insensitive column index.
- `src/states/sheet_states.py`, a pair of state objects over `SheetsService`
  (`src/services/sheets_service.py`). They keep the negotiation in the
  `state_data` dictionary of `src/states/base_state.py`.
- `src/handlers/data_entry_handler.py`, a conversation that asks for the
  tab's columns one by one and appends once at the end.
- `src/services/sheet_orm.py`, a dataclass ↔ row mapping on top of
  `SheetsService`.

The spreadsheet is an immutable value (`Sheets.Spreadsheet`): tab titles in
order, and per tab its rows of string cells, row 0 being the header. Each
handler is a pure function. It takes the session (`user_data`) and the store,
and returns the new session and store. It also returns the replies it sends
and the log of mutating requests it makes (`Calls.Call`: `add_columns`,
`append_row`, `create_sheet`). With that log, "exactly one append" can be
stated and proved. A Python exception inside a handler becomes a
`Crashed(message)` reply, and the session keeps the changes made before the
exception, as the in-place Python mutation does.

Modules, one per source concept:

- `Results`, `Seqs`, `Dicts`, `Text`: `Option`/`Result`; sequence facts;
  Python dicts as ordered association lists; `strip`, `split`, `lower`,
  `str`/`int` of numbers.
- `Parser`: `parse_object`, shared by `bot.py` and `sheet_states.py`, whose
  two copies are identical.
- `Keyboards`: the keyboard builders and the callback-data encodings with
  their decoders.
- `Schema`: the new-column diff, the header merge and `list.remove`.
- `Sheets`: the store. `Tables`, `Distance`, `Sorting`, `Manager`: the
  `SheetsManager` side. `Service`: the `SheetsService` side.
- `BaseState`, `SheetStates`, `BotHandlers`, `DataEntry`, `Orm`: the
  handlers and the ORM.

Behaviour the proofs make explicit:

- **`bot.py` keeps the emptied pending list.** Once the last pending column
  is answered, the row is appended and only `pending_data` is dropped.
  `pending_columns` stays as `[]`, so the next record with unknown keys is
  appended at once, without a prompt (`BotHandlers.NegotiationAppendsOnce`,
  `BotHandlers.ObjectDataCommits`). `SheetsManager.append_row` adds unknown
  keys as columns by itself, so a declined column reaches the header anyway.
- **`sheet_states.py` clears `state_data` only on one path.** The emptied
  list is cleared only when the retry still finds a key missing from the
  header, that is after at least one No (`SheetStates.DecliningClearsStateData`).
  When every column was accepted, the retry takes the no-new-column path.
  That path appends without clearing, so the emptied list stays
  (`SheetStates.AcceptingAllLeavesPendingList`).
- **`SheetsService.append_row` handles unknown keys differently.** It drops
  keys that name no header column, and it refuses a tab with no header
  ("Sheet has no columns"). On such a tab a negotiation therefore appends
  only if some column is accepted. Declining every column ends in that
  error, and `state_data` keeps the emptied list
  (`SheetStates.DecliningAllOnHeaderlessTabFails`).
- **Two kinds of column match.** `Table.has_column` compares case-insensitively,
  while the row lookup in `append_row` is exact. A key that differs from a
  column only in letter case is neither added nor written
  (`Manager.AppendRowDropsCaseVariantKey`).
- **A ':' in a sheet name.** The Yes button keeps the sheet only when the
  name has no ':' (`Keyboards.AddColumnRoundTrip`). The data-entry selection
  cuts the name at its first ':' (`Keyboards.EntrySheetRoundTrip`).
- **The ORM's header check merges.** When the header differs from the
  model, the check calls `add_columns`, which merges. So an existing header
  `x` with fields `a` becomes `x, a` (`Orm.MismatchedHeaderIsMerged`). The
  code comment in `_ensure_sheet_and_columns` says "overwrite"; the model
  follows the code.
- **The ORM as written cannot construct on a new tab or update.** It calls
  `freeze_rows` and `update_row`, which `SheetsService` does not define. It
  also reads its rows through `get_rows`, which returns column maps, and
  then indexes them by position. Each of these is modelled twice: once as
  written (the `...AsWritten` members) and once as evidently intended. The
  rest of the model uses the intended members. In the intended members,
  freezing changes no cell, and `update_row` writes the row list over the
  given sheet row, with absent values skipping their cell. See "Findings".
- **The data-entry conversation never selects a sheet.** `handle_action_choice`
  never returns `SELECT_SHEET`. A `start` button therefore moves straight to
  `ENTER_DATA`, where `user_data` holds no `columns`, so every message there
  raises `KeyError: 'columns'` and changes nothing
  (`DataEntry.ChoiceThenMessageRaises`). The selection-then-entry run of
  `DataEntry.SelectThenEnterAppendsOnce` is what the handlers do once a
  selection is made; the conversation as registered never makes one.

## Model

| member | source | states |
|---|---|---|
| BaseState.ResetNextState | src/states/base_state.py:28-30 | resetting keeps the state's class and leaves no state to move to |
| BaseState.NoNextState | src/states/base_state.py:11-30 | a freshly built state has no next state, and a reset state is indistinguishable from a fresh one of its class |
| BaseState.GetStateData | src/states/base_state.py:32-36 | the dictionary is created empty only when absent; an existing one is returned untouched and nothing else in `user_data` changes |
| BaseState.ClearStateData | src/states/base_state.py:38-41 | an existing dictionary becomes `{}`; an absent one is not created; nothing else changes |
| BaseState.StateDataAccess | src/states/base_state.py:32-41 | asking twice returns the same dictionary; clearing is idempotent; clearing after asking leaves `{}` |
| Parser.LineField | bot.py:37-43 | a line without ':' defines nothing; a defined field has a non-empty, ':'-free, stripped key and a non-empty stripped value |
| Parser.Collect | bot.py:42-43 | the collected record never holds a key twice |
| Parser.ParseObject | bot.py:32-47 | a parsed record is never empty and has distinct keys |
| Parser.CollectStep | bot.py:42-43 | a later field sets its key and leaves every other key's value alone |
| Parser.CollectHas | bot.py:36-43 | a key is in the record exactly when some line defines it |
| Parser.CollectLast | bot.py:36-43 | a key's value is that of the last line defining it (later duplicates overwrite) |
| Parser.CollectEmpty | bot.py:44 | the record is empty exactly when no line defines a field |
| Parser.ParseObjectNone | bot.py:36-44 | parsing gives `None` exactly when no line of the stripped text defines a field |
| Parser.CollectShapes | bot.py:36-43 | every key and value of a record is non-empty, stripped and free of line breaks, keys also free of ':' |
| Parser.LineFieldOfLine | bot.py:39-43 | a `key: value` line defines exactly that field, even when the value holds ':' |
| Parser.ParseRender | src/states/sheet_states.py:130-144 | writing a non-empty record as `key: value` lines and parsing it gives back the same record, same order |
| Text.Strip | bot.py:40-41 | a slice of the input with only whitespace cut from either end and none left at either end of the result; empty exactly when the input is all whitespace |
| Text.SplitN | bot.py:39 | `split(sep, n)` yields at most n+1 pieces that join back to the input; only an (n+1)-th piece may hold the separator |
| Text.SplitJoin | bot.py:36 | splitting the join of separator-free pieces gives the pieces back |
| Text.ParseIntOfIntToString | src/services/sheet_orm.py:132-133 | `int(str(i)) == i` for every integer |
| Keyboards.BuildSheetsKeyboard | src/keyboards/keyboard_builder.py:10-20 | one single-button row per sheet, in order, carrying `select_sheet:<name>`, then the create-sheet row |
| Keyboards.BuildColumnConfirmationKeyboard | src/keyboards/keyboard_builder.py:23-29 | one row of Yes then No; No decodes to its column, Yes to (sheet, column) when the sheet has no ':' |
| Keyboards.BuildMenuKeyboard | src/keyboards/keyboard_builder.py:32-40 | same number of rows, same row lengths, each button the given (text, data) in place |
| Keyboards.BuildNavigationKeyboard | src/keyboards/keyboard_builder.py:43-60 | one row; Back, Next, Done each present exactly when its callback is truthy, every button with a label carrying that label's callback, in that order |
| Keyboards.DecodeSelectSheet | bot.py:136-137 | select-sheet data is recognised exactly by its prefix |
| Keyboards.SelectSheetRoundTrip | bot.py:137 | every sheet name survives its select-sheet data |
| Keyboards.DecodeAddColumn | bot.py:151-153 | data of another kind reads as "not an add-column answer" |
| Keyboards.AddColumnRoundTrip | bot.py:153 | Yes data always unpacks, and gives back (sheet, column) exactly when the sheet name has no ':' |
| Keyboards.DecodeSkipColumn | bot.py:169-171 | skip data is recognised exactly by its prefix |
| Keyboards.SkipColumnRoundTrip | src/states/sheet_states.py:117 | every column name survives its No data, ':' included |
| Keyboards.DecodeEntrySheet | src/handlers/data_entry_handler.py:122 | `data.split(":")[1]` raises exactly when the data has no ':' |
| Keyboards.EntrySheetRoundTrip | src/handlers/data_entry_handler.py:122 | the data-entry reading gives the sheet name back exactly when it has no ':' |
| Tables.BuildIndexValid | sheets_manager.py:17 | the comprehension maps each lower-cased name to its last position and holds no other key |
| Tables.FromHeader | sheets_manager.py:14-17 | a new table keeps its name and columns and has a consistent index |
| Tables.GetColumnIndex | sheets_manager.py:19-24 | the index found holds a column equal up to letter case (the last such); the error, with its message, exactly when none matches |
| Tables.HasColumn | sheets_manager.py:26-28 | true exactly when some column matches up to letter case, and exactly when the index lookup succeeds |
| Tables.AddColumn | sheets_manager.py:30-35 | a present column changes nothing; otherwise it goes last with index len-1 and no existing index entry moves |
| Tables.AddAll | sheets_manager.py:117-120 | adding several columns keeps the old ones as a prefix, makes every one present and appends only requested names |
| Tables.ColumnIndices | sheets_manager.py:41 | the indices of the requested columns in order, or an error exactly when one is unknown |
| Tables.GetRange | sheets_manager.py:37-43 | no columns means the whole tab; otherwise the span from the first to the last requested column, an error exactly when one is unknown |
| Schema.NewColumns | bot.py:190-193 | exactly the keys not in the header (case-sensitive), in key order |
| Schema.Merge | sheets_manager.py:116-119 | the header stays a prefix and gains exactly the requested names it lacked, once each, in the order of their first request |
| Schema.MergeAbsorbed | src/services/sheets_service.py:114-117 | names the header already holds add nothing |
| Schema.MergeIdempotent | src/services/sheets_service.py:114-117 | merging the same names twice is merging them once |
| Schema.RemoveFirst | bot.py:157 | `list.remove` shortens the list by one and removes exactly one occurrence of the value |
| Schema.RemoveFirstDropsFirst | bot.py:157 | the occurrence removed is the first one, and the other elements keep their order |
| Schema.NewColumnsUnsettled | bot.py:190-199 | the seeded pending list of a record with distinct keys is distinct, made of keys, and absent from the header |
| Distance.DistanceZeroIffEqual | sheets_manager.py:158-161 | the edit distance is zero exactly for equal strings |
| Distance.DistanceBounds | sheets_manager.py:158-161 | the distance lies between the length difference and the longer length |
| Distance.DistanceSymmetric | sheets_manager.py:158-161 | the distance does not depend on argument order |
| Distance.FuzzyMatchFacts | sheets_manager.py:158-161 | equal strings always match fuzzily; up to three characters the fuzzy match is exact equality |
| Sorting.SortBy | sheets_manager.py:209-210 | the result is ordered by key, a permutation of the input, and stable |
| Sheets.Overlay | sheets_manager.py:311-313 | present values replace cells from column A, absent ones keep the old cell; the row grows only to the written width |
| Sheets.AddSheet | sheets_manager.py:68-82 | the new tab is empty and listed last; other tabs are untouched |
| Sheets.AppendRow | sheets_manager.py:256-263 | the row goes after the tab's last row; nothing else changes |
| Sheets.WriteRow | sheets_manager.py:220-228 | only row i of the named tab changes, overlaid by the written cells |
| Manager.TableOf | sheets_manager.py:84-101 | the table handed out is consistent and named after the tab |
| Manager.GetTable | sheets_manager.py:97-101 | a cached table is returned as is; otherwise the header is read and cached; an unknown tab is an error |
| Manager.ReadHeaderPrefix | sheets_manager.py:106-113 | `add_columns` reads a prefix of the header, the whole header when it is no wider than the cache plus one (the range is right for fewer than 26 cached columns, see "Left out") |
| Manager.HeaderWriteFacts | sheets_manager.py:115-124 | the cells read stay in place, every requested name ends in the header, nothing is written when all were read, data rows are untouched |
| Manager.HeaderWriteWhole | sheets_manager.py:115-124 | when the whole header was read the new header is the merge of the old one with the request |
| Manager.ExtendedTable | sheets_manager.py:117-120 | the cached table gains through `add_column` exactly the names the merge appended |
| Manager.MergedTail | sheets_manager.py:116-119 | the names the merge appends are exactly the requested names not read back |
| Manager.AddColumns | sheets_manager.py:103-124 | an unknown tab is an error; otherwise only the header row of that tab and its cache entry change (the failing range for 26 or more cached columns is listed under "Left out") |
| Manager.AddColumnsKnownColumns | sheets_manager.py:103-124 | the cached columns only grow, and only by requested names |
| Manager.AddColumnsWhenCoherent | sheets_manager.py:103-124 | with the cache in step with the header, the new header is the merge and every requested name becomes a column |
| Manager.AddColumnsRows | sheets_manager.py:115-124 | at most the header row of the tab is rewritten; other tabs are untouched |
| Manager.AddColumnsWidens | sheets_manager.py:117-120 | no cached column is lost |
| Manager.RowMapUpTo | sheets_manager.py:164-167 | the map's keys are exactly the columns so far; with distinct names each holds its cell or `None` past the row's end |
| Manager.RowMap | sheets_manager.py:164-167 | a result maps every table column, and with distinct names each to its cell or `None` past the row's end |
| Manager.MatchingRows | sheets_manager.py:148-156 | the matching rows are exactly the long-enough rows whose cell passes the test, in row order |
| Manager.SearchColumn | sheets_manager.py:126-170 | an empty tab gives no results; an unknown column raises with its message; results are the matching data rows (header skipped) as column maps |
| Manager.ExactHitsAreFuzzyHits | sheets_manager.py:155-161 | every row an exact search finds, the fuzzy search finds too |
| Manager.FuzzyCandidates | sheets_manager.py:195-207 | exactly the long-enough data rows whose distance is within the limit, in row order, each with its distance |
| Manager.RankedHits | sheets_manager.py:209-210 | the candidates sorted by ascending distance, ties keeping row order |
| Manager.FuzzySearchColumn | sheets_manager.py:172-210 | the errors of the exact search; results are the ranked hits as (column map, distance) pairs |
| Manager.FuzzyResultsRanked | sheets_manager.py:202-210 | the results come in ascending distance and every distance is within the limit |
| Manager.UnknownKeys | sheets_manager.py:241-244 | exactly the data keys the table lacks, case-insensitively |
| Manager.WithKeys | sheets_manager.py:246-249 | adding the unknown keys keeps the tab set and order and caches the table |
| Manager.AppendRow | sheets_manager.py:230-263 | an unknown tab is an error; otherwise missing columns are added, then one row with a cell per column is appended (the failing `add_columns` for 26 or more cached columns is listed under "Left out") |
| Manager.AppendRowKeepsRows | sheets_manager.py:238-263 | the tab ends one row longer (two longer when it had no header row yet); earlier data rows and other tabs are unchanged; the known columns only widen |
| Manager.AppendRowCells | sheets_manager.py:251-254 | the appended row has one cell per column: the data's value, or "" |
| Manager.WithKeysFacts | sheets_manager.py:240-249 | adding the unknown keys rewrites at most the header row and only widens the known columns |
| Manager.AppendRowAddsEveryKey | sheets_manager.py:240-249 | with the cache in step with the header, every data key is a column afterwards |
| Manager.AppendedRowReadsBack | sheets_manager.py:251-254 | searching back the appended row gives each exactly-named key's value |
| Manager.AppendRowDropsCaseVariantKey | sheets_manager.py:242-254 | a key differing from a column only in case is neither added nor written |
| Manager.FirstMatchingRow | sheets_manager.py:296-309 | the first matching data row; none exactly when the search finds nothing |
| Manager.UpdateRow | sheets_manager.py:272-316 | the search's errors; `True` exactly when a row matches; `False` leaves the store as it was |
| Manager.UpdatedRowCells | sheets_manager.py:311-313 | after the write, columns named in the new data hold the new value and every other cell its old one |
| Manager.UpdateRowRewritesFirstMatch | sheets_manager.py:287-314 | on success only the first matching data row is rewritten |
| Manager.GetColumns | sheets_manager.py:318-321 | the cached columns, read from the header on first use (a single empty cell meaning none) |
| Manager.GetColumnsCached | sheets_manager.py:318-321 | once cached, the columns no longer follow later changes of the stored header |
| Manager.CreateSheet | sheets_manager.py:68-82 | a taken title is refused; a new tab is empty and listed last |
| Manager.GetAllSheets | sheets_manager.py:63-66 | exactly the tab titles, without repeats |
| Manager.CreateThenList | sheets_manager.py:63-82 | a created tab is listed last, and creating it again fails |
| Service.CreateError | src/services/sheets_service.py:61-65 | a 400 "already exists" becomes the duplicate error, any other failure the generic message |
| Service.TitleTakenReportedAsDuplicate | src/services/sheets_service.py:61-64 | the store's answer to a taken title is reported as a duplicate |
| Service.CreateSheet | src/services/sheets_service.py:20-65 | without a spreadsheet a new one holding just this tab; otherwise the tab is added last, a taken title an error |
| Service.GetAllSheets | src/services/sheets_service.py:67-80 | no titles without a spreadsheet; otherwise exactly the tab titles |
| Service.GetColumns | src/services/sheets_service.py:82-96 | row 1 of the tab, or none when the request fails or the tab is empty |
| Service.AddColumns | src/services/sheets_service.py:98-128 | a failed request becomes "Failed to add columns"; otherwise only the header row changes |
| Service.AddColumnsHeader | src/services/sheets_service.py:103-124 | every requested name ends in the header; a non-empty header gains exactly the merge; an empty one takes the request verbatim |
| Service.AddColumnsIdempotent | src/services/sheets_service.py:114-124 | adding the same names again leaves the header as it was |
| Service.AddColumnsKeepsRepeatsOnEmptyHeader | src/services/sheets_service.py:104-111 | over an empty header repeated names are written as given |
| Service.AppendRow | src/services/sheets_service.py:130-152 | a tab with no header, or one the request cannot reach, gives "Sheet has no columns"; otherwise one row of `data.get(c, '')` per header column goes last and nothing else changes |
| Service.AppendRowKeepsHeader | src/services/sheets_service.py:142-148 | appending leaves the header as it was |
| Service.RowDictUpTo | src/services/sheets_service.py:169-173 | keys are exactly the header names over the row's cells; with distinct names each holds its cell |
| Service.RowDict | src/services/sheets_service.py:168-173 | cells past the header are dropped and missing trailing cells are absent keys |
| Service.GetRows | src/services/sheets_service.py:154-178 | one map per row from the start row on; none when the request fails or there are no rows |
| Service.AppendThenGetRows | src/services/sheets_service.py:138-173 | reading back the appended row gives every key that names a header column its value |
| Orm.FieldNames | src/services/sheet_orm.py:47-48 | the columns are the field names in declaration order |
| Orm.CreateWithColumns | src/services/sheet_orm.py:64-71 | a missing tab is created and its header is exactly the model's columns |
| Orm.CheckHeader | src/services/sheet_orm.py:73-86 | a differing header is merged with the columns (verbatim when empty); data rows and other tabs stay |
| Orm.EnsureSheetAndColumns | src/services/sheet_orm.py:61-86 | afterwards the tab exists and its header holds every model column |
| Orm.CheckHeaderSettled | src/services/sheet_orm.py:74-86 | a header holding every column is left as it is |
| Orm.EnsureSettles | src/services/sheet_orm.py:61-86 | a second header check changes nothing |
| Orm.MismatchedHeaderIsMerged | src/services/sheet_orm.py:74-82 | header `x` with fields `a` becomes `x, a`, not `a` |
| Orm.NewOrm | src/services/sheet_orm.py:25-59 | the three class checks with their messages, in order; the tab is the class name plus "s"; the header holds every field |
| Orm.EnsureSheetAndColumnsAsWritten | src/services/sheet_orm.py:61-86 | returns only when the header already equals the columns; otherwise the intended writes stay and `freeze_rows` raises |
| Orm.NewOrmAsWritten | src/services/sheet_orm.py:25-68 | succeeds exactly where the intended constructor does and the tab's header already is the field names; otherwise the writes stay behind the error |
| Orm.NewTabConstructorRaises | src/services/sheet_orm.py:59-68 | wherever the tab is missing and the intended constructor succeeds, the tab is created with the field names and `freeze_rows` raises |
| Orm.NewTabConstructorExample | src/services/sheet_orm.py:59-68 | class `Item(id, name)` on an empty spreadsheet: the tab `Items` gets header `id, name`, then `freeze_rows` raises |
| Orm.InstanceToRowList | src/services/sheet_orm.py:88-96 | another class is refused; otherwise one value per column, in column order, `None` where an attribute is missing |
| Orm.Coerce | src/services/sheet_orm.py:118-144 | an absent cell is `None` and a present cell never is |
| Orm.RowListToInstance | src/services/sheet_orm.py:98-153 | one attribute per field, in order, each the coerced padded cell |
| Orm.ExtraCellsIgnored | src/services/sheet_orm.py:101-102 | cells past the last column are ignored |
| Orm.MissingCellsReadAsNone | src/services/sheet_orm.py:100-102 | a short row reads as if padded with `None` |
| Orm.BoolCells | src/services/sheet_orm.py:126-131 | a bool field is true exactly for "TRUE", "1", "YES" in any case |
| Orm.IntCells | src/services/sheet_orm.py:132-142 | an int cell that parses gives the number; one that does not keeps its text |
| Orm.CoerceWritten | src/services/sheet_orm.py:118-144 | each conforming value reads back from the cell it is written as |
| Orm.RowListRoundTrip | src/services/sheet_orm.py:88-153 | writing an instance's row list and reading it back gives the instance |
| Schema.FirstIndex | src/services/sheet_orm.py:174 | `list.index`: the first position holding the name, or past the end when absent |
| Orm.FirstMatch | src/services/sheet_orm.py:186-190 | the first row long enough to hold the key cell and holding the key; none exactly when no row does |
| Orm.FindRowIndexByPk | src/services/sheet_orm.py:171-190 | the 1-based sheet row (data from row 2) of the first row whose key cell is `str(pk)`; none exactly when no row matches |
| Orm.Update | src/services/sheet_orm.py:192-232 | refuses another class and a `None` key; succeeds exactly when the key names a row, and reports that row |
| Orm.UpdateWrites | src/services/sheet_orm.py:227-228 | only the found row changes, overlaid with the row list; other rows and tabs stay |
| Orm.UpdateKeepsRowFindable | src/services/sheet_orm.py:217-228 | after an update the same key finds the same row again |
| Orm.UpdateOfMissingRowFails | src/services/sheet_orm.py:219-225 | a key no row holds is refused with the missing-row message |
| Orm.ScanRowMaps | src/services/sheet_orm.py:186-190 | over column maps, never finds a row; raises `KeyError` exactly when some map has more entries than the key's position |
| Orm.FindRowIndexByPkAsWritten | src/services/sheet_orm.py:171-190 | reads `get_rows(sheet, 2)`; never finds a row, and raises exactly when some row map is longer than the key's position |
| Orm.LookupAsWrittenRaises | src/services/sheet_orm.py:181-187 | on a header equal to the fields, every key the intended lookup finds raises `KeyError` as written |
| Orm.LookupAsWrittenExample | src/services/sheet_orm.py:181-187 | header `id, name` and row `1, x`: intended, key "1" is row 2; as written, `KeyError: 0` |
| Orm.UpdateAsWritten | src/services/sheet_orm.py:192-232 | never succeeds: the intended refusal, the lookup's `KeyError`, or "not found" where the intended update writes |
| Orm.UpdateAsWrittenRaises | src/services/sheet_orm.py:217-228 | on a header equal to the fields, every update the intended code performs raises `KeyError` as written |
| Orm.UpdateAsWrittenExample | src/services/sheet_orm.py:217-228 | updating key "1" of the example tab: intended, row 2 is rewritten; as written, `KeyError: 0` |
| BotHandlers.Commit | bot.py:201-206 | exactly one `append_row(sheet, data)`; the pending list is left as it was |
| BotHandlers.HandleObjectData | bot.py:184-226 | the only request is `append_row(sheet, data)`; an existing pending list is never overwritten |
| BotHandlers.Unpend | bot.py:156-157 | removing a column not pending is an error; otherwise one occurrence goes and the list shrinks by one |
| BotHandlers.Confirm | bot.py:151-167 | a Yes first asks for its column to be added |
| BotHandlers.Skip | bot.py:169-182 | a No never adds a column |
| BotHandlers.ReadCallbackOfButtons | bot.py:129-171 | every button the bot sends is read as the action it was built for (a Yes only with a ':'-free sheet) |
| BotHandlers.HandleCallback | bot.py:124-182 | a callback never adds or removes a tab |
| BotHandlers.HandleMessage | bot.py:228-279 | only an awaited sheet name can add a tab |
| BotHandlers.ObjectDataCommits | bot.py:196-226 | with no new key, or an emptied pending list, one append; the session is untouched, or loses only `pending_data` |
| BotHandlers.ObjectDataAsks | bot.py:196-222 | otherwise nothing is written, the first pending column is offered, and pending state is seeded only when absent |
| BotHandlers.ConfirmShrinksPending | bot.py:151-157 | a Yes asks to add its column, then removes it from the pending list |
| BotHandlers.SkipShrinksPending | bot.py:169-173 | a No removes its column and adds none |
| BotHandlers.AnswerForUnpendedColumnFails | bot.py:151-173 | answering for a column not pending raises before any retry; a Yes has already added the column by then |
| BotHandlers.ButtonsDispatch | bot.py:151-182 | pressing a prompt's button performs the action it stands for |
| BotHandlers.YesReenters | bot.py:151-167 | a Yes adds the column, drops it from the list and re-enters with the pending data |
| BotHandlers.NoReenters | bot.py:169-182 | a No drops the column and re-enters on the current sheet |
| BotHandlers.AnswerReenters | bot.py:151-182 | an answer re-enters on a store whose columns gained at most the answered one |
| BotHandlers.StillNegotiating | bot.py:151-182 | after an answer the negotiation goes on over the remaining columns |
| BotHandlers.ContinueNegotiation | bot.py:208-222 | re-entering with columns left offers the first of them and writes nothing |
| BotHandlers.FirstPendingIsFresh | bot.py:190-199 | the column offered is still a new column of the data |
| BotHandlers.AnswerAsksNext | bot.py:151-222 | an answer with more columns left offers the next one and writes only the Yes column |
| BotHandlers.AnswerCommits | bot.py:201-206 | the last answer appends the data once and leaves the pending list empty, not removed |
| BotHandlers.NegotiationAppendsOnce | bot.py:151-226 | however answered, a negotiation ends after one answer per column, with the Yes columns added in order and exactly one append, last |
| BotHandlers.RecordReachesObjectData | bot.py:254-279 | a parsed record for a selected sheet goes to `handle_object_data` |
| BotHandlers.ObjectDataOpensNegotiation | bot.py:196-222 | a record with new keys and no open negotiation opens one over exactly those keys, writing nothing |
| BotHandlers.SubmissionOpensNegotiation | bot.py:260-279 | a message carrying such a record does the same |
| BotHandlers.SheetNameMessage | bot.py:230-252 | an awaited name creates the stripped name as a tab and selects it; a taken name is refused and still awaited |
| BotHandlers.RecordWithoutSheet | bot.py:254-258 | without a selected sheet nothing is parsed or written |
| SheetStates.SelectMessageTransitions | src/states/sheet_states.py:19-39 | a message is ignored unless a name is awaited; on an existing spreadsheet a free name becomes a new, empty, selected tab listed last and hands over to input; a taken name is reported and changes nothing |
| SheetStates.SelectCallbackOfButtons | src/states/sheet_states.py:41-60 | the create button starts waiting for a name; a sheet button selects that sheet and hands over to input |
| SheetStates.SelectButtonSelects | src/states/sheet_states.py:51-60 | select-sheet data selects the named sheet and hands over to input |
| SheetStates.Unpend | src/states/sheet_states.py:104-106 | removing a column not pending is an error; otherwise one occurrence goes |
| SheetStates.Commit | src/states/sheet_states.py:167-174 | exactly one `append_row(sheet, data)`; the selected sheet stays |
| SheetStates.ObjectData | src/states/sheet_states.py:146-189 | the only request is `append_row(sheet, data)` and no tab appears or vanishes |
| SheetStates.InputMessage | src/states/sheet_states.py:69-88 | a message never adds or removes a tab |
| SheetStates.InputAnswer | src/states/sheet_states.py:90-128 | an answer never adds or removes a tab |
| SheetStates.NoSheetSelectedDoesNothing | src/states/sheet_states.py:69-97 | without a selected sheet a message gets an error and a callback does nothing |
| SheetStates.MalformedRecordIsRefused | src/states/sheet_states.py:78-86 | a message that is not a record gets the format help |
| SheetStates.ObjectDataAppendsAtOnce | src/states/sheet_states.py:185-189 | with no new key the record is appended at once and `state_data` is not touched or created |
| SheetStates.ObjectDataCommitsAndClears | src/states/sheet_states.py:161-174 | with a new key and an emptied list, one append and `state_data` becomes `{}` |
| SheetStates.ObjectDataAsks | src/states/sheet_states.py:161-183 | with columns left nothing is written, the first is offered, and pending state is seeded only when absent |
| SheetStates.ReadAnswerOfButtons | src/states/sheet_states.py:99-117 | the prompt's buttons read as the answers they stand for |
| SheetStates.YesRetries | src/states/sheet_states.py:99-114 | a Yes adds only its column to the header (an empty header becomes that column) and retries with it dropped |
| SheetStates.NoRetries | src/states/sheet_states.py:116-128 | a No retries with the column dropped and the store untouched |
| SheetStates.AnswerRetries | src/states/sheet_states.py:99-128 | an answer retries on a header that gained at most the answered column, and is non-empty exactly when it was before or the answer is Yes |
| SheetStates.StillNegotiating | src/states/sheet_states.py:99-128 | after an answer the negotiation goes on over the remaining columns |
| SheetStates.FirstPendingIsFresh | src/states/sheet_states.py:158-165 | the column offered is still missing from the header |
| SheetStates.NextPrompt | src/states/sheet_states.py:176-183 | re-entering with columns left offers the next one and changes nothing |
| SheetStates.AnswerAsksNext | src/states/sheet_states.py:99-183 | an answer with more left offers the next and writes only the Yes column |
| SheetStates.AnswerCommits | src/states/sheet_states.py:99-189 | on a tab with a header, or after a Yes, the last answer appends the record once; `state_data` is cleared only if a key is still missing |
| SheetStates.AnswerFailsOnHeaderlessTab | src/states/sheet_states.py:116-174 | a No to the last column of a headerless tab requests one append, which fails with "Sheet has no columns"; the store is unchanged and the emptied list stays |
| SheetStates.LastAnswerCommits | src/states/sheet_states.py:155-189 | retrying with an emptied list appends; `state_data` is cleared exactly when a key is still missing |
| SheetStates.NegotiationAppendsOnce | src/states/sheet_states.py:90-189 | on a tab with a header, or with some Yes, however answered: one answer per column, the Yes columns added in order, exactly one append, and the header gains only those |
| SheetStates.DecliningClearsStateData | src/states/sheet_states.py:161-174 | on a tab with a header, or with some Yes, a single No makes `state_data` end as `{}` |
| SheetStates.AcceptingAllLeavesPendingList | src/states/sheet_states.py:155-189 | accepting the only new column leaves the emptied list, so the next unknown key is appended without a prompt |
| SheetStates.AcceptOnlyColumn | src/states/sheet_states.py:99-114 | in the example, a Yes extends the header to `a, b` and leaves the emptied list |
| SheetStates.SubmissionOpensNegotiation | src/states/sheet_states.py:69-88 | a record with keys the header lacks opens a negotiation over exactly those keys, writing nothing |
| SheetStates.DecliningAllOnHeaderlessTabFails | src/states/sheet_states.py:116-174 | on a headerless tab, declining every column offers each later column, requests only the one failing append, keeps the header empty and leaves the emptied list |
| SheetStates.DecliningOnHeaderlessTabFails | src/states/sheet_states.py:116-128 | on a tab with no header, declining every column ends in "Sheet has no columns" |
| DataEntry.ActionChoice | src/handlers/data_entry_handler.py:64-100 | the three sheet choices go to data entry, Back ends, anything else asks again |
| DataEntry.StartChoicesEnterData | src/handlers/data_entry_handler.py:30-33 | every `start` button leads to data entry |
| DataEntry.HandleSheetSelection | src/handlers/data_entry_handler.py:116-129 | data without ':' is refused and keeps the entry; otherwise the entry restarts on the sheet's header with cursor 0 and no data, and asks for the first column; a sheet without columns does not enter data entry |
| DataEntry.SelectionCutsAtColon | src/handlers/data_entry_handler.py:122 | a sheet name holding ':' loads the sheet named by the part before it |
| DataEntry.Advance | src/handlers/data_entry_handler.py:139-143 | a message moves the cursor by exactly one and keeps sheet and columns |
| DataEntry.Outcome | src/handlers/data_entry_handler.py:150-154 | success is reported exactly when the tab has a header |
| DataEntry.Commit | src/handlers/data_entry_handler.py:146-156 | the run ends with one append of the collected record, whether or not it is accepted |
| DataEntry.DataEntryStep | src/handlers/data_entry_handler.py:131-160 | one column per message; the append happens exactly when the cursor passes the last column, otherwise the next column is asked for |
| DataEntry.ChoiceThenMessageRaises | src/handlers/data_entry_handler.py:179-198 | as registered, a `start` button leads to data entry and never to the selection, and the first message there raises `KeyError: 'columns'` with nothing changed |
| DataEntry.RejectedStep | src/handlers/data_entry_handler.py:134-136 | without an entry, or past the columns, a message is an error and changes nothing |
| DataEntry.RefusedAppendIsReported | src/handlers/data_entry_handler.py:150-156 | a refused append is reported and still ends the conversation |
| DataEntry.CollectedValues | src/handlers/data_entry_handler.py:140 | with distinct columns each column holds its own message |
| DataEntry.CollectedRecord | src/handlers/data_entry_handler.py:140-151 | the committed record holds exactly the columns, in order, each with its message |
| DataEntry.Prompts | src/handlers/data_entry_handler.py:162-171 | one prompt per column, naming it, in order |
| DataEntry.EarlierEntry | src/handlers/data_entry_handler.py:140-160 | before the last column a message stores its text, asks for the next and leaves the store alone |
| DataEntry.LastStep | src/handlers/data_entry_handler.py:140-156 | the message for the last column commits |
| DataEntry.EntryAppendsOnce | src/handlers/data_entry_handler.py:131-171 | one message per remaining column makes exactly one request, the append, after asking for every later column |
| DataEntry.LastEntry | src/handlers/data_entry_handler.py:146-156 | the last column's message appends the completed record and ends |
| DataEntry.PartialEntryCallsNothing | src/handlers/data_entry_handler.py:140-160 | fewer messages than columns make no request and stay in data entry |
| DataEntry.SelectThenEnterAppendsOnce | src/handlers/data_entry_handler.py:116-160 | selecting a sheet with a header and answering each column appends those answers once and reports success (a run the registered conversation cannot reach, see `ChoiceThenMessageRaises`) |

## Left out

- Telegram transport: handler registration, polling, the reconnect loop, `error_handler`, `help`/`list_sheets`/`show_columns`, and the `start`/`cancel` handlers, which only send a message. Replies are constructors carrying the data they mention; message text and Markdown are not modelled.
- Google API plumbing: credentials, `build`, `.execute()` and A1 range strings. The store is the in-memory `Sheets.Spreadsheet`. Failed requests are the store's answers for a missing spreadsheet or tab; the malformed range of `add_columns` is the exception listed below.
- Range limits. `SheetsManager.init_table` reads `A1:Z1`. `search_column`, `fuzzy_search_column` and `SheetsManager.update_row` read `Table.get_range()`, which is `A:Z`. `SheetsService.get_rows` reads `A2:ZZ`. (`add_columns` builds its range from `chr(65 + n)`; see the `Manager.AddColumns` line.) The model reads the whole header and whole rows, so columns past Z (or ZZ) are not cut off. The store's trimming of trailing empty cells is not modelled.
- The fuzzy threshold `max_len * 0.3` is written in integers as `10 * d <= 3 * max_len`. Floating-point rounding of the product is not modelled.
- `Levenshtein.distance` is a foreign C library. `Distance.EditDistance` is the textbook definition it computes.
- Text handling: `lower`/`upper` act on ASCII letters only; `strip` uses the ASCII and common Unicode spaces. `int()` does not accept underscores or non-ASCII digits.
- `SheetORM.save`, `get`, `get_all` and `next_pk`. `save` hands a list to `SheetsService.append_row`, which expects a dict. `get` issues a raw API call. `get_all` reads `SheetsService.get_rows`, whose column maps `_row_list_to_instance` cannot pad, so every row is skipped. `next_pk` has an empty body.
- ORM float fields: `float()` parsing is not modelled; a float field keeps its text.
- Field types are named by strings (bool, int, other). Subclass checks through `isinstance` are modelled as equality of class names. `__dataclass_fields__` and `__pk__` are flags on the class value.
- The `TypeError` path of `_row_list_to_instance` cannot be reached: every field receives a value.
- Manager.AddColumns: matches the code only for fewer than 26 cached columns. The read-back range ends in `chr(65 + n)` for `n` cached columns. That is the column after the last only while `n < 26`: with 26 it is `A1:[`, which is no A1 range, so the `values().get` request fails with an `HttpError` nothing catches. The model reads the first `n + 1` header cells for every `n` and never fails on this. The same holds for the Yes button of `bot.py` (`BotHandlers.Confirm`), which calls `add_columns`.
- Manager.AppendRow: matches the code only for fewer than 26 cached columns when the record has a key the table lacks. The code then calls `add_columns` and raises as above, where the model adds the columns and appends.
- Orm.FindRowIndexByPk: does not model the code as written. It scans row lists, while the code scans the column maps of `get_rows` and raises `KeyError`. That behaviour is `Orm.FindRowIndexByPkAsWritten` (see "Findings").
- Orm.EnsureSheetAndColumns, Orm.NewOrm: do not model the code as written. They treat `freeze_rows`, which `SheetsService` lacks, as changing no cell. The raising code is `Orm.EnsureSheetAndColumnsAsWritten` and `Orm.NewOrmAsWritten`.
- Orm.Update, Orm.UpdateRow: do not model the code as written. `UpdateRow` stands for the missing `SheetsService.update_row`. The code as written is `Orm.UpdateAsWritten`.
- The spreadsheet id a new spreadsheet receives is a parameter (`newId`).
- A `None` spreadsheet id (the `SheetsService` constructor's default) is not modelled; the empty string `''` stands for "no spreadsheet yet". With `None`, `get_columns`, `add_columns`, `append_row` and `get_rows` pass no `spreadsheetId` to the Google client, which raises `TypeError` before any request; `except HttpError` does not catch it. The model has these four answer as for a failed request instead.
- `src/states/data_entry_states.py` is not part of this model. Its three conversation states are an enum, and -1 is `ConversationHandler.END`.
- How a host swaps `State` objects on `next_state` is not in the repository. The model exposes `next_state` and leaves the swap out.
- `BotHandlers.Negotiate` and `SheetStates.Negotiate` press the prompt's button through the decoded action. The Yes-with-':' sheet case is covered separately by `Keyboards.AddColumnRoundTrip`.
- Orm.UpdateKeepsRowFindable: stated only for text or integer keys. A bool key is written as TRUE/FALSE but searched as True/False, so it is not found again.
- Manager.RowMap, Manager.RowMapUpTo, Service.RowDict, Service.RowDictUpTo: cell values are stated for distinct column names only. With repeated names the later column wins, and that case is not stated.
- BotHandlers.HandleCallback, BotHandlers.HandleMessage, SheetStates.InputMessage, SheetStates.InputAnswer, SheetStates.ObjectData: these contracts state only that no tab appears or vanishes. Their behaviour is stated by the lemmas listed after them in the table.

## Findings

| source | as written | input that shows it | evidently intended | confidence | as-written member | corrected member |
|---|---|---|---|---|---|---|
| src/services/sheet_orm.py:181-187 | `row[pk_col_index]` indexes the column maps that `get_rows` returns by an integer position | tab `Items` with header `id, name` and row `1, x`, key "1": `KeyError: 0` | index each row as a list of cells and return sheet row 2 | not executed | Orm.FindRowIndexByPkAsWritten | Orm.FindRowIndexByPk |
| src/services/sheet_orm.py:61-86 | `self.service.freeze_rows(...)` calls a method `SheetsService` does not define | class `Item(id, name)`, spreadsheet without an `Items` tab: the tab is created with header `id, name`, then `AttributeError` | freeze the header row, which changes no cell, and return | not executed | Orm.EnsureSheetAndColumnsAsWritten | Orm.EnsureSheetAndColumns |
| src/services/sheet_orm.py:59-68 | the constructor runs the header check above, so it raises wherever the header is not already the field names | the same class and spreadsheet: the intended constructor succeeds, the one as written raises after creating the tab | construct the ORM over the checked tab | not executed | Orm.NewOrmAsWritten | Orm.NewOrm |
| src/services/sheet_orm.py:217-228 | `update` looks the key up as above and then calls `self.service.update_row`, which `SheetsService` does not define | the tab above, instance `Item(id="1", name="y")`: `KeyError: 0`; with the lookup corrected, `AttributeError` at `update_row` | overwrite sheet row 2 with the instance's values | not executed | Orm.UpdateAsWritten | Orm.Update |

=== FILE: base_state.dfy ===
/** The `State` base class of src/states/base_state.py: the state a state
    object asks to move to, and the per-user `state_data` dictionary kept in
    `user_data`. The `state_data` entries the states use are `pending_columns`
    and `pending_data`; `None` stands for an absent key throughout. */
module BaseState {
  import opened Results
  import opened Dicts

  /** The concrete state classes. */
  datatype Kind = SelectSheet | InputData

  /** A state object: its class and its `next_state` (the class of the
      freshly built state it hands over to, or `None`). */
  datatype State = State(kind: Kind, nextState: Option<Kind>)

  /** `__init__`. */
  function NewState(kind: Kind): (s: State)
    ensures s.kind == kind
  {
    State(kind, None)
  }

  function GetNextState(s: State): Option<Kind> {
    s.nextState
  }

  /** `reset_next_state`: only `next_state` changes. */
  function ResetNextState(s: State): (s': State)
    ensures s'.kind == s.kind
    ensures GetNextState(s') == None
  {
    s.(nextState := None)
  }

  /** A state fresh from its constructor has no state to move to, and
      resetting one brings it back to that. */
  lemma NoNextState(kind: Kind, s: State)
    ensures GetNextState(NewState(kind)) == None
    ensures ResetNextState(s) == NewState(s.kind)
  {
  }

  /** `state_data`: the negotiation's pending columns and pending data. */
  datatype StateData = StateData(pendingColumns: Option<seq<string>>, pendingData: Option<Dict<string>>)

  /** `{}`. */
  const EmptyData := StateData(None, None)

  /** `context.user_data`: the selected sheet, the awaited-name flag (an absent
      flag reads as false) and `state_data`. */
  datatype UserData = UserData(currentSheet: Option<string>, awaitingSheetName: bool, stateData: Option<StateData>)

  /** `get_state_data`: the stored dictionary, created empty when absent. */
  function GetStateData(u: UserData): (r: (UserData, StateData))
    ensures r.0.stateData == Some(r.1)
    ensures r.0.currentSheet == u.currentSheet && r.0.awaitingSheetName == u.awaitingSheetName
    ensures u.stateData.Some? ==> r.0 == u
    ensures u.stateData.None? ==> r.1 == EmptyData
  {
    match u.stateData
    case Some(d) => (u, d)
    case None => (u.(stateData := Some(EmptyData)), EmptyData)
  }

  /** `clear_state_data`: an existing dictionary is replaced by `{}`; an
      absent one stays absent. */
  function ClearStateData(u: UserData): (u': UserData)
    ensures u'.stateData.Some? <==> u.stateData.Some?
    ensures u.stateData.Some? ==> u'.stateData == Some(EmptyData)
    ensures u'.currentSheet == u.currentSheet && u'.awaitingSheetName == u.awaitingSheetName
  {
    if u.stateData.Some? then u.(stateData := Some(EmptyData)) else u
  }

  /** Asking for the data twice gives the same dictionary and creates it at
      most once; clearing twice is clearing once; clearing after asking
      leaves an empty dictionary either way. */
  lemma StateDataAccess(u: UserData)
    ensures GetStateData(GetStateData(u).0) == GetStateData(u)
    ensures ClearStateData(ClearStateData(u)) == ClearStateData(u)
    ensures GetStateData(ClearStateData(GetStateData(u).0)) == (GetStateData(u).0.(stateData := Some(EmptyData)), EmptyData)
  {
  }
}

=== FILE: bot.dfy ===
/** The chat handlers of bot.py over the module-level `SheetsManager`: the
    user's `user_data` bag as a session record, and for every update the new
    state, the mutating manager calls the handler made (in order, a failing
    one included) and the replies it sent. An exception that escapes a
    handler ends it with a `Crashed` reply; whatever it changed before stays
    changed, as Python mutates `user_data` in place. */
module BotHandlers {
  import opened Results
  import opened Text
  import opened Dicts
  import opened Schema
  import opened Parser
  import opened Keyboards
  import opened Calls
  import Manager
  import Seqs

  /** `context.user_data`; `None` stands for an absent key. */
  datatype Session = Session(
    currentSheet: Option<string>,
    awaitingSheetName: bool,
    pendingColumns: Option<seq<string>>,
    pendingData: Option<Dict<string>>)

  const NewSession := Session(None, false, None, None)

  datatype Reply =
    | AskSheetName
    | SheetSelected(name: string)
    | SheetCreated(name: string)
    | CreateRefused
    | SelectFirst
    | FormatHelp
    | AskColumn(column: string, keyboard: Keyboard)
    | DataAdded
    | Crashed(error: string)

  datatype Bot = Bot(session: Session, sheets: Manager.Manager)

  datatype Outcome = Outcome(bot: Bot, calls: seq<Call>, replies: seq<Reply>)

  /** The `KeyError` for reading `user_data['current_sheet']` when unset. */
  const NoCurrentSheet := "'current_sheet'"

  /** `if user_data.get('pending_data')`: present and non-empty. */
  predicate HasPendingData(s: Session) {
    s.pendingData.Some? && |s.pendingData.value| > 0
  }

  /** The manager is consistent and the tabs are those of `b`'s manager. */
  ghost predicate SameTabs(b: Bot, b': Bot) {
    Manager.Valid(b'.sheets) && b'.sheets.book.tabs.Keys == b.sheets.book.tabs.Keys
  }

  function Prefix(calls: seq<Call>, o: Outcome): Outcome {
    o.(calls := calls + o.calls)
  }

  /** `sheets.append_row(sheet, data)`, the success reply, and, after a
      negotiation, `user_data.pop('pending_data', None)`. */
  function Commit(b: Bot, sheet: string, data: Dict<string>, dropPending: bool): (o: Outcome)
    requires Manager.Valid(b.sheets)
    ensures SameTabs(b, o.bot)
    ensures o.bot.session.currentSheet == b.session.currentSheet
    ensures o.bot.session.pendingColumns == b.session.pendingColumns
    ensures o.calls == [AppendRowCall(sheet, data)]
  {
    match Manager.AppendRow(b.sheets, sheet, data)
    case Err(e) => Outcome(b, [AppendRowCall(sheet, data)], [Crashed(e)])
    case Ok(m) =>
      var s := if dropPending then b.session.(pendingData := None) else b.session;
      Outcome(Bot(s, m), [AppendRowCall(sheet, data)], [DataAdded])
  }

  /** `handle_object_data`: diffs the keys against the sheet's columns; with
      no new key the row is appended, otherwise the pending list is seeded
      (only when there is none yet) and either its first column is offered
      or, when it is empty, the row is appended. */
  function HandleObjectData(b: Bot, data: Dict<string>, sheet: string): (o: Outcome)
    requires Manager.Valid(b.sheets)
    ensures SameTabs(b, o.bot)
    ensures o.bot.session.currentSheet == b.session.currentSheet
    ensures o.bot.session.awaitingSheetName == b.session.awaitingSheetName
    ensures b.session.pendingColumns.Some? ==> o.bot.session.pendingColumns == b.session.pendingColumns
    ensures forall c :: c in o.calls ==> c == AppendRowCall(sheet, data)
  {
    match Manager.GetColumns(b.sheets, sheet)
    case Err(e) => Outcome(b, [], [Crashed(e)])
    case Ok(got) =>
      var b1 := b.(sheets := got.0);
      var added := NewColumns(Keys(data), got.1);
      if |added| == 0 then Commit(b1, sheet, data, false)
      else
        var s := if b.session.pendingColumns.None?
          then b.session.(pendingColumns := Some(added), pendingData := Some(data))
          else b.session;
        var pending := s.pendingColumns.value;
        if |pending| == 0 then Commit(b1.(session := s), sheet, data, true)
        else Outcome(b1.(session := s), [], [AskColumn(pending[0], BuildColumnConfirmationKeyboard(sheet, pending[0]))])
  }

  /** `if 'pending_columns' in user_data: user_data['pending_columns'].remove(column)`. */
  function Unpend(s: Session, column: string): (r: Result<Session>)
    ensures r.Err? <==> s.pendingColumns.Some? && column !in s.pendingColumns.value
    ensures r.Err? ==> r.msg == NotInList
    ensures r.Ok? ==> r.value.pendingData == s.pendingData && r.value.currentSheet == s.currentSheet
    ensures r.Ok? && s.pendingColumns.Some? ==>
      && r.value.pendingColumns.Some?
      && |r.value.pendingColumns.value| == |s.pendingColumns.value| - 1
      && multiset(r.value.pendingColumns.value) == multiset(s.pendingColumns.value) - multiset{column}
    ensures s.pendingColumns.None? ==> r == Ok(s)
  {
    match s.pendingColumns
    case None => Ok(s)
    case Some(p) =>
      if column in p then Ok(s.(pendingColumns := Some(RemoveFirst(p, column)))) else Err(NotInList)
  }

  /** The Yes answer: `add_columns(sheet, [column])`, the column leaves the
      pending list, and the pending data is tried again on `sheet`. */
  function Confirm(b: Bot, sheet: string, column: string): (o: Outcome)
    requires Manager.Valid(b.sheets)
    ensures SameTabs(b, o.bot)
    ensures |o.calls| >= 1 && o.calls[0] == AddColumnsCall(sheet, [column])
  {
    var call := AddColumnsCall(sheet, [column]);
    match Manager.AddColumns(b.sheets, sheet, [column])
    case Err(e) => Outcome(b, [call], [Crashed(e)])
    case Ok(m) =>
      match Unpend(b.session, column)
      case Err(e) => Outcome(b.(sheets := m), [call], [Crashed(e)])
      case Ok(s) =>
        if HasPendingData(s) then Prefix([call], HandleObjectData(Bot(s, m), s.pendingData.value, sheet))
        else Outcome(Bot(s, m), [call], [])
  }

  /** The No answer: the column leaves the pending list and the pending data
      is tried again on the current sheet. */
  function Skip(b: Bot, column: string): (o: Outcome)
    requires Manager.Valid(b.sheets)
    ensures SameTabs(b, o.bot)
    ensures forall c :: c in o.calls ==> c.AppendRowCall?
  {
    match Unpend(b.session, column)
    case Err(e) => Outcome(b, [], [Crashed(e)])
    case Ok(s) =>
      if !HasPendingData(s) then Outcome(b.(session := s), [], [])
      else if s.currentSheet.None? then Outcome(b.(session := s), [], [Crashed(NoCurrentSheet)])
      else HandleObjectData(b.(session := s), s.pendingData.value, s.currentSheet.value)
  }

  /** How `handle_callback` reads callback data, in the order of its tests:
      the new-sheet button, a sheet choice, a Yes (whose decoding can fail
      to unpack) and a No; anything else is ignored. */
  datatype Callback =
    | StartSheet
    | Select(name: string)
    | AddColumnAnswer(target: Result<(string, string)>)
    | SkipColumnAnswer(column: string)
    | Ignored

  function ReadCallback(data: string): Callback {
    if data == CreateSheetData then StartSheet
    else if StartsWith(data, "select_sheet:") then Select(DecodeSelectSheet(data).value)
    else if StartsWith(data, "add_column:") then
      match DecodeAddColumn(data)
      case Err(e) => AddColumnAnswer(Err(e))
      case Ok(target) => if target.None? then Ignored else AddColumnAnswer(Ok(target.value))
    else if StartsWith(data, "skip_column:") then SkipColumnAnswer(DecodeSkipColumn(data).value)
    else Ignored
  }

  /** Every button the bot sends is read back as the action it was built
      for; a Yes keeps its sheet only when the sheet name has no ':'. */
  lemma ReadCallbackOfButtons(sheet: string, column: string, name: string)
    ensures ReadCallback(CreateSheetData) == StartSheet
    ensures ReadCallback(SelectSheetData(name)) == Select(name)
    ensures ':' !in sheet ==> ReadCallback(Answer(sheet, column, true)) == AddColumnAnswer(Ok((sheet, column)))
    ensures ReadCallback(Answer(sheet, column, false)) == SkipColumnAnswer(column)
  {
    ReadSelectButton(name);
    ReadYesButton(sheet, column);
    ReadNoButton(sheet, column);
  }

  lemma ReadSelectButton(name: string)
    ensures ReadCallback(SelectSheetData(name)) == Select(name)
  {
    SelectSheetRoundTrip(name);
    assert SelectSheetData(name)[..13] == "select_sheet:";
  }

  lemma ReadYesButton(sheet: string, column: string)
    ensures ':' !in sheet ==> ReadCallback(Answer(sheet, column, true)) == AddColumnAnswer(Ok((sheet, column)))
  {
    var yes := Answer(sheet, column, true);
    assert yes == AddColumnData(sheet, column);
    assert yes[..11] == "add_column:";
    ReadAddColumnData(yes);
  }

  /** Data starting with `add_column:` is read as a Yes for what it decodes to. */
  lemma ReadAddColumnData(data: string)
    requires StartsWith(data, "add_column:")
    ensures DecodeAddColumn(data).Ok? && DecodeAddColumn(data).value.Some? ==>
      ReadCallback(data) == AddColumnAnswer(Ok(DecodeAddColumn(data).value.value))
  {
    assert data[0] == data[..11][0] == 'a';
    CharDiffers(data, CreateSheetData, 0);
    CharDiffers(data, "select_sheet:", 0);
  }

  lemma ReadNoButton(sheet: string, column: string)
    ensures ReadCallback(Answer(sheet, column, false)) == SkipColumnAnswer(column)
  {
    SkipColumnRoundTrip(column);
    var no := Answer(sheet, column, false);
    assert no[..12] == "skip_column:";
    assert no[0] == 's' && no[1] == 'k';
    CharDiffers(no, CreateSheetData, 0);
    CharDiffers(no, "select_sheet:", 1);
    CharDiffers(no, "add_column:", 0);
  }

  /** `handle_callback` once the data is read: start a new sheet, select
      one, or answer a new-column prompt. */
  function Dispatch(b: Bot, c: Callback): (o: Outcome)
    requires Manager.Valid(b.sheets)
    ensures SameTabs(b, o.bot)
  {
    var s := b.session;
    match c
    case StartSheet => Outcome(b.(session := s.(awaitingSheetName := true)), [], [AskSheetName])
    case Select(name) => Outcome(b.(session := s.(currentSheet := Some(name))), [], [SheetSelected(name)])
    case AddColumnAnswer(target) =>
      if target.Err? then Outcome(b, [], [Crashed(target.msg)]) else Confirm(b, target.value.0, target.value.1)
    case SkipColumnAnswer(column) => Skip(b, column)
    case Ignored => Outcome(b, [], [])
  }

  /** `handle_callback`. */
  function HandleCallback(b: Bot, data: string): (o: Outcome)
    requires Manager.Valid(b.sheets)
    ensures SameTabs(b, o.bot)
  {
    Dispatch(b, ReadCallback(data))
  }

  /** `handle_message`: a sheet name while one is awaited, else a record for
      the current sheet. */
  function HandleMessage(b: Bot, text: string): (o: Outcome)
    requires Manager.Valid(b.sheets)
    ensures Manager.Valid(o.bot.sheets)
    ensures !b.session.awaitingSheetName ==> SameTabs(b, o.bot)
  {
    var s := b.session;
    if s.awaitingSheetName then
      var name := Strip(text);
      match Manager.CreateSheet(b.sheets, name)
      case Ok(m) =>
        Outcome(Bot(s.(currentSheet := Some(name), awaitingSheetName := false), m), [CreateSheetCall(name)], [SheetCreated(name)])
      case Err(_) => Outcome(b, [CreateSheetCall(name)], [CreateRefused])
    else if !Truthy(s.currentSheet) then Outcome(b, [], [SelectFirst])
    else
      match ParseObject(text)
      case None => Outcome(b, [], [FormatHelp])
      case Some(d) => HandleObjectData(b, d, s.currentSheet.value)
  }

  // ---------------------------------------------------------------------
  // One submission.

  function Fresh(b: Bot, data: Dict<string>, sheet: string): seq<string>
    requires Manager.Valid(b.sheets) && sheet in b.sheets.book.tabs
  {
    NewColumns(Keys(data), Manager.KnownColumns(b.sheets, sheet))
  }

  /** With no new key, or with a pending list already emptied, the data is
      appended at once with one `append_row(sheet, data)`. The session is
      untouched in the first case; in the second `pending_data` is dropped
      while the emptied `pending_columns` stays. */
  lemma ObjectDataCommits(b: Bot, data: Dict<string>, sheet: string)
    requires Manager.Valid(b.sheets) && sheet in b.sheets.book.tabs
    requires Fresh(b, data, sheet) == [] || b.session.pendingColumns == Some([])
    ensures var o := HandleObjectData(b, data, sheet);
      && o.calls == [AppendRowCall(sheet, data)]
      && o.replies == [DataAdded]
      && o.bot.sheets == Manager.AppendRow(Manager.AfterGet(b.sheets, sheet), sheet, data).value
      && o.bot.session == if Fresh(b, data, sheet) == [] then b.session else b.session.(pendingData := None)
  {
  }

  /** With a new key and a non-empty (or not yet seeded) pending list, nothing
      is written and the first pending column is offered; the pending list
      and data are seeded only when there were none. */
  lemma ObjectDataAsks(b: Bot, data: Dict<string>, sheet: string)
    requires Manager.Valid(b.sheets) && sheet in b.sheets.book.tabs
    requires Fresh(b, data, sheet) != [] && b.session.pendingColumns != Some([])
    ensures var pending := b.session.pendingColumns.GetOr(Fresh(b, data, sheet));
      var o := HandleObjectData(b, data, sheet);
      && |pending| > 0
      && o.calls == []
      && o.replies == [AskColumn(pending[0], BuildColumnConfirmationKeyboard(sheet, pending[0]))]
      && o.bot.sheets == Manager.AfterGet(b.sheets, sheet)
      && Manager.KnownColumns(o.bot.sheets, sheet) == Manager.KnownColumns(b.sheets, sheet)
      && o.bot.session == if b.session.pendingColumns.None?
        then b.session.(pendingColumns := Some(pending), pendingData := Some(data))
        else b.session
  {
  }

  // ---------------------------------------------------------------------
  // Answers to a prompt.

  /** A Yes removes the answered column from the pending list after asking
      for it to be added, whatever the retry then does. */
  lemma ConfirmShrinksPending(b: Bot, sheet: string, column: string, pending: seq<string>)
    requires Manager.Valid(b.sheets) && sheet in b.sheets.book.tabs && ':' !in sheet
    requires b.session.pendingColumns == Some(pending) && column in pending
    ensures var o := HandleCallback(b, Answer(sheet, column, true));
      && |o.calls| > 0 && o.calls[0] == AddColumnsCall(sheet, [column])
      && o.bot.session.pendingColumns == Some(RemoveFirst(pending, column))
  {
    ButtonsDispatch(b, sheet, column, true);
    YesIsConfirm(b, sheet, column);
    ConfirmRemovesColumn(b, sheet, column, pending);
  }

  lemma ConfirmRemovesColumn(b: Bot, sheet: string, column: string, pending: seq<string>)
    requires Manager.Valid(b.sheets) && sheet in b.sheets.book.tabs
    requires b.session.pendingColumns == Some(pending) && column in pending
    ensures Confirm(b, sheet, column).bot.session.pendingColumns == Some(RemoveFirst(pending, column))
  {
  }

  /** A No removes the answered column and adds no column. */
  lemma SkipShrinksPending(b: Bot, sheet: string, column: string, pending: seq<string>)
    requires Manager.Valid(b.sheets)
    requires b.session.pendingColumns == Some(pending) && column in pending
    ensures var o := HandleCallback(b, Answer(sheet, column, false));
      && (forall c :: c in o.calls ==> c.AppendRowCall?)
      && o.bot.session.pendingColumns == Some(RemoveFirst(pending, column))
  {
    ReadCallbackOfButtons(sheet, column, "");
  }

  /** Answering for a column that is not pending raises before anything is
      retried; a Yes has already extended the header by then. */
  lemma AnswerForUnpendedColumnFails(b: Bot, sheet: string, column: string, pending: seq<string>)
    requires Manager.Valid(b.sheets) && sheet in b.sheets.book.tabs && ':' !in sheet
    requires b.session.pendingColumns == Some(pending) && column !in pending
    ensures HandleCallback(b, Answer(sheet, column, false)) == Outcome(b, [], [Crashed(NotInList)])
    ensures var o := HandleCallback(b, Answer(sheet, column, true));
      && o.calls == [AddColumnsCall(sheet, [column])]
      && o.replies == [Crashed(NotInList)]
      && o.bot.session == b.session
  {
    assert Unpend(b.session, column).Err?;
    SkipUnpended(b, sheet, column);
    ConfirmUnpended(b, sheet, column);
  }

  lemma SkipUnpended(b: Bot, sheet: string, column: string)
    requires Manager.Valid(b.sheets) && Unpend(b.session, column).Err?
    ensures HandleCallback(b, Answer(sheet, column, false)) == Outcome(b, [], [Crashed(NotInList)])
  {
    ReadNoButton(sheet, column);
    SkipDataUnpended(b, Answer(sheet, column, false), column);
  }

  lemma SkipDataUnpended(b: Bot, data: string, column: string)
    requires Manager.Valid(b.sheets) && Unpend(b.session, column).Err?
    requires ReadCallback(data) == SkipColumnAnswer(column)
    ensures HandleCallback(b, data) == Outcome(b, [], [Crashed(NotInList)])
  {
  }

  lemma ConfirmUnpended(b: Bot, sheet: string, column: string)
    requires Manager.Valid(b.sheets) && sheet in b.sheets.book.tabs && ':' !in sheet && Unpend(b.session, column).Err?
    ensures HandleCallback(b, Answer(sheet, column, true))
      == Outcome(b.(sheets := Manager.AddColumns(b.sheets, sheet, [column]).value), [AddColumnsCall(sheet, [column])], [Crashed(NotInList)])
  {
    ReadYesButton(sheet, column);
    ConfirmDataUnpended(b, Answer(sheet, column, true), sheet, column);
  }

  lemma ConfirmDataUnpended(b: Bot, data: string, sheet: string, column: string)
    requires Manager.Valid(b.sheets) && sheet in b.sheets.book.tabs && Unpend(b.session, column).Err?
    requires ReadCallback(data) == AddColumnAnswer(Ok((sheet, column)))
    ensures HandleCallback(b, data)
      == Outcome(b.(sheets := Manager.AddColumns(b.sheets, sheet, [column]).value), [AddColumnsCall(sheet, [column])], [Crashed(NotInList)])
  {
  }

  // ---------------------------------------------------------------------
  // The whole negotiation.

  /** The callback data of the Yes (or the No) button under the prompt for `column`. */
  function Answer(sheet: string, column: string, yes: bool): string {
    var k := BuildColumnConfirmationKeyboard(sheet, column);
    if yes then k[0][0].data else k[0][1].data
  }

  /** The action a Yes (or a No) under the prompt for `column` stands for. */
  function Pressed(sheet: string, column: string, yes: bool): Callback {
    if yes then AddColumnAnswer(Ok((sheet, column))) else SkipColumnAnswer(column)
  }

  /** Pressing a prompt's button performs the action it stands for (for a
      Yes, as long as the sheet name has no ':'). */
  lemma ButtonsDispatch(b: Bot, sheet: string, column: string, yes: bool)
    requires Manager.Valid(b.sheets) && (yes ==> ':' !in sheet)
    ensures HandleCallback(b, Answer(sheet, column, yes)) == Dispatch(b, Pressed(sheet, column, yes))
  {
    ReadCallbackOfButtons(sheet, column, "");
  }

  /** Pressing, for each answer in turn, Yes or No under the prompt for the
      first pending column; it stops once nothing is pending. */
  function Negotiate(b: Bot, sheet: string, answers: seq<bool>): (o: Outcome)
    requires Manager.Valid(b.sheets)
    ensures SameTabs(b, o.bot)
    decreases |answers|
  {
    var pending := b.session.pendingColumns;
    if |answers| == 0 || pending.None? || |pending.value| == 0 then Outcome(b, [], [])
    else
      var o := Dispatch(b, Pressed(sheet, pending.value[0], answers[0]));
      var rest := Negotiate(o.bot, sheet, answers[1..]);
      Outcome(rest.bot, o.calls + rest.calls, o.replies + rest.replies)
  }

  /** The prompts for `columns`, in order. */
  function Prompts(sheet: string, columns: seq<string>): seq<Reply> {
    if |columns| == 0 then []
    else [AskColumn(columns[0], BuildColumnConfirmationKeyboard(sheet, columns[0]))] + Prompts(sheet, columns[1..])
  }

  /** The session side of a negotiation for `data` on `sheet` with `pending` left. */
  predicate Open(s: Session, sheet: string, data: Dict<string>, pending: seq<string>) {
    && s.currentSheet == Some(sheet)
    && s.pendingColumns == Some(pending)
    && s.pendingData == Some(data) && |data| > 0
  }

  /** A negotiation in progress for `data` on `sheet` with `pending` left:
      the pending columns are distinct keys of the data that the sheet's
      cached columns still lack. */
  ghost predicate Negotiating(b: Bot, sheet: string, data: Dict<string>, pending: seq<string>) {
    && Manager.Valid(b.sheets) && sheet in b.sheets.book.tabs && ':' !in sheet
    && Open(b.session, sheet, data, pending)
    && Unsettled(pending, Keys(data), Manager.KnownColumns(b.sheets, sheet))
  }

  /** A Yes is a callback that runs `add_columns` for the column and then
      re-enters `handle_object_data` with the pending data, the column gone
      from the pending list; the cached columns gain at most that column. */
  lemma YesReenters(b: Bot, sheet: string, data: Dict<string>, pending: seq<string>)
    requires Manager.Valid(b.sheets) && sheet in b.sheets.book.tabs
    requires Open(b.session, sheet, data, pending) && |pending| > 0
    ensures var m := Manager.AddColumns(b.sheets, sheet, [pending[0]]).value;
      var b1 := Bot(b.session.(pendingColumns := Some(pending[1..])), m);
      && Manager.Valid(m) && sheet in m.book.tabs
      && (forall c :: c in Manager.KnownColumns(m, sheet) ==> c in Manager.KnownColumns(b.sheets, sheet) || c == pending[0])
      && Dispatch(b, Pressed(sheet, pending[0], true))
         == Prefix([AddColumnsCall(sheet, [pending[0]])], HandleObjectData(b1, data, sheet))
  {
    Manager.AddColumnsKnownColumns(b.sheets, sheet, [pending[0]]);
    var s := b.session.(pendingColumns := Some(pending[1..]));
    UnpendFirst(b.session, pending);
    YesIsConfirm(b, sheet, pending[0]);
    ConfirmReenters(b, sheet, pending[0], s, Manager.AddColumns(b.sheets, sheet, [pending[0]]).value);
  }

  /** Answering the first pending column drops it from the front. */
  lemma UnpendFirst(s: Session, pending: seq<string>)
    requires s.pendingColumns == Some(pending) && |pending| > 0
    ensures Unpend(s, pending[0]) == Ok(s.(pendingColumns := Some(pending[1..])))
  {
  }

  lemma YesIsConfirm(b: Bot, sheet: string, column: string)
    requires Manager.Valid(b.sheets)
    ensures Dispatch(b, Pressed(sheet, column, true)) == Confirm(b, sheet, column)
  {
  }

  /** A Yes whose column is added and unpended re-enters `handle_object_data`. */
  lemma ConfirmReenters(b: Bot, sheet: string, column: string, s: Session, m: Manager.Manager)
    requires Manager.Valid(b.sheets)
    requires Manager.AddColumns(b.sheets, sheet, [column]) == Ok(m)
    requires Unpend(b.session, column) == Ok(s) && HasPendingData(s)
    ensures Confirm(b, sheet, column) == Prefix([AddColumnsCall(sheet, [column])], HandleObjectData(Bot(s, m), s.pendingData.value, sheet))
  {
  }

  /** A No is a callback that re-enters `handle_object_data` with the
      pending data on the current sheet, the column gone from the pending list. */
  lemma NoReenters(b: Bot, sheet: string, data: Dict<string>, pending: seq<string>)
    requires Manager.Valid(b.sheets)
    requires Open(b.session, sheet, data, pending) && |pending| > 0
    ensures var b1 := b.(session := b.session.(pendingColumns := Some(pending[1..])));
      Dispatch(b, Pressed(sheet, pending[0], false)) == HandleObjectData(b1, data, sheet)
  {
    UnpendFirst(b.session, pending);
    assert Dispatch(b, Pressed(sheet, pending[0], false)) == Skip(b, pending[0]);
  }

  /** An answer re-enters `handle_object_data` on a manager whose cached
      columns gained at most the answered column. */
  lemma AnswerReenters(b: Bot, sheet: string, data: Dict<string>, pending: seq<string>, yes: bool)
    requires Manager.Valid(b.sheets) && sheet in b.sheets.book.tabs
    requires Open(b.session, sheet, data, pending) && |pending| > 0
    ensures var m := if yes then Manager.AddColumns(b.sheets, sheet, [pending[0]]).value else b.sheets;
      var b1 := Bot(b.session.(pendingColumns := Some(pending[1..])), m);
      && Manager.Valid(m) && sheet in m.book.tabs
      && (forall c :: c in Manager.KnownColumns(m, sheet) ==> c in Manager.KnownColumns(b.sheets, sheet) || c == pending[0])
      && Dispatch(b, Pressed(sheet, pending[0], yes))
         == Prefix(if yes then [AddColumnsCall(sheet, [pending[0]])] else [], HandleObjectData(b1, data, sheet))
  {
    if yes {
      YesReenters(b, sheet, data, pending);
    } else {
      NoReenters(b, sheet, data, pending);
      var b1 := Bot(b.session.(pendingColumns := Some(pending[1..])), b.sheets);
      var o := HandleObjectData(b1, data, sheet);
      assert Prefix([], o) == o;
    }
  }

  /** Once the first pending column is answered, the negotiation goes on
      over the others, on a manager whose cached columns gained at most the
      answered one. */
  lemma StillNegotiating(b: Bot, sheet: string, data: Dict<string>, pending: seq<string>, m: Manager.Manager)
    requires Negotiating(b, sheet, data, pending) && |pending| > 0
    requires Manager.Valid(m) && sheet in m.book.tabs
    requires forall c :: c in Manager.KnownColumns(m, sheet) ==> c in Manager.KnownColumns(b.sheets, sheet) || c == pending[0]
    ensures Negotiating(Bot(b.session.(pendingColumns := Some(pending[1..])), m), sheet, data, pending[1..])
  {
    var keys := Keys(data);
    UnsettledWiden(pending[1..], keys, keys, Manager.KnownColumns(b.sheets, sheet), Manager.KnownColumns(m, sheet), pending[0]);
  }

  /** Re-entering with columns left offers the first of them; only the
      table cache changes. */
  lemma ContinueNegotiation(b: Bot, sheet: string, data: Dict<string>, pending: seq<string>)
    requires Manager.Valid(b.sheets) && sheet in b.sheets.book.tabs
    requires Open(b.session, sheet, data, pending) && |pending| > 0
    requires pending[0] in Fresh(b, data, sheet)
    ensures var o := HandleObjectData(b, data, sheet);
      && o.calls == []
      && o.replies == Prompts(sheet, pending[..1])
      && o.bot == Bot(b.session, Manager.AfterGet(b.sheets, sheet))
  {
    ObjectDataAsks(b, data, sheet);
    assert pending[..1][1..] == [];
  }

  /** Caching the sheet's table keeps a negotiation going. */
  lemma NegotiatingAfterGet(b: Bot, sheet: string, data: Dict<string>, pending: seq<string>)
    requires Negotiating(b, sheet, data, pending)
    ensures Negotiating(Bot(b.session, Manager.AfterGet(b.sheets, sheet)), sheet, data, pending)
  {
  }

  /** An answer with more columns pending leads to the prompt for the next
      one and writes nothing but the Yes column. */
  lemma AnswerAsksNext(b: Bot, sheet: string, data: Dict<string>, pending: seq<string>, yes: bool)
    requires Negotiating(b, sheet, data, pending) && |pending| >= 2
    ensures var o := Dispatch(b, Pressed(sheet, pending[0], yes));
      && o.calls == (if yes then [AddColumnsCall(sheet, [pending[0]])] else [])
      && o.replies == Prompts(sheet, pending[1..2])
      && Negotiating(o.bot, sheet, data, pending[1..])
  {
    AnswerReenters(b, sheet, data, pending, yes);
    var m := if yes then Manager.AddColumns(b.sheets, sheet, [pending[0]]).value else b.sheets;
    var b1 := Bot(b.session.(pendingColumns := Some(pending[1..])), m);
    StillNegotiating(b, sheet, data, pending, m);
    NextPromptAfterAnswer(b1, sheet, data, pending);
    var calls := if yes then [AddColumnsCall(sheet, [pending[0]])] else [];
    PrefixKeepsPrompt(Dispatch(b, Pressed(sheet, pending[0], yes)), HandleObjectData(b1, data, sheet), calls, sheet, data, pending);
  }

  lemma PrefixKeepsPrompt(o: Outcome, h: Outcome, calls: seq<Call>, sheet: string, data: Dict<string>, pending: seq<string>)
    requires |pending| >= 2 && o == Prefix(calls, h)
    requires h.calls == [] && h.replies == Prompts(sheet, pending[1..2]) && Negotiating(h.bot, sheet, data, pending[1..])
    ensures o.calls == calls && o.replies == Prompts(sheet, pending[1..2]) && Negotiating(o.bot, sheet, data, pending[1..])
  {
  }

  /** Re-entering a negotiation with the answered column dropped offers the
      next column and keeps the negotiation going. */
  lemma NextPromptAfterAnswer(b1: Bot, sheet: string, data: Dict<string>, pending: seq<string>)
    requires |pending| >= 2 && Negotiating(b1, sheet, data, pending[1..])
    ensures var o := HandleObjectData(b1, data, sheet);
      && o.calls == []
      && o.replies == Prompts(sheet, pending[1..2])
      && Negotiating(o.bot, sheet, data, pending[1..])
  {
    var rest := pending[1..];
    FirstPendingIsFresh(b1, sheet, data, rest);
    ContinueNegotiation(b1, sheet, data, rest);
    NegotiatingAfterGet(b1, sheet, data, rest);
    NextPromptIsSecond(HandleObjectData(b1, data, sheet), Bot(b1.session, Manager.AfterGet(b1.sheets, sheet)), sheet, data, pending);
  }

  lemma NextPromptIsSecond(h: Outcome, b': Bot, sheet: string, data: Dict<string>, pending: seq<string>)
    requires |pending| >= 2
    requires h.replies == Prompts(sheet, pending[1..][..1]) && h.bot == b' && Negotiating(b', sheet, data, pending[1..])
    ensures h.replies == Prompts(sheet, pending[1..2]) && Negotiating(h.bot, sheet, data, pending[1..])
  {
    Seqs.DropTake(pending, 1, 1);
  }

  /** The first pending column of a negotiation is a new column of the data. */
  lemma FirstPendingIsFresh(b: Bot, sheet: string, data: Dict<string>, pending: seq<string>)
    requires Negotiating(b, sheet, data, pending) && |pending| > 0
    ensures pending[0] in Fresh(b, data, sheet)
  {
  }

  /** The answer to the last pending column appends the data, once. */
  lemma AnswerCommits(b: Bot, sheet: string, data: Dict<string>, pending: seq<string>, yes: bool)
    requires Manager.Valid(b.sheets) && sheet in b.sheets.book.tabs
    requires Open(b.session, sheet, data, pending) && |pending| == 1
    ensures var o := Dispatch(b, Pressed(sheet, pending[0], yes));
      && o.calls == (if yes then [AddColumnsCall(sheet, [pending[0]])] else []) + [AppendRowCall(sheet, data)]
      && o.replies == [DataAdded]
      && o.bot.session.pendingColumns == Some([])
  {
    AnswerReenters(b, sheet, data, pending, yes);
    var m := if yes then Manager.AddColumns(b.sheets, sheet, [pending[0]]).value else b.sheets;
    var b1 := Bot(b.session.(pendingColumns := Some(pending[1..])), m);
    ObjectDataCommits(b1, data, sheet);
  }

  /** However the prompts are answered, a negotiation over `pending` ends
      after exactly `|pending|` answers with the Yes columns added in order
      and exactly one `append_row` of the data, last; every column but the
      first is offered on the way, and the pending list is left empty. */
  lemma {:induction false} NegotiationAppendsOnce(b: Bot, sheet: string, data: Dict<string>, pending: seq<string>, answers: seq<bool>)
    requires Negotiating(b, sheet, data, pending) && |answers| == |pending| > 0
    ensures var o := Negotiate(b, sheet, answers);
      && o.calls == Additions(sheet, pending, answers) + [AppendRowCall(sheet, data)]
      && o.replies == Prompts(sheet, pending[1..]) + [DataAdded]
      && o.bot.session.pendingColumns == Some([])
    decreases |pending|
  {
    var o := Dispatch(b, Pressed(sheet, pending[0], answers[0]));
    var rest := Negotiate(o.bot, sheet, answers[1..]);
    NegotiateStep(b, sheet, pending, answers);
    if |pending| == 1 {
      AnswerCommits(b, sheet, data, pending, answers[0]);
      ConcludeLast(Negotiate(b, sheet, answers), o, rest, sheet, data, pending, answers);
    } else {
      AnswerAsksNext(b, sheet, data, pending, answers[0]);
      NegotiationAppendsOnce(o.bot, sheet, data, pending[1..], answers[1..]);
      ConcludeMore(Negotiate(b, sheet, answers), o, rest, sheet, data, pending, answers);
    }
  }

  /** The outcome of the last answer is the outcome of the negotiation. */
  lemma ConcludeLast(n: Outcome, o: Outcome, rest: Outcome, sheet: string, data: Dict<string>, pending: seq<string>, answers: seq<bool>)
    requires |answers| == |pending| == 1
    requires n == Outcome(rest.bot, o.calls + rest.calls, o.replies + rest.replies) && rest == Outcome(o.bot, [], [])
    requires o.calls == (if answers[0] then [AddColumnsCall(sheet, [pending[0]])] else []) + [AppendRowCall(sheet, data)]
    requires o.replies == [DataAdded] && o.bot.session.pendingColumns == Some([])
    ensures n.calls == Additions(sheet, pending, answers) + [AppendRowCall(sheet, data)]
    ensures n.replies == Prompts(sheet, pending[1..]) + [DataAdded]
    ensures n.bot.session.pendingColumns == Some([])
  {
    assert Additions(sheet, pending[1..], answers[1..]) == [];
  }

  /** The outcome of one answer followed by the rest of the negotiation. */
  lemma ConcludeMore(n: Outcome, o: Outcome, rest: Outcome, sheet: string, data: Dict<string>, pending: seq<string>, answers: seq<bool>)
    requires |answers| == |pending| >= 2
    requires n == Outcome(rest.bot, o.calls + rest.calls, o.replies + rest.replies)
    requires o.calls == (if answers[0] then [AddColumnsCall(sheet, [pending[0]])] else [])
    requires o.replies == Prompts(sheet, pending[1..2])
    requires rest.calls == Additions(sheet, pending[1..], answers[1..]) + [AppendRowCall(sheet, data)]
    requires rest.replies == Prompts(sheet, pending[1..][1..]) + [DataAdded]
    requires rest.bot.session.pendingColumns == Some([])
    ensures n.calls == Additions(sheet, pending, answers) + [AppendRowCall(sheet, data)]
    ensures n.replies == Prompts(sheet, pending[1..]) + [DataAdded]
    ensures n.bot.session.pendingColumns == Some([])
  {
    CallsAfterFirst(sheet, data, pending, answers, o.calls, rest.calls);
    PromptsAfterFirst(sheet, pending, o.replies, rest.replies);
  }

  /** The prompts after the first are the second one and those after it. */
  lemma PromptsAfterFirst(sheet: string, pending: seq<string>, first: seq<Reply>, later: seq<Reply>)
    requires |pending| >= 2
    requires first == Prompts(sheet, pending[1..2])
    requires later == Prompts(sheet, pending[1..][1..]) + [DataAdded]
    ensures first + later == Prompts(sheet, pending[1..]) + [DataAdded]
  {
    var p := pending[1..];
    Seqs.DropTake(pending, 1, 1);
    Seqs.HeadTail(p);
    PromptsAppend(sheet, p[..1], p[1..]);
    Seqs.Assoc(Prompts(sheet, p[..1]), Prompts(sheet, p[1..]), [DataAdded]);
  }

  lemma {:induction false} PromptsAppend(sheet: string, xs: seq<string>, ys: seq<string>)
    ensures Prompts(sheet, xs + ys) == Prompts(sheet, xs) + Prompts(sheet, ys)
    decreases |xs|
  {
    if |xs| > 0 {
      assert (xs + ys)[1..] == xs[1..] + ys;
      PromptsAppend(sheet, xs[1..], ys);
    } else {
      assert xs + ys == ys;
    }
  }

  /** One answer, then the rest. */
  lemma NegotiateStep(b: Bot, sheet: string, pending: seq<string>, answers: seq<bool>)
    requires Manager.Valid(b.sheets) && b.session.pendingColumns == Some(pending)
    requires |pending| > 0 && |answers| > 0
    ensures var o := Dispatch(b, Pressed(sheet, pending[0], answers[0]));
      var rest := Negotiate(o.bot, sheet, answers[1..]);
      Negotiate(b, sheet, answers) == Outcome(rest.bot, o.calls + rest.calls, o.replies + rest.replies)
  {
  }

  /** With a sheet selected and no sheet name awaited, a message that parses
      as a record goes to `handle_object_data` for the current sheet. */
  lemma RecordReachesObjectData(b: Bot, text: string, sheet: string, data: Dict<string>)
    requires Manager.Valid(b.sheets) && !b.session.awaitingSheetName
    requires b.session.currentSheet == Some(sheet) && sheet != ""
    requires ParseObject(text) == Some(data)
    ensures HandleMessage(b, text) == HandleObjectData(b, data, sheet)
  {
  }

  /** Record data with new keys, with no negotiation open, opens one over
      exactly those keys: nothing is written and the first of them is offered. */
  lemma ObjectDataOpensNegotiation(b: Bot, sheet: string, data: Dict<string>)
    requires Manager.Valid(b.sheets) && sheet in b.sheets.book.tabs && ':' !in sheet
    requires b.session == Session(Some(sheet), false, None, None)
    requires Wf(data) && Fresh(b, data, sheet) != []
    ensures var pending := Fresh(b, data, sheet);
      var o := HandleObjectData(b, data, sheet);
      && o.calls == []
      && o.replies == Prompts(sheet, pending[..1])
      && Negotiating(o.bot, sheet, data, pending)
  {
    var pending := Fresh(b, data, sheet);
    var o := HandleObjectData(b, data, sheet);
    ObjectDataAsks(b, data, sheet);
    NewColumnsUnsettled(Keys(data), Manager.KnownColumns(b.sheets, sheet));
    NegotiationOpened(b, o.bot, sheet, data, pending);
    FirstPrompt(sheet, pending);
  }

  /** Seeding the pending list and data, with the cached columns unchanged,
      starts a negotiation over unsettled columns. */
  lemma NegotiationOpened(b: Bot, b': Bot, sheet: string, data: Dict<string>, pending: seq<string>)
    requires Manager.Valid(b.sheets) && sheet in b.sheets.book.tabs && ':' !in sheet && |data| > 0
    requires Unsettled(pending, Keys(data), Manager.KnownColumns(b.sheets, sheet))
    requires Manager.Valid(b'.sheets) && b'.sheets.book.tabs.Keys == b.sheets.book.tabs.Keys
    requires Manager.KnownColumns(b'.sheets, sheet) == Manager.KnownColumns(b.sheets, sheet)
    requires b'.session == b.session.(currentSheet := Some(sheet), pendingColumns := Some(pending), pendingData := Some(data))
    ensures Negotiating(b', sheet, data, pending)
  {
  }

  lemma FirstPrompt(sheet: string, pending: seq<string>)
    requires |pending| > 0
    ensures Prompts(sheet, pending[..1]) == [AskColumn(pending[0], BuildColumnConfirmationKeyboard(sheet, pending[0]))]
  {
    assert pending[..1][1..] == [];
  }

  /** A record with new keys, sent with a sheet selected and no negotiation
      open, opens one over exactly those keys: nothing is written and the
      first of them is offered. */
  lemma SubmissionOpensNegotiation(b: Bot, text: string, sheet: string, data: Dict<string>)
    requires Manager.Valid(b.sheets) && sheet in b.sheets.book.tabs && ':' !in sheet && sheet != ""
    requires b.session == Session(Some(sheet), false, None, None)
    requires ParseObject(text) == Some(data) && Fresh(b, data, sheet) != []
    ensures var pending := Fresh(b, data, sheet);
      var o := HandleMessage(b, text);
      && o.calls == []
      && o.replies == Prompts(sheet, pending[..1])
      && Negotiating(o.bot, sheet, data, pending)
  {
    RecordReachesObjectData(b, text, sheet, data);
    ObjectDataOpensNegotiation(b, sheet, data);
  }

  /** With a sheet name awaited, a message creates the stripped name as a new
      tab and selects it; a taken name is refused and still awaited. */
  lemma SheetNameMessage(b: Bot, text: string)
    requires Manager.Valid(b.sheets) && b.session.awaitingSheetName
    ensures var name := Strip(text);
      var o := HandleMessage(b, text);
      && o.calls == [CreateSheetCall(name)]
      && (name in b.sheets.book.tabs <==> o.replies == [CreateRefused])
      && (name in b.sheets.book.tabs ==> o.bot == b)
      && (name !in b.sheets.book.tabs ==>
           && o.bot.session == b.session.(currentSheet := Some(name), awaitingSheetName := false)
           && Manager.GetAllSheets(o.bot.sheets) == Manager.GetAllSheets(b.sheets) + [name])
  {
  }

  /** Without a truthy current sheet a record is not parsed or written. */
  lemma RecordWithoutSheet(b: Bot, text: string)
    requires Manager.Valid(b.sheets) && !b.session.awaitingSheetName && !Truthy(b.session.currentSheet)
    ensures HandleMessage(b, text) == Outcome(b, [], [SelectFirst])
  {
  }
}

=== FILE: calls.dfy ===
/** The mutating requests a handler makes of its spreadsheet gateway, logged
    in order so that "exactly one append" can be stated. */
module Calls {
  import opened Dicts

  datatype Call =
    | CreateSheetCall(title: string)
    | AddColumnsCall(sheet: string, columns: seq<string>)
    | AppendRowCall(sheet: string, data: Dict<string>)

  /** The `add_columns` calls made by the Yes answers, in order. */
  function Additions(sheet: string, columns: seq<string>, answers: seq<bool>): seq<Call>
    requires |answers| == |columns|
  {
    if |answers| == 0 then []
    else (if answers[0] then [AddColumnsCall(sheet, [columns[0]])] else []) + Additions(sheet, columns[1..], answers[1..])
  }

  /** The calls of the first answer followed by those of the rest. */
  lemma CallsAfterFirst(sheet: string, data: Dict<string>, pending: seq<string>, answers: seq<bool>, first: seq<Call>, later: seq<Call>)
    requires |answers| == |pending| >= 1
    requires first == (if answers[0] then [AddColumnsCall(sheet, [pending[0]])] else [])
    requires later == Additions(sheet, pending[1..], answers[1..]) + [AppendRowCall(sheet, data)]
    ensures first + later == Additions(sheet, pending, answers) + [AppendRowCall(sheet, data)]
  {
  }
}

=== FILE: data_entry.dfy ===
/** `DataEntryHandler` of src/handlers/data_entry_handler.py: a menu choice,
    then a sheet selection that loads the sheet's header, then one message
    per column, each stored under the column the cursor points at; when the
    cursor passes the last column the collected record is appended once and
    the conversation ends. */
module DataEntry {
  import opened Results
  import opened Dicts
  import opened Keyboards
  import opened Calls
  import Service

  /** The conversation states the handlers return; `Finished` is -1, which
      is also `ConversationHandler.END`. */
  datatype Next = ChooseAction | SelectSheet | EnterData | Finished

  const StudentRecords := "\U{1F4D1} Student Records"
  const ClassProgress := "\U{1F4DA} Class Progress"
  const Attendance := "\U{1F4C8} Attendance"
  const BackToMenu := "\U{1F519} Back to Menu"

  /** The rows of the reply keyboard `start` shows. */
  const StartKeyboard: seq<seq<string>> := [[StudentRecords, ClassProgress], [Attendance]]

  /** `handle_action_choice`: one of the three sheet choices moves on to data
      entry, the back choice ends the conversation, anything else asks again. */
  function ActionChoice(choice: string): (next: Next)
    ensures next == EnterData <==> choice in {StudentRecords, ClassProgress, Attendance}
    ensures next == Finished <==> choice == BackToMenu
    ensures next != SelectSheet
  {
    if choice == StudentRecords || choice == ClassProgress || choice == Attendance then EnterData
    else if choice == BackToMenu then Finished
    else ChooseAction
  }

  /** Every button of the `start` keyboard leads to data entry, and typing
      one of the main-menu captions inside this conversation asks again. */
  lemma StartChoicesEnterData()
    ensures forall row, caption :: row in StartKeyboard && caption in row ==> ActionChoice(caption) == EnterData
    ensures ActionChoice("\U{1F4DD} Data Entry") == ChooseAction
  {
  }

  /** The per-user entry: the selected sheet, its columns as loaded, the
      column cursor and the values collected so far. */
  datatype Entry = Entry(sheet: string, columns: seq<string>, cursor: nat, data: Dict<string>)

  datatype Reply = AskValue(column: string) | DataAdded | AppendFailed(message: string)

  /** The result of one update: the entry (absent before any selection), the
      store, the replies sent, the gateway calls made and the next state, or
      the message of the exception the handler raised. */
  datatype Turn = Turn(entry: Option<Entry>, store: Service.Service, replies: seq<Reply>, calls: seq<Call>, next: Result<Next>)

  const IndexOutOfRange := "list index out of range"

  /** What precedes the exception message when an append is refused. */
  const ErrorPrefix := "\U{274C} Error: "

  /** `prompt_next_column`: asks for the column under the cursor. */
  function PromptNextColumn(e: Entry): Result<Reply> {
    if e.cursor < |e.columns| then Ok(AskValue(e.columns[e.cursor])) else Err(IndexOutOfRange)
  }

  /** `handle_sheet_selection`: the sheet is the second ':'-separated piece
      of the button data; the entry restarts on that sheet's current header
      with the cursor at 0 and no data, and the first column is asked for (a
      sheet without columns makes the prompt raise). */
  function HandleSheetSelection(store: Service.Service, entry: Option<Entry>, data: string): (t: Turn)
    ensures t.store == store && t.calls == []
    ensures DecodeEntrySheet(data).Err? ==> t.entry == entry && t.next.Err?
    ensures DecodeEntrySheet(data).Ok? ==>
      var sheet := DecodeEntrySheet(data).value;
      && t.entry == Some(Entry(sheet, Service.GetColumns(store, sheet), 0, []))
      && (t.next == Ok(EnterData) <==> Service.GetColumns(store, sheet) != [])
      && (Service.GetColumns(store, sheet) != [] ==> t.replies == [AskValue(Service.GetColumns(store, sheet)[0])])
  {
    match DecodeEntrySheet(data)
    case Err(m) => Turn(entry, store, [], [], Err(m))
    case Ok(sheet) =>
      var e := Entry(sheet, Service.GetColumns(store, sheet), 0, []);
      match PromptNextColumn(e)
      case Err(m) => Turn(Some(e), store, [], [], Err(m))
      case Ok(reply) => Turn(Some(e), store, [reply], [], Ok(EnterData))
  }

  /** Selecting a sheet whose name holds ':' loads the sheet named by the
      part before it. */
  lemma SelectionCutsAtColon(store: Service.Service)
    ensures HandleSheetSelection(store, None, SelectSheetData("a:b")).entry.value.sheet == "a"
  {
    DecodeCutsAtColon();
  }

  lemma DecodeCutsAtColon()
    ensures DecodeEntrySheet(SelectSheetData("a:b")) == Ok("a")
  {
    var data := SelectSheetData("a:b");
    assert data == "select_sheet" + [':'] + ("a" + [':'] + "b");
    Text.SplitAfterPrefix("select_sheet", ':', "a" + [':'] + "b");
    Text.SplitAfterPrefix("a", ':', "b");
    assert Text.Split(data, ':')[1] == "a";
  }

  /** `handle_data_entry`: the text is stored under the column at the cursor
      and the cursor moves on by one. Past the last column the record is
      appended (a refusal is reported, not raised) and the conversation ends;
      otherwise the next column is asked for. */
  function HandleDataEntry(store: Service.Service, entry: Option<Entry>, text: string): (t: Turn)
    requires Service.Valid(store)
    ensures Service.Valid(t.store)
  {
    match entry
    case None => Turn(entry, store, [], [], Err("'columns'"))
    case Some(e) =>
      if e.cursor >= |e.columns| then Turn(entry, store, [], [], Err(IndexOutOfRange))
      else
        var e' := Advance(e, text);
        if e'.cursor >= |e.columns| then Commit(store, e')
        else Turn(Some(e'), store, [AskValue(e.columns[e'.cursor])], [], Ok(EnterData))
  }

  /** The entry after a message: the text stored under the column at the
      cursor, the cursor one column further. */
  function Advance(e: Entry, text: string): (e': Entry)
    requires e.cursor < |e.columns|
    ensures e'.sheet == e.sheet && e'.columns == e.columns && e'.cursor == e.cursor + 1
  {
    Entry(e.sheet, e.columns, e.cursor + 1, Put(e.data, e.columns[e.cursor], text))
  }

  /** The reply to the append that ends a run: success, or the refusal's
      message after the error mark. */
  function Outcome(store: Service.Service, sheet: string, record: Dict<string>): (r: Reply)
    requires Service.Valid(store)
    ensures r == DataAdded <==> Service.GetColumns(store, sheet) != []
  {
    match Service.AppendRow(store, sheet, record)
    case Ok(_) => DataAdded
    case Err(m) => AppendFailed(ErrorPrefix + m)
  }

  /** The end of a run: one append of the collected record, and the
      conversation ends whether or not the store accepted it. */
  function Commit(store: Service.Service, e: Entry): (t: Turn)
    requires Service.Valid(store)
    ensures Service.Valid(t.store)
    ensures t.entry == Some(e) && t.next == Ok(Finished) && t.calls == [AppendRowCall(e.sheet, e.data)]
    ensures t.replies == [Outcome(store, e.sheet, e.data)]
  {
    var r := Service.AppendRow(store, e.sheet, e.data);
    Turn(Some(e), if r.Ok? then r.value else store, [Outcome(store, e.sheet, e.data)], [AppendRowCall(e.sheet, e.data)], Ok(Finished))
  }

  /** The cursor moves on by exactly one column per message, the message
      stored under the column it pointed at; the one append happens exactly
      when the cursor passes the last column, and it ends the conversation;
      before that the next column is asked for. Without a selection, or with
      the cursor already past the columns, the handler raises. */
  lemma DataEntryStep(store: Service.Service, entry: Option<Entry>, text: string)
    requires Service.Valid(store)
    ensures var t := HandleDataEntry(store, entry, text);
      && (entry.None? || entry.value.cursor >= |entry.value.columns| ==> t.next.Err? && t.calls == [] && t.entry == entry)
      && (entry.Some? && entry.value.cursor < |entry.value.columns| ==>
        var e := entry.value;
        && t.entry == Some(Advance(e, text))
        && t.next.Ok?
        && (t.next.value == Finished <==> e.cursor + 1 >= |e.columns|)
        && (t.next.value != Finished ==>
              && t.next.value == EnterData && t.calls == [] && t.store == store
              && t.replies == [AskValue(e.columns[e.cursor + 1])])
        && (t.next.value == Finished ==> t.calls == [AppendRowCall(e.sheet, t.entry.value.data)]))
  {
    if entry.Some? && entry.value.cursor < |entry.value.columns| {
      var e := entry.value;
      var a := Advance(e, text);
      if e.cursor + 1 < |e.columns| {
        EarlierEntry(store, e, text);
        assert HandleDataEntry(store, entry, text) == Turn(Some(a), store, [AskValue(e.columns[e.cursor + 1])], [], Ok(EnterData));
      } else {
        LastStep(store, e, text);
        assert HandleDataEntry(store, entry, text) == Commit(store, a);
      }
    } else {
      RejectedStep(store, entry, text);
    }
  }

  /** Without an entry, or with its cursor past the columns, a message is an
      error and leaves everything as it was. */
  lemma RejectedStep(store: Service.Service, entry: Option<Entry>, text: string)
    requires Service.Valid(store)
    requires entry.None? || entry.value.cursor >= |entry.value.columns|
    ensures var t := HandleDataEntry(store, entry, text);
      t.next.Err? && t.calls == [] && t.entry == entry && t.store == store && t.replies == []
  {
  }

  /** As wired, no state ever leads to the sheet selection: a button of the
      `start` keyboard moves straight to data entry, where nothing has been
      selected, so every message there raises `KeyError: 'columns'` and
      changes nothing. */
  lemma ChoiceThenMessageRaises(store: Service.Service, choice: string, text: string)
    requires Service.Valid(store)
    requires choice in {StudentRecords, ClassProgress, Attendance}
    ensures ActionChoice(choice) == EnterData
    ensures forall c :: ActionChoice(c) != SelectSheet
    ensures HandleDataEntry(store, None, text) == Turn(None, store, [], [], Err("'columns'"))
  {
  }

  /** A refused append is reported to the user and still ends the
      conversation, with the store untouched. */
  lemma RefusedAppendIsReported(store: Service.Service, e: Entry, text: string)
    requires Service.Valid(store)
    requires e.cursor + 1 == |e.columns| && Service.GetColumns(store, e.sheet) == []
    ensures var t := HandleDataEntry(store, Some(e), text);
      && t.next == Ok(Finished)
      && t.store == store
      && t.replies == [AppendFailed(ErrorPrefix + "Sheet has no columns")]
  {
  }

  /** The messages of a data-entry run handled one after another while the
      conversation stays in data entry. */
  function Feed(store: Service.Service, e: Entry, texts: seq<string>): (t: Turn)
    requires Service.Valid(store)
    ensures Service.Valid(t.store)
    decreases |texts|
  {
    if |texts| == 0 then Turn(Some(e), store, [], [], Ok(EnterData))
    else
      var t := HandleDataEntry(store, Some(e), texts[0]);
      if t.next != Ok(EnterData) then t
      else
        var rest := Feed(t.store, t.entry.value, texts[1..]);
        Turn(rest.entry, rest.store, t.replies + rest.replies, t.calls + rest.calls, rest.next)
  }

  /** The record the remaining messages complete: each text stored under its
      column, in order, on top of what was collected. */
  function Collected(d: Dict<string>, columns: seq<string>, texts: seq<string>): Dict<string>
    requires |texts| == |columns|
    decreases |columns|
  {
    if |columns| == 0 then d else Collected(Put(d, columns[0], texts[0]), columns[1..], texts[1..])
  }

  /** Keys outside the remaining columns keep their collected values. */
  lemma {:induction false} CollectedKeeps(d: Dict<string>, columns: seq<string>, texts: seq<string>, k: string)
    requires |texts| == |columns| && k !in columns
    ensures Get(Collected(d, columns, texts), k) == Get(d, k)
    decreases |columns|
  {
    if |columns| > 0 {
      CollectedKeeps(Put(d, columns[0], texts[0]), columns[1..], texts[1..], k);
    }
  }

  /** A record built on a well-formed dictionary is well formed. */
  lemma {:induction false} CollectedWf(d: Dict<string>, columns: seq<string>, texts: seq<string>)
    requires |texts| == |columns| && Wf(d)
    ensures Wf(Collected(d, columns, texts))
    decreases |columns|
  {
    if |columns| > 0 {
      PutWf(d, columns[0], texts[0]);
      CollectedWf(Put(d, columns[0], texts[0]), columns[1..], texts[1..]);
    }
  }

  /** New distinct columns go after the keys collected so far, in order. */
  lemma {:induction false} CollectedKeys(d: Dict<string>, columns: seq<string>, texts: seq<string>)
    requires |texts| == |columns| && Distinct(columns)
    requires forall c :: c in columns ==> c !in Keys(d)
    ensures Keys(Collected(d, columns, texts)) == Keys(d) + columns
    decreases |columns|
  {
    if |columns| > 0 {
      var c := columns[0];
      var rest := columns[1..];
      var d' := Put(d, c, texts[0]);
      PutKeys(d, c, texts[0]);
      assert Keys(d') == Keys(d) + [c];
      assert forall x :: x in rest ==> x != c && x in columns;
      CollectedKeys(d', rest, texts[1..]);
      KeysJoin(Keys(d), c, rest, columns);
    }
  }

  /** Keys gathered as `[c]` then `rest` are keys gathered as `columns`. */
  lemma KeysJoin(kd: seq<string>, c: string, rest: seq<string>, columns: seq<string>)
    requires |columns| > 0 && c == columns[0] && rest == columns[1..]
    ensures kd + [c] + rest == kd + columns
  {
    assert [c] + rest == columns;
  }

  /** With distinct columns each column ends up holding its own message. */
  lemma {:induction false} CollectedValues(d: Dict<string>, columns: seq<string>, texts: seq<string>)
    requires |texts| == |columns| && Distinct(columns)
    ensures forall i :: 0 <= i < |columns| ==> Get(Collected(d, columns, texts), columns[i]) == Some(texts[i])
    decreases |columns|
  {
    if |columns| > 0 {
      var d' := Put(d, columns[0], texts[0]);
      var rest := columns[1..];
      CollectedValues(d', rest, texts[1..]);
      CollectedKeeps(d', rest, texts[1..], columns[0]);
      forall i | 0 < i < |columns|
        ensures Get(Collected(d, columns, texts), columns[i]) == Some(texts[i])
      {
        assert rest[i - 1] == columns[i];
      }
    }
  }

  /** For distinct columns the record started from nothing holds exactly the
      columns, in order, each with its own message. */
  lemma CollectedRecord(columns: seq<string>, texts: seq<string>)
    requires |texts| == |columns| && Distinct(columns)
    ensures Keys(Collected([], columns, texts)) == columns
    ensures Wf(Collected([], columns, texts))
    ensures forall i :: 0 <= i < |columns| ==> Get(Collected([], columns, texts), columns[i]) == Some(texts[i])
  {
    CollectedWf([], columns, texts);
    CollectedKeys([], columns, texts);
    CollectedValues([], columns, texts);
    assert Keys<string>([]) + columns == columns;
  }

  /** The prompts asking for each of `columns`, in order. */
  function Prompts(columns: seq<string>): (r: seq<Reply>)
    ensures |r| == |columns|
    ensures forall i :: 0 <= i < |columns| ==> r[i] == AskValue(columns[i])
  {
    seq(|columns|, i requires 0 <= i < |columns| => AskValue(columns[i]))
  }

  /** A message for a column before the last stores it, asks for the next
      column and stays in data entry without touching the store. */
  lemma EarlierEntry(store: Service.Service, e: Entry, text: string)
    requires Service.Valid(store) && e.cursor + 1 < |e.columns|
    ensures HandleDataEntry(store, Some(e), text) == Turn(Some(Advance(e, text)), store, [AskValue(e.columns[e.cursor + 1])], [], Ok(EnterData))
  {
  }

  /** The message for the last column commits the advanced entry. */
  lemma LastStep(store: Service.Service, e: Entry, text: string)
    requires Service.Valid(store) && e.cursor + 1 == |e.columns|
    ensures HandleDataEntry(store, Some(e), text) == Commit(store, Advance(e, text))
  {
  }

  /** A run whose first message stays in data entry is that message's turn
      followed by the run of the rest. */
  lemma FeedStep(store: Service.Service, e: Entry, texts: seq<string>)
    requires Service.Valid(store) && |texts| > 0
    requires HandleDataEntry(store, Some(e), texts[0]).next == Ok(EnterData)
    ensures var t := HandleDataEntry(store, Some(e), texts[0]);
      var rest := Feed(t.store, t.entry.value, texts[1..]);
      Feed(store, e, texts) == Turn(rest.entry, rest.store, t.replies + rest.replies, t.calls + rest.calls, rest.next)
  {
  }

  /** The record of a run: the first message stored, then the rest. */
  lemma CollectedStep(d: Dict<string>, columns: seq<string>, texts: seq<string>)
    requires |texts| == |columns| > 0
    ensures Collected(d, columns, texts) == Collected(Put(d, columns[0], texts[0]), columns[1..], texts[1..])
  {
  }

  /** The prompts of a run: the next column's, then the rest. */
  lemma PromptsStep(columns: seq<string>, i: nat)
    requires i + 1 < |columns|
    ensures Prompts(columns[i + 1..]) == [AskValue(columns[i + 1])] + Prompts(columns[i + 2..])
  {
    assert columns[i + 1..][1..] == columns[i + 2..];
  }

  /** A run of one message per remaining column: exactly one gateway call,
      the append of the completed record, made after asking for every later
      column; the conversation ends with the cursor past the last column. */
  ghost predicate AppendsOnce(store: Service.Service, e: Entry, texts: seq<string>)
    requires Service.Valid(store)
    requires e.cursor < |e.columns| && |texts| == |e.columns| - e.cursor
  {
    var t := Feed(store, e, texts);
    var record := Collected(e.data, e.columns[e.cursor..], texts);
    && t.calls == [AppendRowCall(e.sheet, record)]
    && t.replies == Prompts(e.columns[e.cursor + 1..]) + [Outcome(store, e.sheet, record)]
    && t.next == Ok(Finished)
    && t.entry == Some(Entry(e.sheet, e.columns, |e.columns|, record))
  }

  /** One message per remaining column makes exactly one gateway call, the
      append of the completed record, after asking for every later column;
      the run ends the conversation. */
  lemma {:induction false} EntryAppendsOnce(store: Service.Service, e: Entry, texts: seq<string>)
    requires Service.Valid(store)
    requires e.cursor < |e.columns| && |texts| == |e.columns| - e.cursor
    ensures AppendsOnce(store, e, texts)
    decreases |texts|
  {
    if e.cursor + 1 == |e.columns| {
      LastEntryRun(store, e, texts);
    } else {
      var e1 := Advance(e, texts[0]);
      EntryAppendsOnce(store, e1, texts[1..]);
      EarlierEntryRun(store, e, texts);
    }
  }

  /** The run of the last column's message. */
  lemma LastEntryRun(store: Service.Service, e: Entry, texts: seq<string>)
    requires Service.Valid(store)
    requires e.cursor + 1 == |e.columns| && |texts| == 1
    ensures AppendsOnce(store, e, texts)
  {
    var rest := e.columns[e.cursor..];
    CollectedStep(e.data, rest, texts);
    assert rest[0] == e.columns[e.cursor] && rest[1..] == [];
    assert texts == [texts[0]];
    LastEntry(store, e, texts[0]);
  }

  /** A run of an earlier column's message, given the run of the rest. */
  lemma EarlierEntryRun(store: Service.Service, e: Entry, texts: seq<string>)
    requires Service.Valid(store)
    requires e.cursor + 1 < |e.columns| && |texts| == |e.columns| - e.cursor
    requires AppendsOnce(store, Advance(e, texts[0]), texts[1..])
    ensures AppendsOnce(store, e, texts)
  {
    var e1 := Advance(e, texts[0]);
    RunDecomposes(store, e, texts);
    RecordStep(e, texts);
    PromptsStep(e.columns, e.cursor);
    var record := Collected(e1.data, e1.columns[e1.cursor..], texts[1..]);
    RepliesJoin(Feed(store, e, texts).replies, AskValue(e.columns[e.cursor + 1]), Feed(store, e1, texts[1..]).replies,
      Prompts(e1.columns[e1.cursor + 1..]), Prompts(e.columns[e.cursor + 1..]), Outcome(store, e.sheet, record));
  }

  /** The replies of a run: the first prompt, then the rest's prompts and
      the final outcome. */
  lemma RepliesJoin(whole: seq<Reply>, ask: Reply, rest: seq<Reply>, later: seq<Reply>, all: seq<Reply>, outcome: Reply)
    requires whole == [ask] + rest && rest == later + [outcome] && all == [ask] + later
    ensures whole == all + [outcome]
  {
  }

  /** The run of an earlier column's message: its prompt, then the run of
      the rest from the advanced entry, over the same store. */
  lemma RunDecomposes(store: Service.Service, e: Entry, texts: seq<string>)
    requires Service.Valid(store)
    requires e.cursor + 1 < |e.columns| && |texts| > 0
    ensures var rest := Feed(store, Advance(e, texts[0]), texts[1..]);
      Feed(store, e, texts) == Turn(rest.entry, rest.store, [AskValue(e.columns[e.cursor + 1])] + rest.replies, rest.calls, rest.next)
  {
    EarlierEntry(store, e, texts[0]);
    FeedStep(store, e, texts);
  }

  /** The record of a run from an earlier column: the first message stored,
      then the rest from the advanced cursor. */
  lemma RecordStep(e: Entry, texts: seq<string>)
    requires e.cursor < |e.columns| && |texts| == |e.columns| - e.cursor
    ensures Collected(e.data, e.columns[e.cursor..], texts)
      == Collected(Put(e.data, e.columns[e.cursor], texts[0]), e.columns[e.cursor + 1..], texts[1..])
  {
    var rest := e.columns[e.cursor..];
    CollectedStep(e.data, rest, texts);
    assert rest[0] == e.columns[e.cursor] && rest[1..] == e.columns[e.cursor + 1..];
  }

  /** The message for the last column appends the record. */
  lemma LastEntry(store: Service.Service, e: Entry, text: string)
    requires Service.Valid(store) && e.cursor + 1 == |e.columns|
    ensures var t := Feed(store, e, [text]);
      var record := Put(e.data, e.columns[e.cursor], text);
      && t.calls == [AppendRowCall(e.sheet, record)]
      && t.replies == [Outcome(store, e.sheet, record)]
      && t.next == Ok(Finished)
      && t.entry == Some(Entry(e.sheet, e.columns, |e.columns|, record))
  {
    var a := Advance(e, text);
    LastStep(store, e, text);
    FeedEnds(store, e, [text]);
    assert Feed(store, e, [text]) == Commit(store, a);
    assert a == Entry(e.sheet, e.columns, |e.columns|, Put(e.data, e.columns[e.cursor], text));
  }

  /** A run whose first message leaves data entry is that message's turn. */
  lemma FeedEnds(store: Service.Service, e: Entry, texts: seq<string>)
    requires Service.Valid(store) && |texts| > 0
    requires HandleDataEntry(store, Some(e), texts[0]).next != Ok(EnterData)
    ensures Feed(store, e, texts) == HandleDataEntry(store, Some(e), texts[0])
  {
  }

  /** Fewer messages than remaining columns make no gateway call and leave
      the conversation in data entry with the cursor advanced by one per
      message. */
  lemma {:induction false} PartialEntryCallsNothing(store: Service.Service, e: Entry, texts: seq<string>)
    requires Service.Valid(store)
    requires e.cursor + |texts| < |e.columns|
    ensures var t := Feed(store, e, texts);
      && t.calls == [] && t.store == store && t.next == Ok(EnterData)
      && t.entry.Some? && t.entry.value.cursor == e.cursor + |texts|
      && t.entry.value.sheet == e.sheet && t.entry.value.columns == e.columns
    decreases |texts|
  {
    if |texts| > 0 {
      var t1 := HandleDataEntry(store, Some(e), texts[0]);
      PartialEntryCallsNothing(t1.store, t1.entry.value, texts[1..]);
    }
  }

  /** A selection followed by one message per column of a sheet with a
      header appends the record of those messages, once, and reports
      success: the header loaded at selection is still there at the append. */
  lemma SelectThenEnterAppendsOnce(store: Service.Service, data: string, texts: seq<string>)
    requires Service.Valid(store)
    requires DecodeEntrySheet(data).Ok?
    requires var columns := Service.GetColumns(store, DecodeEntrySheet(data).value);
      columns != [] && |texts| == |columns|
    ensures var sheet := DecodeEntrySheet(data).value;
      var columns := Service.GetColumns(store, sheet);
      var s := HandleSheetSelection(store, None, data);
      var t := Feed(s.store, s.entry.value, texts);
      var record := Collected([], columns, texts);
      && s.next == Ok(EnterData)
      && t.calls == [AppendRowCall(sheet, record)]
      && t.replies[|t.replies| - 1] == DataAdded
      && t.next == Ok(Finished)
  {
    var sheet := DecodeEntrySheet(data).value;
    var columns := Service.GetColumns(store, sheet);
    var s := HandleSheetSelection(store, None, data);
    EntryAppendsOnce(store, s.entry.value, texts);
    assert columns[0..] == columns;
  }
}

=== FILE: dicts.dfy ===
/** Python `dict`s with string keys, as association lists in insertion order:
    assigning to an existing key keeps its position, a new key goes last. */
module Dicts {
  import opened Results

  type Dict<V> = seq<(string, V)>

  predicate Distinct<T(==)>(s: seq<T>) {
    forall i, j :: 0 <= i < j < |s| ==> s[i] != s[j]
  }

  lemma DistinctAt<T>(s: seq<T>, i: nat, j: nat)
    requires Distinct(s) && i < j < |s|
    ensures s[i] != s[j]
  {
  }

  function Keys<V>(d: Dict<V>): (ks: seq<string>)
    ensures |ks| == |d|
    ensures forall i :: 0 <= i < |d| ==> ks[i] == d[i].0
  {
    seq(|d|, i requires 0 <= i < |d| => d[i].0)
  }

  /** A dictionary never holds a key twice. */
  predicate Wf<V>(d: Dict<V>) {
    Distinct(Keys(d))
  }

  /** `d.get(k)`. */
  function Get<V>(d: Dict<V>, k: string): (r: Option<V>)
    ensures r.None? <==> k !in Keys(d)
  {
    if |d| == 0 then None
    else if d[0].0 == k then Some(d[0].1)
    else
      assert Keys(d) == [d[0].0] + Keys(d[1..]);
      Get(d[1..], k)
  }

  /** `d.get(k, default)`. */
  function GetOr<V>(d: Dict<V>, k: string, default: V): V {
    Get(d, k).GetOr(default)
  }

  /** In a well-formed dictionary `Get` finds the entry at its position. */
  lemma {:induction false} GetAt<V>(d: Dict<V>, i: nat)
    requires Wf(d) && i < |d|
    ensures Get(d, d[i].0) == Some(d[i].1)
  {
    if i > 0 {
      assert Keys(d[1..]) == Keys(d)[1..];
      assert d[0].0 != d[i].0 by { assert Keys(d)[0] != Keys(d)[i]; }
      GetAt(d[1..], i - 1);
    }
  }

  lemma GetCons<V>(e: (string, V), rest: Dict<V>, k: string)
    ensures Get([e] + rest, k) == if e.0 == k then Some(e.1) else Get(rest, k)
  {
    assert ([e] + rest)[1..] == rest;
  }

  lemma KeysCons<V>(e: (string, V), rest: Dict<V>)
    ensures Keys([e] + rest) == [e.0] + Keys(rest)
  {
  }

  /** `d[k] = v`. */
  function Put<V>(d: Dict<V>, k: string, v: V): (r: Dict<V>)
    ensures Get(r, k) == Some(v)
    ensures forall k' :: k' != k ==> Get(r, k') == Get(d, k')
  {
    var r := Assign(d, k, v);
    AssignGet(d, k, v);
    r
  }

  /** An existing key keeps its place; a new one goes last. */
  lemma PutKeys<V>(d: Dict<V>, k: string, v: V)
    ensures Keys(Put(d, k, v)) == if k in Keys(d) then Keys(d) else Keys(d) + [k]
  {
    AssignKeys(d, k, v);
  }

  lemma PutWf<V>(d: Dict<V>, k: string, v: V)
    requires Wf(d)
    ensures Wf(Put(d, k, v))
  {
    AssignWf(d, k, v);
  }

  function Assign<V>(d: Dict<V>, k: string, v: V): Dict<V> {
    if |d| == 0 then [(k, v)]
    else if d[0].0 == k then [(k, v)] + d[1..]
    else [d[0]] + Assign(d[1..], k, v)
  }

  lemma {:induction false} AssignGet<V>(d: Dict<V>, k: string, v: V)
    ensures Get(Assign(d, k, v), k) == Some(v)
    ensures forall k' :: k' != k ==> Get(Assign(d, k, v), k') == Get(d, k')
  {
    if |d| > 0 {
      assert d == [d[0]] + d[1..];
      forall k' ensures Get(Assign(d, k, v), k') == if k' == k then Some(v) else Get(d, k') {
        GetCons(d[0], d[1..], k');
        if d[0].0 == k {
          GetCons((k, v), d[1..], k');
        } else {
          AssignGet(d[1..], k, v);
          GetCons(d[0], Assign(d[1..], k, v), k');
        }
      }
    }
  }

  lemma {:induction false} AssignKeys<V>(d: Dict<V>, k: string, v: V)
    ensures Keys(Assign(d, k, v)) == if k in Keys(d) then Keys(d) else Keys(d) + [k]
  {
    if |d| > 0 {
      assert d == [d[0]] + d[1..];
      KeysCons(d[0], d[1..]);
      if d[0].0 == k {
        KeysCons((k, v), d[1..]);
      } else {
        AssignKeys(d[1..], k, v);
        KeysCons(d[0], Assign(d[1..], k, v));
        assert k in Keys(d) <==> k in Keys(d[1..]);
      }
    }
  }

  lemma PutOther<V>(d: Dict<V>, k: string, v: V, other: string)
    ensures Get(Put(d, k, v), other) == if other == k then Some(v) else Get(d, other)
  {
  }

  /** Storing the next of several distinct keys keeps what the earlier ones
      hold. */
  lemma PutKeepsEarlier<V>(d: Dict<V>, ks: seq<string>, vs: seq<V>, n: nat)
    requires 0 < n <= |ks| && n <= |vs|
    requires forall i :: 0 <= i < n - 1 ==> ks[i] != ks[n - 1]
    requires forall i :: 0 <= i < n - 1 ==> Get(d, ks[i]) == Some(vs[i])
    ensures forall i :: 0 <= i < n ==> Get(Put(d, ks[n - 1], vs[n - 1]), ks[i]) == Some(vs[i])
  {
    forall i | 0 <= i < n ensures Get(Put(d, ks[n - 1], vs[n - 1]), ks[i]) == Some(vs[i]) {
      PutOther(d, ks[n - 1], vs[n - 1], ks[i]);
    }
  }

  /** A new key goes last. */
  lemma {:induction false} PutNew<V>(d: Dict<V>, k: string, v: V)
    requires k !in Keys(d)
    ensures Put(d, k, v) == d + [(k, v)]
  {
    AssignNew(d, k, v);
  }

  lemma {:induction false} AssignNew<V>(d: Dict<V>, k: string, v: V)
    requires k !in Keys(d)
    ensures Assign(d, k, v) == d + [(k, v)]
    decreases |d|
  {
    if |d| > 0 {
      assert Keys(d[1..]) == Keys(d)[1..];
      assert d[0].0 == Keys(d)[0];
      AssignNew(d[1..], k, v);
      assert d == [d[0]] + d[1..];
    }
  }

  lemma AssignWf<V>(d: Dict<V>, k: string, v: V)
    ensures Wf(d) ==> Wf(Assign(d, k, v))
  {
    AssignKeys(d, k, v);
  }
}

=== FILE: distance.dfy ===
/** The edit distance the fuzzy search ranks by (the source calls a foreign
    Levenshtein library; this is the textbook definition it computes) and the
    "30% of the longer string" match predicate. */
module Distance {
  import opened Results

  function Min3(a: nat, b: nat, c: nat): nat {
    if a <= b && a <= c then a else if b <= c then b else c
  }

  /** Fewest single-character insertions, deletions and substitutions. */
  function EditDistance(a: string, b: string): nat
    decreases |a| + |b|
  {
    if |a| == 0 then |b|
    else if |b| == 0 then |a|
    else Min3(EditDistance(a[1..], b) + 1,
              EditDistance(a, b[1..]) + 1,
              EditDistance(a[1..], b[1..]) + (if a[0] == b[0] then 0 else 1))
  }

  lemma {:induction false} DistanceZeroIffEqual(a: string, b: string)
    ensures EditDistance(a, b) == 0 <==> a == b
    decreases |a| + |b|
  {
    if |a| > 0 && |b| > 0 {
      DistanceZeroIffEqual(a[1..], b[1..]);
      if a == b {
        assert a[1..] == b[1..];
      }
      if a[0] == b[0] && a[1..] == b[1..] {
        assert a == [a[0]] + a[1..] && b == [b[0]] + b[1..];
      }
    }
  }

  lemma {:induction false} DistanceBounds(a: string, b: string)
    ensures EditDistance(a, b) <= Max(|a|, |b|)
    ensures |a| - |b| <= EditDistance(a, b) && |b| - |a| <= EditDistance(a, b)
    decreases |a| + |b|
  {
    if |a| > 0 && |b| > 0 {
      DistanceBounds(a[1..], b);
      DistanceBounds(a, b[1..]);
      DistanceBounds(a[1..], b[1..]);
    }
  }

  lemma {:induction false} DistanceSymmetric(a: string, b: string)
    ensures EditDistance(a, b) == EditDistance(b, a)
    decreases |a| + |b|
  {
    if |a| > 0 && |b| > 0 {
      DistanceSymmetric(a[1..], b);
      DistanceSymmetric(a, b[1..]);
      DistanceSymmetric(a[1..], b[1..]);
    }
  }

  /** `distance(value, cell) <= max(len(value), len(cell)) * 0.3`, in integers. */
  predicate FuzzyMatch(value: string, cell: string) {
    10 * EditDistance(value, cell) <= 3 * Max(|value|, |cell|)
  }

  /** Equal strings always match fuzzily; when neither is longer than three
      characters the fuzzy match is exact equality. */
  lemma FuzzyMatchFacts(value: string, cell: string)
    ensures value == cell ==> FuzzyMatch(value, cell)
    ensures Max(|value|, |cell|) <= 3 ==> (FuzzyMatch(value, cell) <==> value == cell)
  {
    DistanceZeroIffEqual(value, cell);
  }
}

=== FILE: keyboards.dfy ===
/** `KeyboardBuilder` of src/keyboards/keyboard_builder.py with buttons as
    (label, callback data) pairs, and the callback-data strings the handlers
    build and take apart again with `split(":", n)`. */
module Keyboards {
  import opened Results
  import opened Text

  datatype Button = Button(text: string, data: string)

  type Keyboard = seq<seq<Button>>

  const CreateSheetLabel := "\U{2795} Create New Sheet"
  const CreateSheetData := "create_sheet"
  const YesLabel := "\U{2705} Yes"
  const NoLabel := "\U{274C} No"
  const BackLabel := "\U{2B05}\U{FE0F} Back"
  const NextLabel := "Next \U{27A1}\U{FE0F}"
  const DoneLabel := "\U{2705} Done"

  function SelectSheetData(name: string): string {
    "select_sheet:" + name
  }

  function AddColumnData(sheet: string, column: string): string {
    "add_column:" + sheet + ":" + column
  }

  function SkipColumnData(column: string): string {
    "skip_column:" + column
  }

  /** `build_sheets_keyboard` (and the same keyboard built inline by bot.py's
      `start` and `list_sheets`): one single-button row per sheet, in order,
      then the row that starts a new sheet. */
  function BuildSheetsKeyboard(sheets: seq<string>): (k: Keyboard)
    ensures |k| == |sheets| + 1
    ensures forall i :: 0 <= i < |sheets| ==> k[i] == [Button(sheets[i], SelectSheetData(sheets[i]))]
    ensures k[|sheets|] == [Button(CreateSheetLabel, CreateSheetData)]
  {
    if |sheets| == 0 then [[Button(CreateSheetLabel, CreateSheetData)]]
    else [[Button(sheets[0], SelectSheetData(sheets[0]))]] + BuildSheetsKeyboard(sheets[1..])
  }

  /** `build_column_confirmation_keyboard`: one row, Yes then No. */
  function BuildColumnConfirmationKeyboard(sheet: string, column: string): (k: Keyboard)
    ensures |k| == 1 && |k[0]| == 2
    ensures k[0][0].text == YesLabel && k[0][1].text == NoLabel
    ensures ':' !in sheet ==> DecodeAddColumn(k[0][0].data) == Ok(Some((sheet, column)))
    ensures DecodeSkipColumn(k[0][1].data) == Some(column)
  {
    AddColumnRoundTrip(sheet, column);
    SkipColumnRoundTrip(column);
    [[Button(YesLabel, AddColumnData(sheet, column)), Button(NoLabel, SkipColumnData(column))]]
  }

  /** `build_menu_keyboard`: the (label, data) rows as button rows, same shape
      and order. */
  function BuildMenuKeyboard(rows: seq<seq<(string, string)>>): (k: Keyboard)
    ensures |k| == |rows|
    ensures forall i :: 0 <= i < |rows| ==> |k[i]| == |rows[i]|
    ensures forall i, j :: 0 <= i < |rows| && 0 <= j < |rows[i]| ==> k[i][j] == Button(rows[i][j].0, rows[i][j].1)
  {
    seq(|rows|, i requires 0 <= i < |rows| =>
      seq(|rows[i]|, j requires 0 <= j < |rows[i]| => Button(rows[i][j].0, rows[i][j].1)))
  }

  /** Python truthiness of an optional string: present and non-empty. */
  predicate Truthy(s: Option<string>) {
    s.Some? && s.value != ""
  }

  function NavButton(caption: string, callback: Option<string>): (r: seq<Button>)
    ensures |r| <= 1 && (r != [] <==> Truthy(callback))
    ensures forall b :: b in r ==> Truthy(callback) && b == Button(caption, callback.value)
  {
    if Truthy(callback) then [Button(caption, callback.value)] else []
  }

  /** Position of a navigation label in the row order Back, Next, Done. */
  function NavRank(caption: string): int {
    if caption == BackLabel then 0 else if caption == NextLabel then 1 else 2
  }

  /** `build_navigation_keyboard`: always one row; Back, Next and Done each
      appear exactly when their callback is truthy, carry that callback, and
      come in that order. */
  function BuildNavigationKeyboard(back: Option<string>, next: Option<string>, done: Option<string>): (k: Keyboard)
    ensures |k| == 1
    ensures forall b :: b in k[0] ==> b.text in {BackLabel, NextLabel, DoneLabel}
    ensures Truthy(back) <==> Button(BackLabel, back.GetOr("")) in k[0]
    ensures Truthy(next) <==> Button(NextLabel, next.GetOr("")) in k[0]
    ensures Truthy(done) <==> Button(DoneLabel, done.GetOr("")) in k[0]
    ensures forall b :: b in k[0] && b.text == BackLabel ==> Truthy(back) && b == Button(BackLabel, back.value)
    ensures forall b :: b in k[0] && b.text == NextLabel ==> Truthy(next) && b == Button(NextLabel, next.value)
    ensures forall b :: b in k[0] && b.text == DoneLabel ==> Truthy(done) && b == Button(DoneLabel, done.value)
    ensures forall i, j :: 0 <= i < j < |k[0]| ==> NavRank(k[0][i].text) < NavRank(k[0][j].text)
  {
    LabelsDistinct();
    [NavButton(BackLabel, back) + NavButton(NextLabel, next) + NavButton(DoneLabel, done)]
  }

  /** The three navigation labels differ. */
  lemma LabelsDistinct()
    ensures BackLabel != NextLabel && BackLabel != DoneLabel && NextLabel != DoneLabel
  {
    assert BackLabel[0] != NextLabel[0] && BackLabel[0] != DoneLabel[0] && NextLabel[0] != DoneLabel[0];
  }

  /** The handlers' reading of select-sheet data: the text after the first ':'. */
  function DecodeSelectSheet(data: string): (r: Option<string>)
    ensures r.Some? <==> StartsWith(data, "select_sheet:")
  {
    if StartsWith(data, "select_sheet:") then
      var parts := SplitN(data, ':', 1);
      assert data == "select_sheet" + [':'] + data[13..];
      SplitNAfterPrefix("select_sheet", ':', data[13..], 0);
      Some(parts[1])
    else None
  }

  /** Any sheet name survives the select-sheet data. */
  lemma SelectSheetRoundTrip(name: string)
    ensures DecodeSelectSheet(SelectSheetData(name)) == Some(name)
  {
    var data := SelectSheetData(name);
    assert data == "select_sheet" + [':'] + name;
    assert data[13..] == name;
    SplitNAfterPrefix("select_sheet", ':', name, 0);
  }

  /** The handlers' reading of add-column data: `sheet, column =
      data.split(":", 2)[1:]`, which fails to unpack unless the data has a
      second ':'; `Ok(None)` for data of another kind. */
  function DecodeAddColumn(data: string): (r: Result<Option<(string, string)>>)
    ensures r == Ok(None) <==> !StartsWith(data, "add_column:")
  {
    if !StartsWith(data, "add_column:") then Ok(None)
    else
      var parts := SplitN(data, ':', 2);
      if |parts| != 3 then Err("not enough values to unpack (expected 2, got " + NatToString(|parts| - 1) + ")")
      else Ok(Some((parts[1], parts[2])))
  }

  /** Add-column data gives back the sheet and the column exactly when the
      sheet name has no ':'; with one, the sheet is cut at its first ':'. */
  lemma AddColumnRoundTrip(sheet: string, column: string)
    ensures ':' !in sheet <==> DecodeAddColumn(AddColumnData(sheet, column)) == Ok(Some((sheet, column)))
    ensures DecodeAddColumn(AddColumnData(sheet, column)).Ok?
  {
    var data := AddColumnData(sheet, column);
    var tail := sheet + ":" + column;
    assert data == "add_column" + [':'] + tail;
    assert data[..11] == "add_column:";
    SplitNAfterPrefix("add_column", ':', tail, 1);
    if ':' !in sheet {
      assert tail == sheet + [':'] + column;
      SplitNAfterPrefix(sheet, ':', column, 0);
    } else {
      var parts := SplitN(tail, ':', 1);
      assert |parts| == 2;
      assert ':' !in parts[0];
      assert DecodeAddColumn(data) == Ok(Some((parts[0], parts[1])));
      assert parts[0] != sheet;
    }
  }

  /** The handlers' reading of skip-column data: `_, column = data.split(":", 1)`. */
  function DecodeSkipColumn(data: string): (r: Option<string>)
    ensures r.Some? <==> StartsWith(data, "skip_column:")
  {
    if StartsWith(data, "skip_column:") then
      var parts := SplitN(data, ':', 1);
      assert data == "skip_column" + [':'] + data[12..];
      SplitNAfterPrefix("skip_column", ':', data[12..], 0);
      Some(parts[1])
    else None
  }

  /** Any column name survives the skip-column data. */
  lemma SkipColumnRoundTrip(column: string)
    ensures DecodeSkipColumn(SkipColumnData(column)) == Some(column)
  {
    var data := SkipColumnData(column);
    assert data == "skip_column" + [':'] + column;
    assert data[12..] == column;
    SplitNAfterPrefix("skip_column", ':', column, 0);
  }

  /** The data-entry reading of select-sheet data: `data.split(":")[1]`,
      which raises when the data has no ':' at all. */
  function DecodeEntrySheet(data: string): (r: Result<string>)
    ensures r.Err? <==> ':' !in data
  {
    var parts := Split(data, ':');
    if |parts| < 2 then
      assert parts == [data];
      Err("list index out of range")
    else
      assert ':' in data by {
        assert data == Join(parts, ':');
        assert data == parts[0] + [':'] + Join(parts[1..], ':');
      }
      Ok(parts[1])
  }

  /** The data-entry reading gives the sheet name back exactly when it has no
      ':'; otherwise the name is cut at its first ':'. */
  lemma EntrySheetRoundTrip(name: string)
    ensures ':' !in name <==> DecodeEntrySheet(SelectSheetData(name)) == Ok(name)
  {
    var data := SelectSheetData(name);
    assert data == "select_sheet" + [':'] + name;
    SplitAfterPrefix("select_sheet", ':', name);
    var rest := Split(name, ':');
    if ':' !in name {
      assert IndexOf(name, ':') == |name|;
    } else {
      assert ':' !in rest[0];
      assert rest[0] != name;
    }
  }
}

=== FILE: manager.dfy ===
/** `SheetsManager` of sheets_manager.py over the in-memory spreadsheet. The
    manager keeps a cache of `Table`s (`self.tables`) that is filled from the
    header row on first use and extended by `add_columns`; every operation
    returns the new manager together with its Python return value. */
module Manager {
  import opened Results
  import opened Text
  import opened Dicts
  import opened Schema
  import opened Sheets
  import opened Tables
  import opened Distance
  import opened Sorting
  import Seqs

  datatype Manager = Manager(book: Spreadsheet, cache: map<string, Table>)

  /** Cached tables are valid, named after their key and name existing tabs. */
  ghost predicate Valid(m: Manager) {
    && Sheets.Valid(m.book)
    && forall n :: n in m.cache ==> n in m.book.tabs && Tables.Valid(m.cache[n]) && m.cache[n].name == n
  }

  /** The store's answer when a range names a tab that does not exist. */
  function NoSuchTab(name: string): string {
    "Unable to parse range: " + name
  }

  /** The store's answer to adding a tab whose title is taken. */
  function DuplicateTab(name: string): string {
    "A sheet with the name \"" + name + "\" already exists. Please enter another name."
  }

  /** `init_table`: the header row, read as no columns when it is a single empty cell. */
  function InitialColumns(rows: seq<Row>): seq<string> {
    var v := HeaderOf(rows);
    if v == [""] then [] else v
  }

  /** The table `get_table` would return: the cached one, or one built from
      the header row. */
  function TableOf(m: Manager, name: string): (t: Table)
    requires Valid(m) && name in m.book.tabs
    ensures Tables.Valid(t) && t.name == name
  {
    if name in m.cache then m.cache[name] else FromHeader(name, InitialColumns(m.book.tabs[name]))
  }

  function KnownColumns(m: Manager, name: string): seq<string>
    requires Valid(m) && name in m.book.tabs
  {
    TableOf(m, name).columns
  }

  /** The cache agrees with the header row stored for `name`. */
  ghost predicate Coherent(m: Manager, name: string) {
    Valid(m) && name in m.book.tabs && KnownColumns(m, name) == HeaderOf(m.book.tabs[name])
  }

  /** `get_table`: the cached table, or a fresh one read from the header row,
      which is then cached; a tab that does not exist is an error. */
  function GetTable(m: Manager, name: string): (r: Result<(Manager, Table)>)
    requires Valid(m)
    ensures r.Err? <==> name !in m.book.tabs
    ensures r.Ok? ==> r.value == (m.(cache := m.cache[name := TableOf(m, name)]), TableOf(m, name))
    ensures r.Ok? ==> Valid(r.value.0)
    ensures name in m.cache ==> r == Ok((m, m.cache[name]))
  {
    if name in m.cache then
      assert m.cache[name := m.cache[name]] == m.cache;
      Ok((m, m.cache[name]))
    else if name !in m.book.tabs then Err(NoSuchTab(name))
    else
      var t := FromHeader(name, InitialColumns(m.book.tabs[name]));
      Ok((m.(cache := m.cache[name := t]), t))
  }

  /** The header cells `add_columns` reads back: the range `A1:<column n+1>`,
      that is the first `n + 1` cells of row 1 for `n` cached columns. The
      range is built as `chr(65 + n)`, which names that column only for
      `n < 26`; larger `n` is not modelled (see README, "Left out"). */
  function ReadHeaderPrefix(rows: seq<Row>, n: nat): (read: seq<string>)
    ensures read <= HeaderOf(rows)
    ensures |HeaderOf(rows)| <= n + 1 ==> read == HeaderOf(rows)
  {
    var h := HeaderOf(rows);
    if |h| <= n + 1 then h else h[..n + 1]
  }

  /** The rows of a tab after `add_columns` with `n` cached columns: the
      requested names the read-back cells lack are appended to those cells,
      and the result is written from A1 only when something was appended. */
  function HeaderWrite(rows: seq<Row>, n: nat, cols: seq<string>): seq<Row> {
    var read := ReadHeaderPrefix(rows, n);
    var merged := Merge(read, cols);
    if |merged| > |read| then PutRow(rows, 0, Present(merged)) else rows
  }

  /** The cells read back keep their places, every requested name is in the
      header afterwards, nothing is written when every name was read back,
      and the data rows are untouched. */
  lemma HeaderWriteFacts(rows: seq<Row>, n: nat, cols: seq<string>)
    ensures var rows' := HeaderWrite(rows, n, cols);
      && ReadHeaderPrefix(rows, n) <= HeaderOf(rows')
      && (forall c :: c in cols ==> c in HeaderOf(rows'))
      && ((forall c :: c in cols ==> c in ReadHeaderPrefix(rows, n)) ==> rows' == rows)
      && (rows' == rows || |rows'| == Max(|rows|, 1))
      && (forall j :: 1 <= j < |rows| ==> rows'[j] == rows[j])
  {
    var read := ReadHeaderPrefix(rows, n);
    var merged := Merge(read, cols);
    var rows' := HeaderWrite(rows, n, cols);
    if |merged| > |read| {
      var h' := HeaderOf(rows');
      assert h' == Overlay(HeaderOf(rows), Present(merged));
      assert forall k :: 0 <= k < |merged| ==> h'[k] == merged[k];
      forall c | c in cols ensures c in h' {
        var k :| 0 <= k < |merged| && merged[k] == c;
        assert h'[k] == c;
      }
    } else {
      assert merged == read;
      forall c | c in cols ensures c in HeaderOf(rows) {
        var k :| 0 <= k < |read| && read[k] == c;
        assert HeaderOf(rows)[k] == c;
      }
    }
  }

  /** When the read-back cells are the whole header (the cache is not behind
      the sheet), the new header is the old one followed by the requested
      names it lacked. */
  lemma HeaderWriteWhole(rows: seq<Row>, n: nat, cols: seq<string>)
    requires |HeaderOf(rows)| <= n + 1
    ensures HeaderOf(HeaderWrite(rows, n, cols)) == Merge(HeaderOf(rows), cols)
  {
    var h := HeaderOf(rows);
    var merged := Merge(h, cols);
    if |merged| > |h| {
      OverlayPresent(h, merged);
    }
  }

  /** The cached table after `add_columns`: it gains, through `add_column`, the
      names the merge appended, so every requested name that was not read
      back is then a column. */
  function ExtendedTable(t: Table, read: Row, cols: seq<string>): (t': Table)
    requires Tables.Valid(t)
    ensures Tables.Valid(t') && t'.name == t.name && t.columns <= t'.columns
    ensures forall c :: c in cols && c !in read ==> HasColumn(t', c)
    ensures forall k :: |t.columns| <= k < |t'.columns| ==> t'.columns[k] in cols && t'.columns[k] !in read
  {
    var added := Merge(read, cols)[|read|..];
    var t' := AddAll(t, added);
    MergedTail(read, cols);
    assert forall k :: |t.columns| <= k < |t'.columns| ==> t'.columns[k] in added;
    t'
  }

  /** The names the merge appends are exactly the requested names that were
      not read back. */
  lemma MergedTail(read: Row, cols: seq<string>)
    ensures var added := Merge(read, cols)[|read|..];
      forall c :: c in added <==> c in cols && c !in read
  {
    var merged := Merge(read, cols);
    var added := merged[|read|..];
    forall c | c in cols && c !in read ensures c in added {
      var k :| 0 <= k < |merged| && merged[k] == c;
      assert k >= |read|;
      assert added[k - |read|] == c;
    }
    forall c | c in added ensures c in cols && c !in read {
      var k :| 0 <= k < |added| && added[k] == c;
      assert merged[|read| + k] == c;
    }
  }

  /** `add_columns`: merges the requested names into the header cells it
      reads back (exact match, request order), writes the header only when
      it grew, and registers the appended names in the cached table. */
  function AddColumns(m: Manager, name: string, cols: seq<string>): (r: Result<Manager>)
    requires Valid(m)
    ensures r.Err? <==> name !in m.book.tabs
    ensures r.Ok? ==> Valid(r.value) && r.value.book.tabs.Keys == m.book.tabs.Keys
    ensures r.Ok? ==>
      var rows := m.book.tabs[name];
      var n := |KnownColumns(m, name)|;
      && r.value.book == m.book.(tabs := m.book.tabs[name := HeaderWrite(rows, n, cols)])
      && r.value.cache == m.cache[name := ExtendedTable(TableOf(m, name), ReadHeaderPrefix(rows, n), cols)]
  {
    if name !in m.book.tabs then Err(NoSuchTab(name))
    else
    var t := TableOf(m, name);
    var rows := m.book.tabs[name];
    var n := |t.columns|;
    var book' := m.book.(tabs := m.book.tabs[name := HeaderWrite(rows, n, cols)]);
    var cache' := m.cache[name := ExtendedTable(t, ReadHeaderPrefix(rows, n), cols)];
    assert Valid(Manager(book', cache')) by {
      assert book'.tabs.Keys == m.book.tabs.Keys;
      forall k | k in cache' ensures k in book'.tabs && Tables.Valid(cache'[k]) && cache'[k].name == k {
        if k != name {
          assert cache'[k] == m.cache[k];
        }
      }
    }
    Ok(Manager(book', cache'))
  }

  /** `add_columns` never drops a cached column and only ever registers
      requested names. */
  lemma AddColumnsKnownColumns(m: Manager, name: string, cols: seq<string>)
    requires Valid(m) && name in m.book.tabs
    ensures var m' := AddColumns(m, name, cols).value;
      && name in m'.book.tabs
      && KnownColumns(m, name) <= KnownColumns(m', name)
      && forall c :: c in KnownColumns(m', name) ==> c in KnownColumns(m, name) || c in cols
  {
    var m' := AddColumns(m, name, cols).value;
    var before := KnownColumns(m, name);
    var after := KnownColumns(m', name);
    forall c | c in after ensures c in before || c in cols {
      var k :| 0 <= k < |after| && after[k] == c;
      if k < |before| {
        assert before[k] == c;
      }
    }
  }

  /** With the cache in step with the stored header, the new header is exactly
      the old one followed by the requested names it lacked, and every
      requested name is then a cached column. */
  lemma AddColumnsWhenCoherent(m: Manager, name: string, cols: seq<string>)
    requires Coherent(m, name)
    ensures AddColumns(m, name, cols).Ok?
    ensures HeaderOf(AddColumns(m, name, cols).value.book.tabs[name]) == Merge(HeaderOf(m.book.tabs[name]), cols)
    ensures forall c :: c in cols ==> HasColumn(AddColumns(m, name, cols).value.cache[name], c)
  {
    var rows := m.book.tabs[name];
    var h := HeaderOf(rows);
    var n := |KnownColumns(m, name)|;
    HeaderWriteWhole(rows, n, cols);
    var cached := AddColumns(m, name, cols).value.cache[name];
    assert h <= cached.columns;
    forall c | c in cols && c in h ensures HasColumn(cached, c) {
      var k :| 0 <= k < |h| && h[k] == c;
      assert cached.columns[k] == c;
      assert LowerNames(cached.columns)[k] == Lower(c);
    }
  }

  /** A cell of a row as the search results report it (`None` past the end). */
  function CellAt(row: Row, i: nat): Option<string> {
    if i < |row| then Some(row[i]) else None
  }

  /** `{col: row[i] if i < len(row) else None for i, col in enumerate(columns)}`
      over the first `n` columns. */
  function RowMapUpTo(columns: seq<string>, row: Row, n: nat): (d: Dict<Option<string>>)
    requires n <= |columns|
    ensures Wf(d)
    ensures forall k :: k in Keys(d) <==> k in columns[..n]
    ensures Distinct(columns) ==> forall i :: 0 <= i < n ==> Get(d, columns[i]) == Some(CellAt(row, i))
  {
    if n == 0 then []
    else
      var d := RowMapUpTo(columns, row, n - 1);
      var cells := Cells(row, n);
      Seqs.TakeSnoc(columns, n);
      PutKeys(d, columns[n - 1], cells[n - 1]);
      PutWf(d, columns[n - 1], cells[n - 1]);
      if Distinct(columns) then
        assert forall i :: 0 <= i < n - 1 ==> columns[i] != columns[n - 1];
        PutKeepsEarlier(d, columns, cells, n);
        Put(d, columns[n - 1], cells[n - 1])
      else
        Put(d, columns[n - 1], cells[n - 1])
  }

  /** The cells of `row` under the first `n` columns, `None` past its end. */
  function Cells(row: Row, n: nat): (cells: seq<Option<string>>)
    ensures |cells| == n && forall i :: 0 <= i < n ==> cells[i] == CellAt(row, i)
  {
    seq(n, i requires 0 <= i < n => CellAt(row, i))
  }

  /** One search result: every table column mapped to its cell of `row`. */
  function RowMap(columns: seq<string>, row: Row): (d: Dict<Option<string>>)
    ensures forall k :: k in Keys(d) <==> k in columns
    ensures Distinct(columns) ==> forall i :: 0 <= i < |columns| ==> Get(d, columns[i]) == Some(CellAt(row, i))
  {
    assert columns[..|columns|] == columns;
    RowMapUpTo(columns, row, |columns|)
  }

  /** The match test of `search_column`: rows too short for the column never
      match; otherwise exact string equality or the fuzzy predicate. */
  predicate RowMatches(row: Row, idx: nat, value: string, exact: bool) {
    idx < |row| && (if exact then row[idx] == value else FuzzyMatch(value, row[idx]))
  }

  /** Positions, from `from` on, of the rows that match, in row order. */
  function MatchingRows(rows: seq<Row>, from: nat, idx: nat, value: string, exact: bool): (hits: seq<nat>)
    ensures forall i :: 0 <= i < |hits| ==> from <= hits[i] < |rows|
    ensures forall i, j :: 0 <= i < j < |hits| ==> hits[i] < hits[j]
    ensures forall k :: k in hits <==> from <= k < |rows| && RowMatches(rows[k], idx, value, exact)
    decreases |rows| - from
  {
    if from >= |rows| then []
    else
      var rest := MatchingRows(rows, from + 1, idx, value, exact);
      if RowMatches(rows[from], idx, value, exact) then [from] + rest else rest
  }

  /** The manager once `get_table` has cached the table of `name`. */
  function AfterGet(m: Manager, name: string): (m1: Manager)
    requires Valid(m) && name in m.book.tabs
    ensures Valid(m1) && m1.book == m.book && name in m1.cache && TableOf(m1, name) == TableOf(m, name)
  {
    m.(cache := m.cache[name := TableOf(m, name)])
  }

  /** `search_column`: an empty tab gives no results (even for an unknown
      column); otherwise an unknown column raises, and the results are the
      data rows (row 0 skipped) that match, in row order, as column maps. */
  function SearchColumn(m: Manager, name: string, column: string, value: string, exact: bool)
    : (r: Result<(Manager, seq<Dict<Option<string>>>)>)
    requires Valid(m)
    ensures name !in m.book.tabs ==> r == Err(NoSuchTab(name))
    ensures name in m.book.tabs && |m.book.tabs[name]| == 0 ==> r == Ok((AfterGet(m, name), []))
    ensures name in m.book.tabs && |m.book.tabs[name]| > 0 ==>
      var t := TableOf(m, name);
      var rows := m.book.tabs[name];
      && (r.Err? <==> !HasColumn(t, column))
      && (r.Err? ==> r == Err(GetColumnIndex(t, column).msg))
      && (r.Ok? ==>
            var hits := MatchingRows(rows, 1, GetColumnIndex(t, column).value, value, exact);
            && r.value.0 == AfterGet(m, name)
            && |r.value.1| == |hits|
            && forall i :: 0 <= i < |hits| ==> r.value.1[i] == RowMap(t.columns, rows[hits[i]]))
  {
    if name !in m.book.tabs then Err(NoSuchTab(name))
    else
      var t := TableOf(m, name);
      var rows := m.book.tabs[name];
      if |rows| == 0 then Ok((AfterGet(m, name), []))
      else
        match GetColumnIndex(t, column)
        case Err(e) => Err(e)
        case Ok(idx) =>
          var hits := MatchingRows(rows, 1, idx, value, exact);
          Ok((AfterGet(m, name), seq(|hits|, i requires 0 <= i < |hits| => RowMap(t.columns, rows[hits[i]]))))
  }

  /** Every row an exact search finds, the fuzzy search finds as well. */
  lemma ExactHitsAreFuzzyHits(rows: seq<Row>, idx: nat, value: string)
    ensures forall k :: k in MatchingRows(rows, 1, idx, value, true) ==> k in MatchingRows(rows, 1, idx, value, false)
  {
    forall k | k in MatchingRows(rows, 1, idx, value, true)
      ensures k in MatchingRows(rows, 1, idx, value, false)
    {
      FuzzyMatchFacts(value, rows[k][idx]);
    }
  }

  /** A row that passed the fuzzy scan, with its distance to the searched value. */
  datatype Hit = Hit(row: nat, distance: nat)

  function DistanceKey(h: Hit): int {
    h.distance
  }

  /** The optional `max_distance` limit (`None` accepts every distance). */
  predicate Within(d: nat, maxDistance: Option<int>) {
    maxDistance.None? || d <= maxDistance.value
  }

  function HitRows(hs: seq<Hit>): (r: seq<nat>)
    ensures |r| == |hs| && forall i :: 0 <= i < |hs| ==> r[i] == hs[i].row
  {
    seq(|hs|, i requires 0 <= i < |hs| => hs[i].row)
  }

  /** The scan of `fuzzy_search_column` before sorting: every long-enough data
      row from `from` on whose distance is within the limit, in row order. */
  function FuzzyCandidates(rows: seq<Row>, from: nat, idx: nat, value: string, maxDistance: Option<int>)
    : (hs: seq<Hit>)
    ensures forall i :: 0 <= i < |hs| ==>
      && from <= hs[i].row < |rows| && idx < |rows[hs[i].row]|
      && hs[i].distance == EditDistance(value, rows[hs[i].row][idx])
      && Within(hs[i].distance, maxDistance)
    ensures forall i, j :: 0 <= i < j < |hs| ==> hs[i].row < hs[j].row
    ensures forall k :: k in HitRows(hs) <==>
      from <= k < |rows| && idx < |rows[k]| && Within(EditDistance(value, rows[k][idx]), maxDistance)
    decreases |rows| - from
  {
    if from >= |rows| then []
    else
      var rest := FuzzyCandidates(rows, from + 1, idx, value, maxDistance);
      if idx < |rows[from]| && Within(EditDistance(value, rows[from][idx]), maxDistance) then
        var hs := [Hit(from, EditDistance(value, rows[from][idx]))] + rest;
        assert HitRows(hs) == [from] + HitRows(rest);
        hs
      else rest
  }

  /** The ranking: ascending distance, and rows at equal distance keep their
      row order (Python's `sorted` is stable). */
  function RankedHits(rows: seq<Row>, idx: nat, value: string, maxDistance: Option<int>): (r: seq<Hit>)
    ensures SortedBy(r, DistanceKey)
    ensures multiset(r) == multiset(FuzzyCandidates(rows, 1, idx, value, maxDistance))
    ensures forall d :: WithKey(r, DistanceKey, d) == WithKey(FuzzyCandidates(rows, 1, idx, value, maxDistance), DistanceKey, d)
    ensures forall i :: 0 <= i < |r| ==>
      && 1 <= r[i].row < |rows| && idx < |rows[r[i].row]|
      && r[i].distance == EditDistance(value, rows[r[i].row][idx])
      && Within(r[i].distance, maxDistance)
  {
    var cands := FuzzyCandidates(rows, 1, idx, value, maxDistance);
    var r := SortBy(cands, DistanceKey);
    forall i | 0 <= i < |r|
      ensures 1 <= r[i].row < |rows| && idx < |rows[r[i].row]|
      ensures r[i].distance == EditDistance(value, rows[r[i].row][idx])
      ensures Within(r[i].distance, maxDistance)
    {
      assert r[i] in multiset(cands);
    }
    r
  }

  /** `fuzzy_search_column`: the errors of `search_column`; the results are
      the ranked hits as (column map, distance) pairs. */
  function FuzzySearchColumn(m: Manager, name: string, column: string, value: string, maxDistance: Option<int>)
    : (r: Result<(Manager, seq<(Dict<Option<string>>, nat)>)>)
    requires Valid(m)
    ensures name !in m.book.tabs ==> r == Err(NoSuchTab(name))
    ensures name in m.book.tabs && |m.book.tabs[name]| == 0 ==> r == Ok((AfterGet(m, name), []))
    ensures name in m.book.tabs && |m.book.tabs[name]| > 0 ==>
      var t := TableOf(m, name);
      var rows := m.book.tabs[name];
      && (r.Err? <==> !HasColumn(t, column))
      && (r.Err? ==> r == Err(GetColumnIndex(t, column).msg))
      && (r.Ok? ==>
            var hits := RankedHits(rows, GetColumnIndex(t, column).value, value, maxDistance);
            && r.value.0 == AfterGet(m, name)
            && |r.value.1| == |hits|
            && forall i :: 0 <= i < |hits| ==>
                 r.value.1[i] == (RowMap(t.columns, rows[hits[i].row]), hits[i].distance))
  {
    if name !in m.book.tabs then Err(NoSuchTab(name))
    else
      var t := TableOf(m, name);
      var rows := m.book.tabs[name];
      if |rows| == 0 then Ok((AfterGet(m, name), []))
      else
        match GetColumnIndex(t, column)
        case Err(e) => Err(e)
        case Ok(idx) =>
          var hits := RankedHits(rows, idx, value, maxDistance);
          Ok((AfterGet(m, name),
              seq(|hits|, i requires 0 <= i < |hits| => (RowMap(t.columns, rows[hits[i].row]), hits[i].distance))))
  }

  /** The fuzzy results come in ascending distance, each within the limit. */
  lemma FuzzyResultsRanked(m: Manager, name: string, column: string, value: string, maxDistance: Option<int>)
    requires Valid(m) && name in m.book.tabs && |m.book.tabs[name]| > 0
    requires HasColumn(TableOf(m, name), column)
    ensures var res := FuzzySearchColumn(m, name, column, value, maxDistance).value.1;
      && (forall i, j :: 0 <= i < j < |res| ==> res[i].1 <= res[j].1)
      && (forall i :: 0 <= i < |res| ==> Within(res[i].1, maxDistance))
  {
    var rows := m.book.tabs[name];
    var idx := GetColumnIndex(TableOf(m, name), column).value;
    var hits := RankedHits(rows, idx, value, maxDistance);
    assert forall i, j :: 0 <= i < j < |hits| ==> DistanceKey(hits[i]) <= DistanceKey(hits[j]);
  }

  /** The data keys `append_row` does not find among the table's columns
      (case-insensitively), in key order. */
  function UnknownKeys(t: Table, keys: seq<string>): (r: seq<string>)
    requires Tables.Valid(t)
    ensures forall k :: k in r <==> k in keys && !HasColumn(t, k)
  {
    if |keys| == 0 then []
    else (if HasColumn(t, keys[0]) then [] else [keys[0]]) + UnknownKeys(t, keys[1..])
  }

  /** The manager after the first half of `append_row`: the keys the table
      lacks have gone through `add_columns`. */
  function WithKeys(m: Manager, name: string, data: Dict<string>): (m2: Manager)
    requires Valid(m) && name in m.book.tabs
    ensures Valid(m2) && name in m2.cache && m2.book.tabs.Keys == m.book.tabs.Keys && m2.book.titles == m.book.titles
  {
    var missing := UnknownKeys(TableOf(m, name), Keys(data));
    if |missing| > 0 then AddColumns(m, name, missing).value else AfterGet(m, name)
  }

  /** `append_row`: first adds the keys the table lacks as columns, then
      appends one row with a cell per column. */
  function AppendRow(m: Manager, name: string, data: Dict<string>): (r: Result<Manager>)
    requires Valid(m)
    ensures r.Err? <==> name !in m.book.tabs
    ensures r.Err? ==> r.msg == NoSuchTab(name)
    ensures r.Ok? ==>
      var m2 := WithKeys(m, name, data);
      && Valid(r.value) && r.value.cache == m2.cache
      && r.value.book == m2.book.(tabs := m2.book.tabs[name := m2.book.tabs[name] + [RowFor(m2.cache[name].columns, data)]])
  {
    if name !in m.book.tabs then Err(NoSuchTab(name))
    else
      var m2 := WithKeys(m, name, data);
      Ok(m2.(book := Sheets.AppendRow(m2.book, name, RowFor(m2.cache[name].columns, data))))
  }

  /** `append_row` adds exactly one row at the end of the tab: the data
      rows before it and the other tabs are unchanged, and the known
      columns only widen. */
  lemma AppendRowKeepsRows(m: Manager, name: string, data: Dict<string>)
    requires Valid(m) && name in m.book.tabs
    ensures var m' := AppendRow(m, name, data).value;
      var rows := m.book.tabs[name];
      var rows' := m'.book.tabs[name];
      && |rows'| - 1 in {|rows|, Max(|rows|, 1)}
      && (forall j :: 1 <= j < |rows| ==> rows'[j] == rows[j])
      && (forall n :: n in m.book.tabs && n != name ==> m'.book.tabs[n] == m.book.tabs[n])
      && KnownColumns(m, name) <= m'.cache[name].columns
  {
    WithKeysFacts(m, name, data);
    var m2 := WithKeys(m, name, data);
    var m' := AppendRow(m, name, data).value;
    var rows2 := m2.book.tabs[name];
    assert m'.book.tabs[name] == rows2 + [RowFor(m2.cache[name].columns, data)];
    assert m'.cache == m2.cache;
    assert forall n :: n in m.book.tabs && n != name ==> m'.book.tabs[n] == m2.book.tabs[n];
  }

  /** The row `append_row` adds holds, under each column of the table, the
      data's value for that column, and "" where the data lacks it. */
  lemma AppendRowCells(m: Manager, name: string, data: Dict<string>)
    requires Valid(m) && name in m.book.tabs
    ensures var m' := AppendRow(m, name, data).value;
      var rows' := m'.book.tabs[name];
      var cols := m'.cache[name].columns;
      && |rows'| > 0
      && |rows'[|rows'| - 1]| == |cols|
      && (forall i :: 0 <= i < |cols| ==> rows'[|rows'| - 1][i] == GetOr(data, cols[i], ""))
  {
    var m2 := WithKeys(m, name, data);
    var m' := AppendRow(m, name, data).value;
    var row := RowFor(m2.cache[name].columns, data);
    assert m'.book.tabs[name] == m2.book.tabs[name] + [row];
    assert m'.cache == m2.cache;
  }

  /** Adding the data's unknown keys as columns rewrites at most the header
      row of the tab and only widens the known columns. */
  lemma WithKeysFacts(m: Manager, name: string, data: Dict<string>)
    requires Valid(m) && name in m.book.tabs
    ensures var m2 := WithKeys(m, name, data);
      var rows := m.book.tabs[name];
      var rows2 := m2.book.tabs[name];
      && (rows2 == rows || |rows2| == Max(|rows|, 1))
      && (forall j :: 1 <= j < |rows| ==> rows2[j] == rows[j])
      && (forall n :: n in m.book.tabs && n != name ==> m2.book.tabs[n] == m.book.tabs[n])
      && KnownColumns(m, name) <= m2.cache[name].columns
  {
    var missing := UnknownKeys(TableOf(m, name), Keys(data));
    if |missing| > 0 {
      AddColumnsRows(m, name, missing);
      AddColumnsWidens(m, name, missing);
      assert WithKeys(m, name, data) == AddColumns(m, name, missing).value;
    } else {
      assert WithKeys(m, name, data) == AfterGet(m, name);
    }
  }

  /** `add_columns` rewrites at most the header row of its tab and leaves
      the other tabs alone. */
  lemma AddColumnsRows(m: Manager, name: string, cols: seq<string>)
    requires Valid(m) && name in m.book.tabs
    ensures var m2 := AddColumns(m, name, cols).value;
      var rows := m.book.tabs[name];
      var rows2 := m2.book.tabs[name];
      && (rows2 == rows || |rows2| == Max(|rows|, 1))
      && (forall j :: 1 <= j < |rows| ==> rows2[j] == rows[j])
      && (forall n :: n in m.book.tabs && n != name ==> m2.book.tabs[n] == m.book.tabs[n])
  {
    var rows := m.book.tabs[name];
    var n := |KnownColumns(m, name)|;
    HeaderWriteRows(rows, n, cols);
    assert AddColumns(m, name, cols).value.book.tabs == m.book.tabs[name := HeaderWrite(rows, n, cols)];
  }

  /** `add_columns` only widens the cached columns. */
  lemma AddColumnsWidens(m: Manager, name: string, cols: seq<string>)
    requires Valid(m) && name in m.book.tabs
    ensures KnownColumns(m, name) <= AddColumns(m, name, cols).value.cache[name].columns
  {
    var rows := m.book.tabs[name];
    var n := |KnownColumns(m, name)|;
    assert AddColumns(m, name, cols).value.cache[name] == ExtendedTable(TableOf(m, name), ReadHeaderPrefix(rows, n), cols);
  }

  /** The part of `HeaderWriteFacts` about the rows. */
  lemma HeaderWriteRows(rows: seq<Row>, n: nat, cols: seq<string>)
    ensures var rows' := HeaderWrite(rows, n, cols);
      && (rows' == rows || |rows'| == Max(|rows|, 1))
      && (forall j :: 1 <= j < |rows| ==> rows'[j] == rows[j])
  {
    HeaderWriteFacts(rows, n, cols);
  }

  /** In step with the stored header, every key of the data is a column
      (case-insensitively) once `append_row` is done. */
  lemma AppendRowAddsEveryKey(m: Manager, name: string, data: Dict<string>)
    requires Coherent(m, name)
    ensures forall k :: k in Keys(data) ==> HasColumn(AppendRow(m, name, data).value.cache[name], k)
  {
    var t := TableOf(m, name);
    var missing := UnknownKeys(t, Keys(data));
    var cached := AppendRow(m, name, data).value.cache[name];
    if |missing| > 0 {
      AddColumnsWhenCoherent(m, name, missing);
    }
    assert t.columns <= cached.columns;
    forall k | k in Keys(data) && k !in missing ensures HasColumn(cached, k) {
      Tables.HasColumnKept(t, cached, k);
    }
  }

  /** Searching the appended row back gives, for every data key that names
      a column exactly, the value that was appended. */
  lemma AppendedRowReadsBack(columns: seq<string>, data: Dict<string>)
    requires Distinct(columns)
    ensures forall k :: k in Keys(data) && k in columns ==>
      Get(RowMap(columns, RowFor(columns, data)), k) == Some(Get(data, k))
  {
    forall k | k in Keys(data) && k in columns
      ensures Get(RowMap(columns, RowFor(columns, data)), k) == Some(Get(data, k))
    {
      var i :| 0 <= i < |columns| && columns[i] == k;
      assert CellAt(RowFor(columns, data), i) == Some(GetOr(data, k, ""));
    }
  }

  /** A key that differs from an existing column only in letter case is not
      added (the column check ignores case) yet finds no cell (the lookup is
      exact), so its value is not written: here "name" against "Name". */
  lemma AppendRowDropsCaseVariantKey()
    ensures var m := Manager(Spreadsheet(["T"], map["T" := [["Name"]]]), map[]);
      && Valid(m)
      && AppendRow(m, "T", [("name", "Bob")]).value.book.tabs["T"] == [["Name"], [""]]
  {
    var m := Manager(Spreadsheet(["T"], map["T" := [["Name"]]]), map[]);
    assert Lower("Name") == "name";
    assert Lower("name") == "name";
    var t := TableOf(m, "T");
    assert t.columns == ["Name"];
    assert LowerNames(t.columns) == ["name"];
    assert HasColumn(t, "name");
    assert UnknownKeys(t, ["name"]) == [];
    assert Keys([("name", "Bob")]) == ["name"];
    assert WithKeys(m, "T", [("name", "Bob")]) == AfterGet(m, "T");
    assert GetOr([("name", "Bob")], "Name", "") == "";
    assert RowFor(["Name"], [("name", "Bob")]) == [""];
  }

  /** The first data row that matches, if any. */
  function FirstMatchingRow(rows: seq<Row>, idx: nat, value: string, exact: bool): (r: Option<nat>)
    ensures r.Some? ==> 1 <= r.value < |rows| && RowMatches(rows[r.value], idx, value, exact)
    ensures r.Some? ==> forall j :: 1 <= j < r.value ==> !RowMatches(rows[j], idx, value, exact)
    ensures r.None? <==> |MatchingRows(rows, 1, idx, value, exact)| == 0
    ensures r.None? <==> forall j :: 1 <= j < |rows| ==> !RowMatches(rows[j], idx, value, exact)
  {
    var hits := MatchingRows(rows, 1, idx, value, exact);
    if |hits| == 0 then
      assert forall j :: 1 <= j < |rows| ==> j !in hits;
      None
    else
      assert hits[0] in hits;
      assert forall j :: 1 <= j < hits[0] ==> j !in hits;
      Some(hits[0])
  }

  /** The rewritten cells of `update_row`: `new_data.get(col, row[idx])` where
      the old row has a cell, `new_data.get(col)` (an absent value, which the
      write skips) past it. */
  function UpdatedCells(columns: seq<string>, row: Row, newData: Dict<string>): (cells: seq<Option<string>>)
    ensures |cells| == |columns|
  {
    seq(|columns|, k requires 0 <= k < |columns| =>
      if k < |row| then Some(GetOr(newData, columns[k], row[k])) else Get(newData, columns[k]))
  }

  /** `update_row`: the search of `search_column` (with its errors); `False`
      and no write when no data row matches; otherwise the first matching
      row is rewritten and the answer is `True`. The source's second scan for
      the row number finds that same first match. */
  function UpdateRow(m: Manager, name: string, column: string, value: string, newData: Dict<string>, exact: bool)
    : (r: Result<(Manager, bool)>)
    requires Valid(m)
    ensures r.Err? <==> SearchColumn(m, name, column, value, exact).Err?
    ensures r.Err? ==> r.msg == SearchColumn(m, name, column, value, exact).msg
    ensures r.Ok? ==> Valid(r.value.0) && r.value.0.cache == AfterGet(m, name).cache && r.value.0.book.titles == m.book.titles
    ensures r.Ok? ==> (r.value.1 <==> |SearchColumn(m, name, column, value, exact).value.1| > 0)
    ensures r.Ok? && !r.value.1 ==> r.value.0.book == m.book
  {
    if name !in m.book.tabs then Err(NoSuchTab(name))
    else
      var t := TableOf(m, name);
      var rows := m.book.tabs[name];
      if |rows| == 0 then Ok((AfterGet(m, name), false))
      else
        match GetColumnIndex(t, column)
        case Err(e) => Err(e)
        case Ok(idx) =>
          match FirstMatchingRow(rows, idx, value, exact)
          case None => Ok((AfterGet(m, name), false))
          case Some(i) =>
            var m1 := AfterGet(m, name);
            Ok((m1.(book := WriteRow(m1.book, name, i, UpdatedCells(t.columns, rows[i], newData))), true))
  }

  /** The cells of a row after `update_row` wrote over it: the columns named
      in the new data take the new value, every other cell keeps its old one. */
  lemma UpdatedRowCells(columns: seq<string>, row: Row, newData: Dict<string>)
    ensures var row' := Overlay(row, UpdatedCells(columns, row, newData));
      && |row'| == Max(|row|, |columns|)
      && (forall k :: 0 <= k < |columns| && columns[k] in Keys(newData) ==> row'[k] == Get(newData, columns[k]).value)
      && (forall k :: 0 <= k < |row| && (k >= |columns| || columns[k] !in Keys(newData)) ==> row'[k] == row[k])
  {
  }

  /** When `update_row` answers `True` it has rewritten only the first
      matching data row, as `UpdatedRowCells` describes. */
  lemma UpdateRowRewritesFirstMatch(m: Manager, name: string, column: string, value: string, newData: Dict<string>, exact: bool)
    requires Valid(m) && name in m.book.tabs && |m.book.tabs[name]| > 0
    requires HasColumn(TableOf(m, name), column)
    ensures var t := TableOf(m, name);
      var rows := m.book.tabs[name];
      var first := FirstMatchingRow(rows, GetColumnIndex(t, column).value, value, exact);
      var r := UpdateRow(m, name, column, value, newData, exact);
      && r.Ok? && (r.value.1 <==> first.Some?)
      && (first.Some? ==>
            var i := first.value;
            && r.value.0.book.tabs == m.book.tabs[name := rows[i := Overlay(rows[i], UpdatedCells(t.columns, rows[i], newData))]])
  {
    var t := TableOf(m, name);
    var rows := m.book.tabs[name];
    var idx := GetColumnIndex(t, column).value;
    var first := FirstMatchingRow(rows, idx, value, exact);
    var m1 := AfterGet(m, name);
    if first.Some? {
      var i := first.value;
      var cells := UpdatedCells(t.columns, rows[i], newData);
      assert UpdateRow(m, name, column, value, newData, exact) == Ok((m1.(book := WriteRow(m1.book, name, i, cells)), true));
      assert PutRow(rows, i, cells) == rows[i := Overlay(rows[i], cells)];
    } else {
      assert UpdateRow(m, name, column, value, newData, exact) == Ok((m1, false));
    }
  }

  /** `get_columns`: the (cached) table's columns; the model's values are
      immutable, so the copy the source hands out is implicit. The first call
      reads the header row, where a single empty cell means no columns. */
  function GetColumns(m: Manager, name: string): (r: Result<(Manager, seq<string>)>)
    requires Valid(m)
    ensures r.Err? <==> name !in m.book.tabs
    ensures r.Ok? ==> r.value.0 == AfterGet(m, name) && r.value.1 == KnownColumns(m, name)
    ensures r.Ok? && name !in m.cache ==> r.value.1 == InitialColumns(m.book.tabs[name])
    ensures r.Ok? && name !in m.cache ==> (r.value.1 == [] <==> HeaderOf(m.book.tabs[name]) in {[], [""]})
  {
    if name !in m.book.tabs then Err(NoSuchTab(name)) else Ok((AfterGet(m, name), KnownColumns(m, name)))
  }

  /** Once cached, the columns no longer follow the stored header: a second
      call answers the same even after the header row was rewritten. */
  lemma GetColumnsCached(m: Manager, name: string, header: Row)
    requires Valid(m) && name in m.book.tabs
    ensures var m1 := GetColumns(m, name).value.0;
      var rows := m1.book.tabs[name];
      var m2 := m1.(book := m1.book.(tabs := m1.book.tabs[name := PutRow(rows, 0, Present(header))]));
      Valid(m2) && GetColumns(m2, name).value.1 == GetColumns(m, name).value.1
  {
    var m1 := GetColumns(m, name).value.0;
    var rows := m1.book.tabs[name];
    var m2 := m1.(book := m1.book.(tabs := m1.book.tabs[name := PutRow(rows, 0, Present(header))]));
    assert m2.book.tabs.Keys == m1.book.tabs.Keys;
  }

  /** `create_sheet`: the store refuses a title that is already taken; a new
      tab is empty and goes last. */
  function CreateSheet(m: Manager, name: string): (r: Result<Manager>)
    requires Valid(m)
    ensures r.Err? <==> name in m.book.tabs
    ensures r.Err? ==> r.msg == DuplicateTab(name)
    ensures r.Ok? ==> Valid(r.value) && r.value.book.titles == m.book.titles + [name]
    ensures r.Ok? ==> r.value.book.tabs == m.book.tabs[name := []] && r.value.cache == m.cache
  {
    if name in m.book.tabs then Err(DuplicateTab(name))
    else Ok(m.(book := AddSheet(m.book, name)))
  }

  /** `get_all_sheets`: the tab titles in spreadsheet order. */
  function GetAllSheets(m: Manager): (r: seq<string>)
    requires Valid(m)
    ensures forall n :: n in r <==> n in m.book.tabs
    ensures Distinct(r)
  {
    m.book.titles
  }

  /** A created tab is listed last, and a second creation of it fails. */
  lemma CreateThenList(m: Manager, name: string)
    requires Valid(m) && name !in m.book.tabs
    ensures var m' := CreateSheet(m, name).value;
      && GetAllSheets(m') == GetAllSheets(m) + [name]
      && CreateSheet(m', name).Err?
  {
  }
}

=== FILE: orm.dfy ===
/** `SheetORM` of src/services/sheet_orm.py: a dataclass mapped onto one tab
    of the spreadsheet, named after the class with an "s" appended, whose
    header row holds the field names. The main members read rows as lists of
    cells, which the ORM indexes by position; the members ending in
    `AsWritten` model the code as it stands, where that differs. */
module Orm {
  import opened Results
  import opened Text
  import opened Dicts
  import opened Schema
  import opened Sheets
  import Service

  /** The field annotations the ORM coerces cells to; any other annotation
      keeps the cell text. */
  datatype FieldType = StrType | IntType | BoolType | OtherType

  datatype Field = Field(name: string, fieldType: FieldType)

  /** A model class: its name, whether it is a dataclass, its fields in
      declaration order and its `__pk__` attribute when that is a string. */
  datatype ModelClass = ModelClass(name: string, isDataclass: bool, fields: seq<Field>, pk: Option<string>)

  /** The Python values an instance holds. */
  datatype Value = NoneValue | StrValue(s: string) | IntValue(i: int) | BoolValue(b: bool)

  /** A model instance: the name of its class and its attributes. */
  datatype Instance = Instance(className: string, attrs: Dict<Value>)

  datatype Orm = Orm(service: Service.Service, model: ModelClass, sheetName: string, columns: seq<string>, pkField: string)

  /** `[f.name for f in fields(model_cls)]`. */
  function FieldNames(fields: seq<Field>): (names: seq<string>)
    ensures |names| == |fields|
    ensures forall i :: 0 <= i < |fields| ==> names[i] == fields[i].name
  {
    seq(|fields|, i requires 0 <= i < |fields| => fields[i].name)
  }

  /** A dataclass never declares a field name twice. */
  predicate WfClass(cls: ModelClass) {
    Distinct(FieldNames(cls.fields))
  }

  /** What a constructed ORM keeps: the columns are the field names, the
      primary key is one of them and the tab is the pluralised class name. */
  ghost predicate Valid(o: Orm) {
    && Service.Valid(o.service)
    && o.columns == FieldNames(o.model.fields)
    && o.pkField in o.columns
    && o.sheetName == o.model.name + "s"
  }

  /** `str(v)`. */
  function PyStr(v: Value): string {
    match v
    case NoneValue => "None"
    case StrValue(s) => s
    case IntValue(i) => IntToString(i)
    case BoolValue(b) => if b then "True" else "False"
  }

  // ---------------------------------------------------------------------------
  // Construction and the header check
  // ---------------------------------------------------------------------------

  /** The missing-tab branch of `_ensure_sheet_and_columns`: the tab is
      created (with a new spreadsheet when there is none yet) and the columns
      are written verbatim into its empty header. */
  function CreateWithColumns(s: Service.Service, sheetName: string, columns: seq<string>, newId: string): (r: Result<Service.Service>)
    requires Service.Valid(s) && sheetName !in Service.GetAllSheets(s)
    ensures r.Err? <==> s.spreadsheetId == "" && newId == ""
    ensures r.Ok? ==> Service.Valid(r.value) && Service.Reachable(r.value, sheetName)
    ensures r.Ok? ==> Service.GetColumns(r.value, sheetName) == columns
  {
    var s1 := Service.CreateSheet(s, sheetName, newId).value.0;
    var r := Service.AddColumns(s1, sheetName, columns);
    if r.Err? then r
    else
      Service.AddColumnsHeader(s1, sheetName, columns);
      r
  }

  /** The existing-tab branch: a header that differs from the columns gets
      `add_columns` called on it, which keeps the header and appends the
      columns it lacks (an empty header takes the columns verbatim); the data
      rows and the other tabs stay as they were. */
  function CheckHeader(s: Service.Service, sheetName: string, columns: seq<string>): (r: Service.Service)
    requires Service.Valid(s) && Service.Reachable(s, sheetName)
    ensures Service.Valid(r) && Service.Reachable(r, sheetName)
    ensures r.spreadsheetId == s.spreadsheetId && r.book.titles == s.book.titles
    ensures var h := Service.GetColumns(s, sheetName);
      Service.GetColumns(r, sheetName) == if h == [] then columns else Merge(h, columns)
    ensures var rows := s.book.tabs[sheetName];
      var rows' := r.book.tabs[sheetName];
      |rows'| >= |rows| && forall j :: 1 <= j < |rows| ==> rows'[j] == rows[j]
    ensures forall n :: n in s.book.tabs && n != sheetName ==> r.book.tabs[n] == s.book.tabs[n]
  {
    Service.AddColumnsHeader(s, sheetName, columns);
    if Service.GetColumns(s, sheetName) != columns then
      Service.AddColumns(s, sheetName, columns).value
    else
      MergeAbsorbed(columns, columns);
      s
  }

  /** `_ensure_sheet_and_columns`: afterwards the tab exists and its header
      holds every column. Freezing the header row changes no cell. */
  function EnsureSheetAndColumns(s: Service.Service, sheetName: string, columns: seq<string>, newId: string): (r: Result<Service.Service>)
    requires Service.Valid(s)
    ensures r.Err? <==> s.spreadsheetId == "" && newId == ""
    ensures r.Ok? ==> Service.Valid(r.value) && Service.Reachable(r.value, sheetName)
    ensures r.Ok? ==> forall c :: c in columns ==> c in Service.GetColumns(r.value, sheetName)
    ensures r.Ok? && sheetName !in Service.GetAllSheets(s) ==> Service.GetColumns(r.value, sheetName) == columns
    ensures sheetName in Service.GetAllSheets(s) ==> r == Ok(CheckHeader(s, sheetName, columns))
  {
    if sheetName !in Service.GetAllSheets(s) then CreateWithColumns(s, sheetName, columns, newId)
    else Ok(CheckHeader(s, sheetName, columns))
  }

  /** A header that already holds every column is left as it is. */
  lemma CheckHeaderSettled(s: Service.Service, sheetName: string, columns: seq<string>)
    requires Service.Valid(s) && Service.Reachable(s, sheetName)
    requires forall c :: c in columns ==> c in Service.GetColumns(s, sheetName)
    ensures CheckHeader(s, sheetName, columns) == s
  {
    var h := Service.GetColumns(s, sheetName);
    if h != columns {
      MergeAbsorbed(h, columns);
      var rows := s.book.tabs[sheetName];
      assert |rows| > 0 && h != [];
      OverlayPresent(rows[0], h);
      assert PutRow(rows, 0, Present(h)) == rows;
    }
  }

  /** Running the header check a second time changes nothing: after the
      first run the header holds every column, so the merge adds none. */
  lemma EnsureSettles(s: Service.Service, sheetName: string, columns: seq<string>, newId: string)
    requires Service.Valid(s)
    requires EnsureSheetAndColumns(s, sheetName, columns, newId).Ok?
    ensures var s1 := EnsureSheetAndColumns(s, sheetName, columns, newId).value;
      EnsureSheetAndColumns(s1, sheetName, columns, newId) == Ok(s1)
  {
    var s1 := EnsureSheetAndColumns(s, sheetName, columns, newId).value;
    assert sheetName in Service.GetAllSheets(s1);
    CheckHeaderSettled(s1, sheetName, columns);
  }

  /** An existing tab whose header differs from the model keeps its own
      columns and gains the model's after them: header `x` and fields `a`
      end up as `x`, `a`, not `a`. */
  lemma MismatchedHeaderIsMerged()
    ensures var s := Service.Service("id", Spreadsheet(["Ts"], map["Ts" := [["x"]]]));
      && Service.Valid(s)
      && Service.GetColumns(EnsureSheetAndColumns(s, "Ts", ["a"], "id").value, "Ts") == ["x", "a"]
  {
    var s := Service.Service("id", Spreadsheet(["Ts"], map["Ts" := [["x"]]]));
    assert "Ts" in Service.GetAllSheets(s);
    assert Merge(["x"], ["a"]) == ["x", "a"];
  }

  /** `SheetORM(service, model_cls)`: the class checks in the order the
      constructor makes them, then the header check on the pluralised tab. */
  function NewOrm(s: Service.Service, cls: ModelClass, newId: string): (r: Result<Orm>)
    requires Service.Valid(s)
    ensures !cls.isDataclass ==> r == Err(cls.name + " must be a dataclass.")
    ensures cls.isDataclass && cls.pk.None? ==> r == Err(cls.name + " must have a string class attribute '__pk__'.")
    ensures cls.isDataclass && cls.pk.Some? && cls.pk.value !in FieldNames(cls.fields) ==>
      r == Err("Primary key '" + cls.pk.value + "' defined in " + cls.name + ".__pk__ not found in dataclass fields.")
    ensures r.Ok? <==> cls.isDataclass && cls.pk.Some? && cls.pk.value in FieldNames(cls.fields)
                       && (s.spreadsheetId != "" || newId != "")
    ensures r.Ok? ==> Valid(r.value) && r.value.model == cls && r.value.pkField == cls.pk.value
    ensures r.Ok? ==> EnsureSheetAndColumns(s, r.value.sheetName, r.value.columns, newId) == Ok(r.value.service)
    ensures r.Ok? ==> forall c :: c in r.value.columns ==> c in Service.GetColumns(r.value.service, r.value.sheetName)
  {
    if !cls.isDataclass then Err(cls.name + " must be a dataclass.")
    else if cls.pk.None? then Err(cls.name + " must have a string class attribute '__pk__'.")
    else
      var sheetName := cls.name + "s";
      var columns := FieldNames(cls.fields);
      var pk := cls.pk.value;
      if pk !in columns then
        Err("Primary key '" + pk + "' defined in " + cls.name + ".__pk__ not found in dataclass fields.")
      else
        match EnsureSheetAndColumns(s, sheetName, columns, newId)
        case Err(e) => Err(e)
        case Ok(s') => Ok(Orm(s', cls, sheetName, columns, pk))
  }

  // ---------------------------------------------------------------------------
  // Rows and instances
  // ---------------------------------------------------------------------------

  /** `_instance_to_row_list`: the instance's values in column order, `None`
      for an attribute it lacks; an instance of another class is refused. */
  function InstanceToRowList(cls: ModelClass, inst: Instance): (r: Result<seq<Value>>)
    ensures r.Err? <==> inst.className != cls.name
    ensures r.Err? ==> r.msg == "Expected instance of " + cls.name + ", got " + inst.className
    ensures r.Ok? ==> |r.value| == |cls.fields|
    ensures r.Ok? ==> forall i :: 0 <= i < |cls.fields| ==>
      r.value[i] == if cls.fields[i].name in Keys(inst.attrs) then Get(inst.attrs, cls.fields[i].name).value else NoneValue
  {
    if inst.className != cls.name then Err("Expected instance of " + cls.name + ", got " + inst.className)
    else
      var columns := FieldNames(cls.fields);
      Ok(seq(|columns|, i requires 0 <= i < |columns| => GetOr(inst.attrs, columns[i], NoneValue)))
  }

  /** The spellings a bool field reads as true, compared after `upper()`. */
  const TrueSpellings: set<string> := {"TRUE", "1", "YES"}

  /** The value a field takes from a cell: an absent cell is `None`; a bool
      field is true exactly for the listed spellings; an int field takes the
      parsed number and keeps the text when it does not parse; any other
      field keeps the text. */
  function Coerce(t: FieldType, cell: Option<string>): (v: Value)
    ensures cell.None? <==> v == NoneValue
  {
    match cell
    case None => NoneValue
    case Some(text) =>
      match t
      case BoolType => BoolValue(Upper(text) in TrueSpellings)
      case IntType => (match ParseInt(text) case Some(n) => IntValue(n) case None => StrValue(text))
      case _ => StrValue(text)
  }

  /** The cell `i` of a row padded with `None` up to the column count. */
  function PaddedCell(row: seq<Option<string>>, i: nat): Option<string> {
    if i < |row| then row[i] else None
  }

  /** `_row_list_to_instance`: the row is padded with `None` up to the
      number of columns, zipped with the columns (so extra cells are
      dropped), and each field takes its coerced cell. Building the
      dataclass from a value for every field cannot fail. */
  function RowListToInstance(cls: ModelClass, row: seq<Option<string>>): (inst: Instance)
    ensures inst.className == cls.name
    ensures Keys(inst.attrs) == FieldNames(cls.fields)
    ensures forall i :: 0 <= i < |cls.fields| ==> inst.attrs[i].1 == Coerce(cls.fields[i].fieldType, PaddedCell(row, i))
  {
    var fields := cls.fields;
    var padded := row + seq(if |fields| > |row| then |fields| - |row| else 0, _ => None);
    Instance(cls.name, seq(|fields|, i requires 0 <= i < |fields| =>
      (fields[i].name, Coerce(fields[i].fieldType, if i < |padded| then padded[i] else None))))
  }

  /** Cells past the last column are ignored. */
  lemma ExtraCellsIgnored(cls: ModelClass, row: seq<Option<string>>, extra: seq<Option<string>>)
    requires |row| >= |cls.fields|
    ensures RowListToInstance(cls, row + extra) == RowListToInstance(cls, row)
  {
    var a := RowListToInstance(cls, row + extra).attrs;
    var b := RowListToInstance(cls, row).attrs;
    assert |a| == |b|;
    forall i | 0 <= i < |a| ensures a[i] == b[i] {
      assert PaddedCell(row + extra, i) == PaddedCell(row, i);
    }
  }

  /** A short row reads as if its missing trailing cells were `None`. */
  lemma MissingCellsReadAsNone(cls: ModelClass, row: seq<Option<string>>, k: nat)
    ensures RowListToInstance(cls, row + seq(k, _ => None)) == RowListToInstance(cls, row)
  {
    var a := RowListToInstance(cls, row + seq(k, _ => None)).attrs;
    var b := RowListToInstance(cls, row).attrs;
    assert |a| == |b|;
    forall i | 0 <= i < |a| ensures a[i] == b[i] {
      assert PaddedCell(row + seq(k, _ => None), i) == PaddedCell(row, i);
    }
  }

  /** A bool field reads true exactly for "true", "1" or "yes" in any ASCII
      case, and false for every other present cell. */
  lemma BoolCells(text: string)
    ensures Coerce(BoolType, Some(text)).BoolValue?
    ensures Coerce(BoolType, Some(text)) == BoolValue(true) <==> Upper(text) in TrueSpellings
    ensures Coerce(BoolType, Some("yes")) == BoolValue(true)
    ensures Coerce(BoolType, Some("True")) == BoolValue(true)
    ensures Coerce(BoolType, Some("no")) == BoolValue(false)
  {
    assert Upper("yes") == "YES";
    assert Upper("True") == "TRUE";
    assert Upper("no") == "NO";
  }

  /** An int field whose cell does not parse keeps the text instead of
      failing, and one that parses takes the number. */
  lemma IntCells(text: string)
    ensures ParseInt(text).None? ==> Coerce(IntType, Some(text)) == StrValue(text)
    ensures ParseInt(text).Some? ==> Coerce(IntType, Some(text)) == IntValue(ParseInt(text).value)
    ensures Coerce(IntType, Some("12x")) == StrValue("12x")
  {
    StripTrimmed("12x");
    assert !IsDigit("12x"[2]);
  }

  /** How a value lands in a cell when a row list is written: `None` skips
      the cell, a bool is stored as TRUE or FALSE, an int as its digits. */
  function Written(v: Value): Option<string> {
    match v
    case NoneValue => None
    case StrValue(s) => Some(s)
    case IntValue(i) => Some(IntToString(i))
    case BoolValue(b) => Some(if b then "TRUE" else "FALSE")
  }

  function WrittenRow(values: seq<Value>): (cells: seq<Option<string>>)
    ensures |cells| == |values|
    ensures forall i :: 0 <= i < |values| ==> cells[i] == Written(values[i])
  {
    seq(|values|, i requires 0 <= i < |values| => Written(values[i]))
  }

  /** A value a field of this type holds and that survives a write. */
  predicate Conforms(t: FieldType, v: Value) {
    match v
    case NoneValue => true
    case StrValue(_) => t == StrType || t == OtherType
    case IntValue(_) => t == IntType
    case BoolValue(_) => t == BoolType
  }

  /** Each conforming value reads back from its written cell. */
  lemma CoerceWritten(t: FieldType, v: Value)
    requires Conforms(t, v)
    ensures Coerce(t, Written(v)) == v
  {
    match v
    case IntValue(i) => ParseIntOfIntToString(i);
    case BoolValue(b) =>
      assert Upper("TRUE") == "TRUE";
      assert Upper("FALSE") == "FALSE";
    case _ =>
  }

  /** Writing an instance's row list and reading it back gives the instance,
      provided it has exactly the model's attributes and each holds a value
      of its field's type (or `None`). */
  lemma RowListRoundTrip(cls: ModelClass, inst: Instance)
    requires WfClass(cls) && inst.className == cls.name
    requires Keys(inst.attrs) == FieldNames(cls.fields)
    requires forall i :: 0 <= i < |cls.fields| ==> Conforms(cls.fields[i].fieldType, inst.attrs[i].1)
    ensures RowListToInstance(cls, WrittenRow(InstanceToRowList(cls, inst).value)) == inst
  {
    var values := InstanceToRowList(cls, inst).value;
    var back := RowListToInstance(cls, WrittenRow(values));
    assert |back.attrs| == |inst.attrs|;
    forall i | 0 <= i < |inst.attrs| ensures back.attrs[i] == inst.attrs[i] {
      GetAt(inst.attrs, i);
      assert Keys(inst.attrs)[i] == inst.attrs[i].0;
      CoerceWritten(cls.fields[i].fieldType, inst.attrs[i].1);
    }
  }

  // ---------------------------------------------------------------------------
  // Finding and updating rows
  // ---------------------------------------------------------------------------

  /** The data rows (row 2 on) of a tab as lists of cells. */
  function DataRows(s: Service.Service, name: string): seq<Row> {
    if Service.Reachable(s, name) && |s.book.tabs[name]| >= 2 then s.book.tabs[name][1..] else []
  }

  /** A row long enough to have the key column, holding `key` there. */
  predicate Matches(row: Row, col: nat, key: string) {
    |row| > col && row[col] == key
  }

  /** The position of the first matching row. */
  function FirstMatch(rows: seq<Row>, col: nat, key: string): (r: Option<nat>)
    ensures r.Some? ==> r.value < |rows| && Matches(rows[r.value], col, key)
    ensures r.Some? ==> forall j :: 0 <= j < r.value ==> !Matches(rows[j], col, key)
    ensures r.None? <==> forall j :: 0 <= j < |rows| ==> !Matches(rows[j], col, key)
  {
    if |rows| == 0 then None
    else if Matches(rows[0], col, key) then Some(0)
    else
      match FirstMatch(rows[1..], col, key)
      case None => None
      case Some(k) => Some(k + 1)
  }

  /** `_find_row_index_by_pk`: the sheet row number (counted from 1, data
      from row 2) of the first data row whose key cell is `str(pk)`; rows
      too short to have the key cell are skipped. */
  function FindRowIndexByPk(o: Orm, pk: Value): (r: Result<Option<nat>>)
    ensures r.Err? <==> o.pkField !in o.columns
    ensures r.Ok? ==> var rows := DataRows(o.service, o.sheetName);
      var col := FirstIndex(o.columns, o.pkField);
      && (r.value.Some? ==>
            && 2 <= r.value.value < |rows| + 2
            && Matches(rows[r.value.value - 2], col, PyStr(pk))
            && forall j :: 0 <= j < r.value.value - 2 ==> !Matches(rows[j], col, PyStr(pk)))
      && (r.value.None? <==> forall j :: 0 <= j < |rows| ==> !Matches(rows[j], col, PyStr(pk)))
  {
    var col := FirstIndex(o.columns, o.pkField);
    if col == |o.columns| then Err("PK field '" + o.pkField + "' not found in derived columns.")
    else
      match FirstMatch(DataRows(o.service, o.sheetName), col, PyStr(pk))
      case None => Ok(None)
      case Some(i) => Ok(Some(i + 2))
  }

  /** The refusal of an update whose key names no row. */
  function NotFound(o: Orm, pk: Value): string {
    "No " + o.model.name + " found with " + o.pkField + "=" + PyStr(pk) + " to update."
  }

  /** Writing a row list over sheet row `rowIndex` (counted from 1). */
  function UpdateRow(s: Service.Service, name: string, rowIndex: nat, values: seq<Value>): (r: Service.Service)
    requires Service.Valid(s) && name in s.book.tabs && rowIndex >= 1
    ensures Service.Valid(r)
  {
    s.(book := WriteRow(s.book, name, rowIndex - 1, WrittenRow(values)))
  }

  /** `update`: refuses an instance of another class, one without a primary
      key value and one whose key names no row; otherwise writes the row list
      over the matching row and reports its row number. */
  function Update(o: Orm, inst: Instance): (r: Result<(Orm, nat)>)
    requires Valid(o)
    ensures inst.className != o.model.name ==> r.Err?
    ensures inst.className == o.model.name && Get(inst.attrs, o.pkField) == Some(NoneValue) ==>
      r == Err("Instance must have a non-None primary key value for update.")
    ensures r.Ok? <==>
      && inst.className == o.model.name
      && Get(inst.attrs, o.pkField).Some?
      && Get(inst.attrs, o.pkField).value != NoneValue
      && FindRowIndexByPk(o, Get(inst.attrs, o.pkField).value).value.Some?
    ensures r.Ok? ==> Valid(r.value.0) && r.value.0.model == o.model
    ensures r.Ok? ==> r.value.1 == FindRowIndexByPk(o, Get(inst.attrs, o.pkField).value).value.value
  {
    if inst.className != o.model.name then
      Err("Expected instance of " + o.model.name + ", got " + inst.className)
    else
      match Get(inst.attrs, o.pkField)
      case None => Err("'" + inst.className + "' object has no attribute '" + o.pkField + "'")
      case Some(pk) =>
        if pk == NoneValue then Err("Instance must have a non-None primary key value for update.")
        else
          match FindRowIndexByPk(o, pk).value
          case None => Err(NotFound(o, pk))
          case Some(i) =>
            var values := InstanceToRowList(o.model, inst).value;
            Ok((o.(service := UpdateRow(o.service, o.sheetName, i, values)), i))
  }

  /** What an update writes: the found row takes the instance's row list
      (cells whose value is `None` keep their content), and every other row
      and tab is unchanged. */
  lemma UpdateWrites(o: Orm, inst: Instance)
    requires Valid(o) && Update(o, inst).Ok?
    ensures var (o', i) := Update(o, inst).value;
      var name := o.sheetName;
      && name in o.service.book.tabs && name in o'.service.book.tabs
      && var rows := o.service.book.tabs[name];
      && var rows' := o'.service.book.tabs[name];
      && 2 <= i <= |rows| && |rows'| == |rows|
      && rows'[i - 1] == Overlay(rows[i - 1], WrittenRow(InstanceToRowList(o.model, inst).value))
      && (forall j :: 0 <= j < |rows| && j != i - 1 ==> rows'[j] == rows[j])
      && (forall n :: n in o.service.book.tabs && n != name ==> o'.service.book.tabs[n] == o.service.book.tabs[n])
  {
    var (o', i) := Update(o, inst).value;
    assert DataRows(o.service, o.sheetName) != [];
  }

  /** After an update the same key finds the same row again, provided the key
      is text or a number (whose written cell is its `str`). */
  lemma UpdateKeepsRowFindable(o: Orm, inst: Instance)
    requires Valid(o) && Update(o, inst).Ok?
    requires Get(inst.attrs, o.pkField).value.StrValue? || Get(inst.attrs, o.pkField).value.IntValue?
    ensures var (o', i) := Update(o, inst).value;
      FindRowIndexByPk(o', Get(inst.attrs, o.pkField).value) == Ok(Some(i))
  {
    var pk := Get(inst.attrs, o.pkField).value;
    var (o', i) := Update(o, inst).value;
    var col := FirstIndex(o.columns, o.pkField);
    assert FirstMatch(DataRows(o'.service, o.sheetName), col, PyStr(pk)) == Some(i - 2) by {
      UpdateWrites(o, inst);
      var all := o.service.book.tabs[o.sheetName];
      var all' := o'.service.book.tabs[o.sheetName];
      assert DataRows(o.service, o.sheetName) == all[1..];
      assert DataRows(o'.service, o.sheetName) == all'[1..];
      var values := InstanceToRowList(o.model, inst).value;
      assert WrittenRow(values)[col] == Some(PyStr(pk)) by {
        assert o.columns[col] == o.pkField;
        assert values[col] == pk;
      }
      assert forall j :: 0 <= j < i - 2 ==> all'[1..][j] == all[1..][j];
      OverlaidRowIsFirstMatch(all[1..], all'[1..], i - 2, col, WrittenRow(values), PyStr(pk));
    }
  }

  /** Overwriting row `m` with cells that hold `key` at `col` makes it the
      first match, when no earlier row matched and none of them changed. */
  lemma OverlaidRowIsFirstMatch(rows: seq<Row>, rows': seq<Row>, m: nat, col: nat, cells: seq<Option<string>>, key: string)
    requires m < |rows| == |rows'|
    requires rows'[m] == Overlay(rows[m], cells)
    requires forall j :: 0 <= j < m ==> rows'[j] == rows[j] && !Matches(rows[j], col, key)
    requires col < |cells| && cells[col] == Some(key)
    ensures FirstMatch(rows', col, key) == Some(m)
  {
    FirstMatchAt(rows', m, col, key);
  }

  /** A matching row with no match before it is the first match. */
  lemma FirstMatchAt(rows: seq<Row>, m: nat, col: nat, key: string)
    requires m < |rows| && Matches(rows[m], col, key)
    requires forall j :: 0 <= j < m ==> !Matches(rows[j], col, key)
    ensures FirstMatch(rows, col, key) == Some(m)
  {
  }

  /** An update with a key no row holds is refused with the missing-row error. */
  lemma UpdateOfMissingRowFails(o: Orm, inst: Instance)
    requires Valid(o) && inst.className == o.model.name
    requires Get(inst.attrs, o.pkField).Some? && Get(inst.attrs, o.pkField).value != NoneValue
    requires forall j :: 0 <= j < |DataRows(o.service, o.sheetName)| ==>
      !Matches(DataRows(o.service, o.sheetName)[j], FirstIndex(o.columns, o.pkField), PyStr(Get(inst.attrs, o.pkField).value))
    ensures var pk := Get(inst.attrs, o.pkField).value;
      Update(o, inst) == Err(NotFound(o, pk))
  {
  }

  // ---------------------------------------------------------------------------
  // The ORM as written
  //
  // The members above are the ORM as its code evidently intends it. As
  // written, the code calls `freeze_rows` and `update_row`, which
  // `SheetsService` does not define, and scans the column maps `get_rows`
  // returns as if they were lists of cells.
  // ---------------------------------------------------------------------------

  /** How a call ends together with the store it leaves: the writes made
      before an exception stay. */
  datatype Attempt<T> = Attempt(store: Service.Service, result: Result<T>)

  /** The `AttributeError` of calling a method `SheetsService` lacks. */
  function NoSuchMethod(name: string): string {
    "'SheetsService' object has no attribute '" + name + "'"
  }

  /** `_ensure_sheet_and_columns` as written: after creating the tab or
      rewriting a differing header it calls `freeze_rows`, which raises.
      So it returns normally only when the header already equals the
      columns, and otherwise the writes of `EnsureSheetAndColumns` stay
      behind the error. */
  function EnsureSheetAndColumnsAsWritten(s: Service.Service, sheetName: string, columns: seq<string>, newId: string): (a: Attempt<()>)
    requires Service.Valid(s)
    ensures a.result.Ok? <==> sheetName in Service.GetAllSheets(s) && Service.GetColumns(s, sheetName) == columns
    ensures a.result.Ok? ==> a.store == s
    ensures EnsureSheetAndColumns(s, sheetName, columns, newId).Ok? ==>
      a.store == EnsureSheetAndColumns(s, sheetName, columns, newId).value
    ensures EnsureSheetAndColumns(s, sheetName, columns, newId).Ok? && a.result.Err? ==>
      a.result.msg == NoSuchMethod("freeze_rows")
  {
    if sheetName !in Service.GetAllSheets(s) then
      var s1 := Service.CreateSheet(s, sheetName, newId).value.0;
      match Service.AddColumns(s1, sheetName, columns)
      case Err(e) => Attempt(s1, Err(e))
      case Ok(s2) => Attempt(s2, Err(NoSuchMethod("freeze_rows")))
    else if Service.GetColumns(s, sheetName) != columns then
      Attempt(CheckHeader(s, sheetName, columns), Err(NoSuchMethod("freeze_rows")))
    else
      Attempt(s, Ok(()))
  }

  /** `SheetORM(service, model_cls)` as written: the class checks as in
      `NewOrm`, then the header check as written. Construction succeeds only
      on a tab whose header is already exactly the field names; a new tab is
      created with its header and then the constructor raises. */
  function NewOrmAsWritten(s: Service.Service, cls: ModelClass, newId: string): (a: Attempt<Orm>)
    requires Service.Valid(s)
    ensures a.result.Ok? <==>
      && NewOrm(s, cls, newId).Ok?
      && cls.name + "s" in Service.GetAllSheets(s)
      && Service.GetColumns(s, cls.name + "s") == FieldNames(cls.fields)
    ensures a.result.Ok? ==> a.result == NewOrm(s, cls, newId) && a.store == s
    ensures NewOrm(s, cls, newId).Ok? ==> a.store == NewOrm(s, cls, newId).value.service
    ensures NewOrm(s, cls, newId).Ok? && a.result.Err? ==> a.result.msg == NoSuchMethod("freeze_rows")
  {
    if !cls.isDataclass then Attempt(s, Err(cls.name + " must be a dataclass."))
    else if cls.pk.None? then Attempt(s, Err(cls.name + " must have a string class attribute '__pk__'."))
    else
      var sheetName := cls.name + "s";
      var columns := FieldNames(cls.fields);
      var pk := cls.pk.value;
      if pk !in columns then
        Attempt(s, Err("Primary key '" + pk + "' defined in " + cls.name + ".__pk__ not found in dataclass fields."))
      else
        var a := EnsureSheetAndColumnsAsWritten(s, sheetName, columns, newId);
        match a.result
        case Err(e) => Attempt(a.store, Err(e))
        case Ok(_) => Attempt(s, Ok(Orm(s, cls, sheetName, columns, pk)))
  }

  /** Constructing the ORM where its tab is missing creates the tab with the
      field names as its header and then raises, wherever the intended
      constructor succeeds. */
  lemma NewTabConstructorRaises(s: Service.Service, cls: ModelClass, newId: string)
    requires Service.Valid(s) && NewOrm(s, cls, newId).Ok?
    requires cls.name + "s" !in Service.GetAllSheets(s)
    ensures var a := NewOrmAsWritten(s, cls, newId);
      && a.result == Err(NoSuchMethod("freeze_rows"))
      && Service.Reachable(a.store, cls.name + "s")
      && Service.GetColumns(a.store, cls.name + "s") == FieldNames(cls.fields)
  {
    var o := NewOrm(s, cls, newId).value;
    assert Service.GetColumns(o.service, o.sheetName) == o.columns;
  }

  /** The class `Item` with fields `id` and `name` on a spreadsheet with no
      tabs: the intended constructor succeeds; as written, the tab `Items`
      is created with header `id`, `name` and `freeze_rows` raises. */
  lemma NewTabConstructorExample(s: Service.Service, cls: ModelClass)
    requires s == Service.Service("id", Spreadsheet([], map[]))
    requires cls == ModelClass("Item", true, [Field("id", StrType), Field("name", StrType)], Some("id"))
    ensures NewOrm(s, cls, "").Ok?
    ensures NewOrmAsWritten(s, cls, "").result == Err(NoSuchMethod("freeze_rows"))
    ensures Service.GetColumns(NewOrmAsWritten(s, cls, "").store, "Items") == ["id", "name"]
  {
    assert FieldNames(cls.fields) == ["id", "name"];
    assert cls.name + "s" == "Items";
    NewTabConstructorRaises(s, cls, "");
  }

  /** The `KeyError` of indexing a column map by the position `col`. */
  function KeyError(col: nat): string {
    "KeyError: " + IntToString(col)
  }

  /** The loop of `_find_row_index_by_pk` as written, over the column maps
      `get_rows` returns: a map with more entries than the key column's
      position is indexed by that position, which is never one of its
      (text) keys, so the lookup raises `KeyError`; shorter maps are
      skipped. No row is ever found. */
  function ScanRowMaps(rows: seq<Dict<string>>, col: nat): (r: Result<Option<nat>>)
    ensures r.Ok? ==> r.value.None?
    ensures r.Err? <==> exists j :: 0 <= j < |rows| && |rows[j]| > col
    ensures r.Err? ==> r.msg == KeyError(col)
  {
    if |rows| == 0 then Ok(None)
    else if |rows[0]| > col then Err(KeyError(col))
    else
      var r := ScanRowMaps(rows[1..], col);
      assert forall j :: 1 <= j < |rows| ==> rows[j] == rows[1..][j - 1];
      r
  }

  /** `_find_row_index_by_pk` as written: the key column's position, then
      the scan over `get_rows(sheet, start_row=2)`. */
  function FindRowIndexByPkAsWritten(o: Orm, pk: Value): (r: Result<Option<nat>>)
    ensures r.Ok? ==> r.value.None?
    ensures o.pkField !in o.columns ==> r == FindRowIndexByPk(o, pk)
    ensures o.pkField in o.columns ==>
      var rows := Service.GetRows(o.service, o.sheetName, 2);
      (r.Err? <==> exists j :: 0 <= j < |rows| && |rows[j]| > FirstIndex(o.columns, o.pkField))
  {
    var col := FirstIndex(o.columns, o.pkField);
    if col == |o.columns| then Err("PK field '" + o.pkField + "' not found in derived columns.")
    else ScanRowMaps(Service.GetRows(o.service, o.sheetName, 2), col)
  }

  /** On a tab whose header is exactly the model's field names, as creating
      it leaves it, every key the intended lookup finds a row for makes the
      lookup as written raise `KeyError` instead. */
  lemma {:induction false} LookupAsWrittenRaises(o: Orm, pk: Value)
    requires Valid(o) && WfClass(o.model)
    requires Service.GetColumns(o.service, o.sheetName) == o.columns
    requires FindRowIndexByPk(o, pk).Ok? && FindRowIndexByPk(o, pk).value.Some?
    ensures FindRowIndexByPkAsWritten(o, pk) == Err(KeyError(FirstIndex(o.columns, o.pkField)))
  {
    var col := FirstIndex(o.columns, o.pkField);
    var i := FindRowIndexByPk(o, pk).value.value;
    var all := o.service.book.tabs[o.sheetName];
    var rows := Service.GetRows(o.service, o.sheetName, 2);
    assert DataRows(o.service, o.sheetName) == all[1..];
    assert |all[i - 1]| > col;
    assert Distinct(o.columns) by {
      assert o.columns == FieldNames(o.model.fields);
    }
    assert |rows[i - 2]| == Service.Min(|all[i - 1]|, |o.columns|);
    assert |rows[i - 2]| > col;
  }

  /** The lookup on a tab with header `id`, `name` and the row `1`, `x`:
      intended, key "1" is on sheet row 2; as written, `row[0]` on the map
      `{"id": "1", "name": "x"}` raises `KeyError: 0`. */
  lemma LookupAsWrittenExample()
    ensures var s := Service.Service("id", Spreadsheet(["Items"], map["Items" := [["id", "name"], ["1", "x"]]]));
      var cls := ModelClass("Item", true, [Field("id", StrType), Field("name", StrType)], Some("id"));
      var o := Orm(s, cls, "Items", ["id", "name"], "id");
      && Valid(o)
      && FindRowIndexByPk(o, StrValue("1")) == Ok(Some(2))
      && FindRowIndexByPkAsWritten(o, StrValue("1")) == Err(KeyError(0))
  {
    var s := Service.Service("id", Spreadsheet(["Items"], map["Items" := [["id", "name"], ["1", "x"]]]));
    var cls := ModelClass("Item", true, [Field("id", StrType), Field("name", StrType)], Some("id"));
    var o := Orm(s, cls, "Items", ["id", "name"], "id");
    assert Valid(o) && WfClass(cls) by {
      assert FieldNames(cls.fields) == ["id", "name"];
      assert Service.GetColumns(s, "Items") == ["id", "name"];
    }
    assert FindRowIndexByPk(o, StrValue("1")) == Ok(Some(2)) by {
      assert DataRows(s, "Items") == [["1", "x"]];
      assert Matches(["1", "x"], 0, "1");
    }
    assert Service.GetColumns(s, "Items") == o.columns;
    LookupAsWrittenRaises(o, StrValue("1"));
  }

  /** `update` as written: the refusals of `Update`, then the lookup as
      written; a found row would reach `update_row`, which `SheetsService`
      lacks. So it never writes: every call ends in an error, which is the
      intended refusal, the lookup's `KeyError` or, where the intended
      update writes, a report that no row holds the key. */
  function UpdateAsWritten(o: Orm, inst: Instance): (r: Result<(Orm, nat)>)
    requires Valid(o)
    ensures r.Err?
    ensures inst.className != o.model.name || Get(inst.attrs, o.pkField).None? || Get(inst.attrs, o.pkField) == Some(NoneValue) ==>
      r == Update(o, inst)
    ensures r == Update(o, inst) || r.msg == KeyError(FirstIndex(o.columns, o.pkField))
      || (Update(o, inst).Ok? && r.msg == NotFound(o, Get(inst.attrs, o.pkField).value))
  {
    if inst.className != o.model.name then
      Err("Expected instance of " + o.model.name + ", got " + inst.className)
    else
      match Get(inst.attrs, o.pkField)
      case None => Err("'" + inst.className + "' object has no attribute '" + o.pkField + "'")
      case Some(pk) =>
        if pk == NoneValue then Err("Instance must have a non-None primary key value for update.")
        else
          match FindRowIndexByPkAsWritten(o, pk)
          case Err(e) => Err(e)
          case Ok(None) => Err(NotFound(o, pk))
          case Ok(Some(_)) => Err(NoSuchMethod("update_row"))
  }

  /** On a tab whose header is exactly the field names, every update the
      intended code performs raises `KeyError` as written instead, leaving
      the row as it was. */
  lemma UpdateAsWrittenRaises(o: Orm, inst: Instance)
    requires Valid(o) && WfClass(o.model)
    requires Service.GetColumns(o.service, o.sheetName) == o.columns
    requires Update(o, inst).Ok?
    ensures UpdateAsWritten(o, inst) == Err(KeyError(FirstIndex(o.columns, o.pkField)))
  {
    LookupAsWrittenRaises(o, Get(inst.attrs, o.pkField).value);
  }

  /** Updating the row with key "1" of the example tab: the intended update
      rewrites sheet row 2, the update as written raises `KeyError: 0`. */
  lemma UpdateAsWrittenExample()
    ensures var s := Service.Service("id", Spreadsheet(["Items"], map["Items" := [["id", "name"], ["1", "x"]]]));
      var cls := ModelClass("Item", true, [Field("id", StrType), Field("name", StrType)], Some("id"));
      var o := Orm(s, cls, "Items", ["id", "name"], "id");
      var inst := Instance("Item", [("id", StrValue("1")), ("name", StrValue("y"))]);
      && Valid(o)
      && Update(o, inst).Ok? && Update(o, inst).value.1 == 2
      && UpdateAsWritten(o, inst) == Err(KeyError(0))
  {
    var s := Service.Service("id", Spreadsheet(["Items"], map["Items" := [["id", "name"], ["1", "x"]]]));
    var cls := ModelClass("Item", true, [Field("id", StrType), Field("name", StrType)], Some("id"));
    var o := Orm(s, cls, "Items", ["id", "name"], "id");
    var inst := Instance("Item", [("id", StrValue("1")), ("name", StrValue("y"))]);
    LookupAsWrittenExample();
    assert Get(inst.attrs, "id") == Some(StrValue("1"));
    assert Update(o, inst).Ok? && Update(o, inst).value.1 == 2;
    assert UpdateAsWritten(o, inst) == Err(KeyError(0));
  }
}

=== FILE: parser.dfy ===
/** `parse_object` of bot.py (and its copy `_parse_object` in
    src/states/sheet_states.py): a message of `key: value` lines becomes an
    ordered dict. */
module Parser {
  import opened Results
  import opened Text
  import opened Dicts
  import Seqs

  /** The field a line defines, if any: the text before its first ':' and
      the text after it, both stripped, and both non-empty. */
  function LineField(line: string): (f: Option<(string, string)>)
    ensures ':' !in line ==> f.None?
    ensures f.Some? ==> f.value.0 != [] && f.value.1 != [] && ':' !in f.value.0
    ensures f.Some? ==> Strip(f.value.0) == f.value.0 && Strip(f.value.1) == f.value.1
  {
    if ':' !in line then None
    else
      var parts := SplitN(line, ':', 1);
      assert |parts| == 2;
      var key := Strip(parts[0]);
      var value := Strip(parts[1]);
      if key != [] && value != [] then
        StripTrimmed(key);
        StripTrimmed(value);
        Some((key, value))
      else None
  }

  /** The field of every line, in line order. */
  function Fields(lines: seq<string>): (fs: seq<Option<(string, string)>>)
    ensures |fs| == |lines| && forall i :: 0 <= i < |lines| ==> fs[i] == LineField(lines[i])
  {
    seq(|lines|, i requires 0 <= i < |lines| => LineField(lines[i]))
  }

  /** The fields read in order, a later field for the same key overwriting
      the value but not the position of the earlier one (`result[key] = value`). */
  function Collect(fs: seq<Option<(string, string)>>): (d: Dict<string>)
    ensures Wf(d)
  {
    if |fs| == 0 then []
    else
      var d := Collect(fs[..|fs| - 1]);
      match fs[|fs| - 1]
      case None => d
      case Some(f) =>
        PutWf(d, f.0, f.1);
        Put(d, f.0, f.1)
  }

  /** `parse_object`: the stripped message split at line breaks, collected;
      `None` when no line defines a field. */
  function ParseObject(text: string): (r: Option<Dict<string>>)
    ensures r.Some? ==> Wf(r.value) && |r.value| > 0
  {
    var d := Collect(Fields(Split(Strip(text), '\n')));
    if |d| == 0 then None else Some(d)
  }

  predicate Defines(f: Option<(string, string)>, key: string) {
    f.Some? && f.value.0 == key
  }

  /** One more field: it sets its key and leaves every other key alone. */
  lemma CollectStep(fs: seq<Option<(string, string)>>, key: string)
    requires |fs| > 0
    ensures Get(Collect(fs), key) ==
      if Defines(fs[|fs| - 1], key) then Some(fs[|fs| - 1].value.1) else Get(Collect(fs[..|fs| - 1]), key)
  {
  }

  /** A key has a value exactly when some field defines it. */
  lemma {:induction false} CollectHas(fs: seq<Option<(string, string)>>, key: string)
    ensures Get(Collect(fs), key).Some? <==> exists i :: 0 <= i < |fs| && Defines(fs[i], key)
    decreases |fs|
  {
    if |fs| > 0 {
      var init := fs[..|fs| - 1];
      CollectHas(init, key);
      CollectStep(fs, key);
      if Defines(fs[|fs| - 1], key) {
        assert Get(Collect(fs), key).Some?;
      } else if Get(Collect(init), key).Some? {
        var i :| 0 <= i < |init| && Defines(init[i], key);
        assert fs[i] == init[i];
      } else {
        assert Get(Collect(fs), key).None?;
        forall i | 0 <= i < |fs| ensures !Defines(fs[i], key) {
          if i < |init| {
            assert fs[i] == init[i];
          }
        }
      }
    }
  }

  /** The value of a key comes from the last field that defines it. */
  lemma {:induction false} CollectLast(fs: seq<Option<(string, string)>>, key: string)
    requires Get(Collect(fs), key).Some?
    ensures exists i :: (0 <= i < |fs| && fs[i] == Some((key, Get(Collect(fs), key).value))
                         && forall j :: i < j < |fs| ==> !Defines(fs[j], key))
    decreases |fs|
  {
    var init := fs[..|fs| - 1];
    var last := fs[|fs| - 1];
    var d := Collect(fs);
    CollectStep(fs, key);
    if Defines(last, key) {
      assert fs[|fs| - 1] == Some((key, Get(d, key).value));
    } else {
      CollectLast(init, key);
      var i :| 0 <= i < |init| && init[i] == Some((key, Get(Collect(init), key).value))
        && forall j :: i < j < |init| ==> !Defines(init[j], key);
      assert fs[i] == init[i];
      NoLaterDefiner(fs, init, i, key);
    }
  }

  /** A field no later field of the prefix redefines is not redefined by a
      last field for another key either. */
  lemma NoLaterDefiner(fs: seq<Option<(string, string)>>, init: seq<Option<(string, string)>>, i: nat, key: string)
    requires |fs| > 0 && init == fs[..|fs| - 1] && i < |init| && !Defines(fs[|fs| - 1], key)
    requires forall j :: i < j < |init| ==> !Defines(init[j], key)
    ensures forall j :: i < j < |fs| ==> !Defines(fs[j], key)
  {
    forall j | i < j < |fs| ensures !Defines(fs[j], key) {
      if j < |init| {
        assert fs[j] == init[j];
      }
    }
  }

  /** No key at all exactly when no field is defined. */
  lemma CollectEmpty(fs: seq<Option<(string, string)>>)
    ensures |Collect(fs)| == 0 <==> forall i :: 0 <= i < |fs| ==> fs[i].None?
  {
    var d := Collect(fs);
    if |d| == 0 {
      forall i | 0 <= i < |fs| ensures fs[i].None? {
        if fs[i].Some? {
          CollectHas(fs, fs[i].value.0);
          assert Defines(fs[i], fs[i].value.0);
        }
      }
    } else {
      GetAt(d, 0);
      CollectHas(fs, d[0].0);
    }
  }

  /** Every key of a parsed message is non-empty, free of ':' and of line
      breaks, and has no surrounding whitespace; so does every value. */
  lemma CollectShapes(lines: seq<string>)
    requires forall i :: 0 <= i < |lines| ==> '\n' !in lines[i]
    ensures var d := Collect(Fields(lines));
      forall i :: 0 <= i < |d| ==>
        && d[i].0 != [] && ':' !in d[i].0 && '\n' !in d[i].0 && Strip(d[i].0) == d[i].0
        && d[i].1 != [] && '\n' !in d[i].1 && Strip(d[i].1) == d[i].1
  {
    var fs := Fields(lines);
    var d := Collect(fs);
    forall i | 0 <= i < |d|
      ensures d[i].0 != [] && ':' !in d[i].0 && '\n' !in d[i].0 && Strip(d[i].0) == d[i].0
      ensures d[i].1 != [] && '\n' !in d[i].1 && Strip(d[i].1) == d[i].1
    {
      var k := d[i].0;
      GetAt(d, i);
      CollectLast(fs, k);
      var j :| 0 <= j < |fs| && fs[j] == Some((k, d[i].1));
      LineCharsFromLine(lines[j]);
    }
  }

  /** The key and value of a line are made of the line's characters. */
  lemma LineCharsFromLine(line: string)
    requires LineField(line).Some?
    ensures forall c :: c in LineField(line).value.0 ==> c in line
    ensures forall c :: c in LineField(line).value.1 ==> c in line
  {
    var parts := SplitN(line, ':', 1);
    assert line == parts[0] + [':'] + parts[1];
    assert LineField(line).value == (Strip(parts[0]), Strip(parts[1]));
  }

  /** No line defines a field. */
  predicate NoField(lines: seq<string>) {
    forall i :: 0 <= i < |lines| ==> LineField(lines[i]).None?
  }

  /** Parsing fails exactly when no line of the stripped message defines a field. */
  lemma ParseObjectNone(text: string)
    ensures ParseObject(text).None? <==> NoField(Split(Strip(text), '\n'))
  {
    var lines := Split(Strip(text), '\n');
    var fs := Fields(lines);
    CollectEmpty(fs);
    assert ParseObject(text).None? <==> |Collect(fs)| == 0;
    assert (forall i :: 0 <= i < |fs| ==> fs[i].None?) <==> NoField(lines);
  }

  /** A part free of surrounding whitespace and of line breaks. */
  predicate Trimmed(s: string) {
    |s| > 0 && !IsSpace(s[0]) && !IsSpace(s[|s| - 1]) && '\n' !in s
  }

  /** The message a user types for a dict: one `key: value` line per entry. */
  function Line(e: (string, string)): string {
    e.0 + ": " + e.1
  }

  /** One line per entry, in order. */
  function Lines(d: Dict<string>): (ls: seq<string>)
    ensures |ls| == |d| && forall i :: 0 <= i < |d| ==> ls[i] == Line(d[i])
  {
    seq(|d|, i requires 0 <= i < |d| => Line(d[i]))
  }

  function Render(d: Dict<string>): string {
    Join(Lines(d), '\n')
  }

  /** Dicts the message format can carry: distinct keys without ':', keys
      and values without surrounding whitespace or line breaks. */
  predicate Renderable(d: Dict<string>) {
    Wf(d) && forall i :: 0 <= i < |d| ==> Trimmed(d[i].0) && ':' !in d[i].0 && Trimmed(d[i].1)
  }

  /** A `key: value` line defines that field; the value may hold further ':'. */
  lemma LineFieldOfLine(e: (string, string))
    requires Trimmed(e.0) && ':' !in e.0 && Trimmed(e.1)
    ensures LineField(Line(e)) == Some(e)
  {
    assert Line(e) == e.0 + [':'] + (" " + e.1);
    SplitNAfterPrefix(e.0, ':', " " + e.1, 0);
    assert Line(e)[|e.0|] == ':';
    StripTrimmed(e.0);
    StripAfterBlank(e.1);
  }

  lemma {:induction false} CollectEntries(fs: seq<Option<(string, string)>>, d: Dict<string>)
    requires Wf(d) && |fs| == |d|
    requires forall i :: 0 <= i < |fs| ==> fs[i] == Some(d[i])
    ensures Collect(fs) == d
    decreases |fs|
  {
    if |fs| > 0 {
      var n := |fs|;
      var init := fs[..n - 1];
      var d' := d[..n - 1];
      assert forall i :: 0 <= i < |init| ==> init[i] == Some(d'[i]);
      PrefixWf(d, n - 1);
      CollectEntries(init, d');
      CollectSnoc(fs, d[n - 1]);
      LaterKeyFresh(d, n);
      PutNew(d', d[n - 1].0, d[n - 1].1);
      Seqs.Snoc(d);
    }
  }

  lemma CollectSnoc(fs: seq<Option<(string, string)>>, f: (string, string))
    requires |fs| > 0 && fs[|fs| - 1] == Some(f)
    ensures Collect(fs) == Put(Collect(fs[..|fs| - 1]), f.0, f.1)
  {
  }

  /** In a well-formed dictionary no entry's key occurs before it. */
  lemma LaterKeyFresh(d: Dict<string>, n: nat)
    requires Wf(d) && 0 < n <= |d|
    ensures d[n - 1].0 !in Keys(d[..n - 1])
  {
    assert Keys(d[..n - 1]) == Keys(d)[..n - 1];
  }

  /** A prefix of a well-formed dictionary is well formed. */
  lemma PrefixWf(d: Dict<string>, n: nat)
    requires Wf(d) && n <= |d|
    ensures Wf(d[..n])
  {
    assert Keys(d[..n]) == Keys(d)[..n];
  }

  /** The rendered message has no surrounding whitespace and its lines are
      the entries' lines. */
  lemma RenderLines(d: Dict<string>)
    requires Renderable(d) && |d| > 0
    ensures Strip(Render(d)) == Render(d)
    ensures Split(Render(d), '\n') == Lines(d)
  {
    var lines := Lines(d);
    JoinFirst(lines, '\n');
    JoinLast(lines, '\n');
    StripTrimmed(Render(d));
    forall i | 0 <= i < |lines| ensures '\n' !in lines[i] {
      assert lines[i] == d[i].0 + ": " + d[i].1;
    }
    SplitJoin(lines, '\n');
  }

  /** Writing a non-empty dict in the message format and parsing it gives the
      dict back, entries in the same order. */
  lemma {:induction false} ParseRender(d: Dict<string>)
    requires Renderable(d) && |d| > 0
    ensures ParseObject(Render(d)) == Some(d)
  {
    RenderLines(d);
    FieldsOfLines(d);
    CollectEntries(EntryFields(d), d);
  }

  /** Each entry as the field its line defines. */
  function EntryFields(d: Dict<string>): (fs: seq<Option<(string, string)>>)
    ensures |fs| == |d| && forall i :: 0 <= i < |d| ==> fs[i] == Some(d[i])
  {
    seq(|d|, i requires 0 <= i < |d| => Some(d[i]))
  }

  /** Every rendered line reads back as its own entry. */
  lemma FieldsOfLines(d: Dict<string>)
    requires Renderable(d)
    ensures Fields(Lines(d)) == EntryFields(d)
  {
    forall i | 0 <= i < |d| ensures Fields(Lines(d))[i] == EntryFields(d)[i] {
      LineFieldOfLine(d[i]);
    }
  }
}

=== FILE: results.dfy ===
/** Optional values and results with an error message: the model's stand-in for
    Python's `None` returns and raised exceptions. */
module Results {

  datatype Option<T> = None | Some(value: T) {
    function GetOr(default: T): T {
      match this
      case Some(v) => v
      case None => default
    }
  }

  /** `Err(msg)` stands for an exception carrying `msg`. */
  datatype Result<T> = Ok(value: T) | Err(msg: string) {
    predicate IsFailure() {
      Err?
    }

    function PropagateFailure<U>(): Result<U>
      requires Err?
    {
      Err(msg)
    }

    function Extract(): T
      requires Ok?
    {
      value
    }
  }

  function Max(a: int, b: int): int {
    if a < b then b else a
  }
}

=== FILE: schema.dfy ===
/** List manipulations shared by every component that evolves a header row:
    the diff of submitted keys against a header, the append-only header merge
    and Python's `list.remove`. */
module Schema {
  import opened Dicts

  /** `a` is obtained from `b` by deleting elements (order kept). */
  predicate IsSubsequence<T(==)>(a: seq<T>, b: seq<T>)
    decreases |b|
  {
    |a| == 0 || (|b| > 0 && ((a[0] == b[0] && IsSubsequence(a[1..], b[1..])) || IsSubsequence(a, b[1..])))
  }

  /** `[k for k in keys if k not in current]`: exact, case-sensitive membership. */
  function NewColumns(keys: seq<string>, current: seq<string>): (r: seq<string>)
    ensures forall x :: x in r <==> x in keys && x !in current
    ensures IsSubsequence(r, keys)
    ensures Distinct(keys) ==> Distinct(r)
  {
    if |keys| == 0 then []
    else
      var rest := NewColumns(keys[1..], current);
      assert forall x :: x in keys <==> x == keys[0] || x in keys[1..];
      if keys[0] !in current then
        var r := [keys[0]] + rest;
        assert r[1..] == rest;
        r
      else
        rest
  }

  /** `xs.index(x)`, or `|xs|` when `x` is absent. */
  function FirstIndex(xs: seq<string>, x: string): (i: nat)
    ensures i <= |xs|
    ensures i < |xs| ==> xs[i] == x
    ensures forall k :: 0 <= k < i ==> xs[k] != x
    ensures i == |xs| <==> x !in xs
  {
    if |xs| == 0 then 0 else if xs[0] == x then 0 else 1 + FirstIndex(xs[1..], x)
  }

  /** The header merge loop: `for c in cols: if c not in h: h.append(c)`. */
  function Merge(h: seq<string>, cols: seq<string>): (r: seq<string>)
    ensures h <= r
    ensures forall c :: c in cols ==> c in r
    ensures forall c :: c in r ==> c in h || c in cols
    ensures forall k :: |h| <= k < |r| ==> r[k] !in h
    ensures forall i, j :: |h| <= i < j < |r| ==> r[i] != r[j]
    ensures IsSubsequence(r[|h|..], cols)
    ensures forall i, j :: |h| <= i < j < |r| ==> FirstIndex(cols, r[i]) < FirstIndex(cols, r[j])
    decreases |cols|
  {
    if |cols| == 0 then h
    else if cols[0] in h then
      var r := Merge(h, cols[1..]);
      SubsequenceOfTail(r[|h|..], cols);
      r
    else
      var h' := h + [cols[0]];
      var r := Merge(h', cols[1..]);
      assert r[|h|] == cols[0];
      assert r[|h|..][1..] == r[|h'|..];
      r
  }

  /** Names the header already holds add nothing. */
  lemma {:induction false} MergeAbsorbed(h: seq<string>, cols: seq<string>)
    requires forall c :: c in cols ==> c in h
    ensures Merge(h, cols) == h
    decreases |cols|
  {
    if |cols| > 0 {
      MergeAbsorbed(h, cols[1..]);
    }
  }

  /** Merging the same names twice is merging them once. */
  lemma MergeIdempotent(h: seq<string>, cols: seq<string>)
    ensures Merge(Merge(h, cols), cols) == Merge(h, cols)
  {
    MergeAbsorbed(Merge(h, cols), cols);
  }

  lemma SubsequenceOfTail<T>(a: seq<T>, b: seq<T>)
    requires |b| > 0 && IsSubsequence(a, b[1..])
    ensures IsSubsequence(a, b)
  {
  }

  /** `xs.remove(x)`: drops the first occurrence (Python raises when there is none). */
  function RemoveFirst(xs: seq<string>, x: string): (r: seq<string>)
    requires x in xs
    ensures |r| == |xs| - 1
    ensures multiset(r) == multiset(xs) - multiset{x}
    ensures xs[0] == x ==> r == xs[1..]
  {
    assert xs == [xs[0]] + xs[1..];
    if xs[0] == x then xs[1..]
    else
      var r := [xs[0]] + RemoveFirst(xs[1..], x);
      assert xs == [xs[0]] + xs[1..];
      r
  }

  /** The row both gateways append: `data.get(column, '')` for every header column. */
  function RowFor(columns: seq<string>, data: Dict<string>): (row: seq<string>)
    ensures |row| == |columns|
  {
    seq(|columns|, i requires 0 <= i < |columns| => GetOr(data, columns[i], ""))
  }

  /** The element removed is the first occurrence; the others keep their order. */
  lemma {:induction false} RemoveFirstDropsFirst(xs: seq<string>, x: string, i: nat)
    requires i < |xs| && xs[i] == x && x !in xs[..i]
    ensures RemoveFirst(xs, x) == xs[..i] + xs[i + 1..]
    decreases i
  {
    if i > 0 {
      AfterHead(xs, x, i);
      RemoveFirstDropsFirst(xs[1..], x, i - 1);
    }
  }

  /** Slicing facts for stepping past the head of `xs`. */
  lemma AfterHead(xs: seq<string>, x: string, i: nat)
    requires 0 < i < |xs| && x !in xs[..i]
    ensures xs[0] != x && x !in xs[1..][..i - 1]
    ensures xs[..i] == [xs[0]] + xs[1..][..i - 1] && xs[i + 1..] == xs[1..][i..]
  {
    assert xs[..i] == [xs[0]] + xs[1..][..i - 1];
  }

  /** What Python raises for `list.remove` of a missing element. */
  const NotInList := "list.remove(x): x not in list"

  /** The pending columns are distinct, among `keys`, and not `known`. */
  predicate Unsettled(pending: seq<string>, keys: seq<string>, known: seq<string>)
    decreases |pending|
  {
    || |pending| == 0
    || (&& pending[0] in keys && pending[0] !in known && pending[0] !in pending[1..]
        && Unsettled(pending[1..], keys, known))
  }

  /** More keys, and known columns that gained only `x`, keep columns other
      than `x` unsettled. */
  lemma {:induction false} UnsettledWiden(pending: seq<string>, keys: seq<string>, keys': seq<string>,
                                          known: seq<string>, known': seq<string>, x: string)
    requires Unsettled(pending, keys, known) && x !in pending
    requires forall c :: c in keys ==> c in keys'
    requires forall c :: c in known' ==> c in known || c == x
    ensures Unsettled(pending, keys', known')
    decreases |pending|
  {
    if |pending| > 0 {
      assert pending == [pending[0]] + pending[1..];
      UnsettledWiden(pending[1..], keys, keys', known, known', x);
    }
  }

  /** The new columns of distinct keys are unsettled. */
  lemma {:induction false} NewColumnsUnsettled(keys: seq<string>, known: seq<string>)
    requires Distinct(keys)
    ensures Unsettled(NewColumns(keys, known), keys, known)
    decreases |keys|
  {
    if |keys| > 0 {
      var rest := NewColumns(keys[1..], known);
      assert Distinct(keys[1..]);
      NewColumnsUnsettled(keys[1..], known);
      assert keys[0] !in keys[1..];
      assert keys[0] !in rest;
      UnsettledWiden(rest, keys[1..], keys, known, known, keys[0]);
      if keys[0] !in known {
        assert ([keys[0]] + rest)[1..] == rest;
      }
    }
  }

  /** Each unsettled column is a key, is not known, and occurs once. */
  lemma {:induction false} UnsettledAt(pending: seq<string>, keys: seq<string>, known: seq<string>, i: nat)
    requires Unsettled(pending, keys, known) && i < |pending|
    ensures pending[i] in keys && pending[i] !in known
    ensures forall j :: 0 <= j < |pending| && j != i ==> pending[j] != pending[i]
    decreases |pending|
  {
    if i == 0 {
      assert forall j :: 0 < j < |pending| ==> pending[j] == pending[1..][j - 1];
    } else {
      UnsettledAt(pending[1..], keys, known, i - 1);
      assert pending[i] == pending[1..][i - 1];
      assert pending[i] in pending[1..];
      forall j | 0 < j < |pending| && j != i ensures pending[j] != pending[i] {
        assert pending[j] == pending[1..][j - 1];
      }
    }
  }
}

=== FILE: seqs.dfy ===
/** Sequence identities the other modules rely on, each proved where nothing
    else is in scope. */
module Seqs {
  lemma Snoc<T>(s: seq<T>)
    requires |s| > 0
    ensures s[..|s| - 1] + [s[|s| - 1]] == s
  {
  }

  lemma TakeSnoc<T>(s: seq<T>, n: nat)
    requires 0 < n <= |s|
    ensures s[..n] == s[..n - 1] + [s[n - 1]]
  {
  }

  lemma HeadTail<T>(s: seq<T>)
    requires |s| > 0
    ensures [s[0]] + s[1..] == s && s[..1] + s[1..] == s
  {
  }

  lemma Assoc<T>(a: seq<T>, b: seq<T>, c: seq<T>)
    ensures a + b + c == a + (b + c)
  {
  }

  lemma DropTake<T>(s: seq<T>, i: nat, j: nat)
    requires i + j <= |s|
    ensures s[i..][..j] == s[i..i + j]
  {
  }
}

=== FILE: service.dfy ===
/** `SheetsService` of src/services/sheets_service.py: a gateway without a
    column cache that reads the header row on every call. The spreadsheet id
    is a string; the empty string `''` stands for "no spreadsheet yet".
    `create_sheet` and `get_all_sheets` test it for falsiness; the other calls
    send it, and the request for an empty id fails like any other. */
module Service {
  import opened Results
  import opened Text
  import opened Dicts
  import opened Schema
  import opened Sheets
  import Seqs

  datatype Service = Service(spreadsheetId: string, book: Spreadsheet)

  /** The error body the store answers a failed request with. */
  datatype HttpError = HttpError(code: int, message: string)

  ghost predicate Valid(s: Service) {
    Sheets.Valid(s.book)
  }

  /** A request the store can serve: there is a spreadsheet and it has the tab. */
  predicate Reachable(s: Service, name: string) {
    s.spreadsheetId != "" && name in s.book.tabs
  }

  /** The store's answer to a request that names no spreadsheet or no such tab. */
  function Unreachable(s: Service, name: string): HttpError {
    if s.spreadsheetId == "" then HttpError(404, "Requested entity was not found.")
    else HttpError(400, "Unable to parse range: " + name)
  }

  /** The store's answer to `addSheet` with a title that is taken. */
  function TitleTaken(title: string): HttpError {
    HttpError(400, "A sheet with the name \"" + title + "\" " + "already exists" + ". Please enter another name.")
  }

  /** How `create_sheet` reports a failed request: a 400 whose message says
      "already exists" becomes the duplicate-title error, anything else the
      generic one carrying the store's message. */
  function CreateError(title: string, e: HttpError): (msg: string)
    ensures e.code == 400 && Contains(e.message, "already exists") ==> msg == "Sheet '" + title + "' already exists"
    ensures !(e.code == 400 && Contains(e.message, "already exists")) ==> msg == "Failed to create sheet: " + e.message
  {
    if e.code == 400 && Contains(e.message, "already exists") then "Sheet '" + title + "' already exists"
    else "Failed to create sheet: " + e.message
  }

  /** The store's duplicate-title answer is reported as the duplicate error. */
  lemma TitleTakenReportedAsDuplicate(title: string)
    ensures CreateError(title, TitleTaken(title)) == "Sheet '" + title + "' already exists"
  {
    var prefix := "A sheet with the name \"" + title + "\" ";
    var suffix := ". Please enter another name.";
    assert TitleTaken(title).message == prefix + "already exists" + suffix;
    ContainsInMiddle(prefix, "already exists", suffix);
  }

  /** `create_sheet`: without a spreadsheet a new one is created holding just
      this tab and its id (`newId`, chosen by the store) is kept; otherwise
      the tab is added, and a taken title is an error. */
  function CreateSheet(s: Service, title: string, newId: string): (r: Result<(Service, string)>)
    requires Valid(s)
    ensures s.spreadsheetId == "" ==> r == Ok((Service(newId, Spreadsheet([title], map[title := []])), title))
    ensures s.spreadsheetId != "" ==> (r.Err? <==> title in s.book.tabs)
    ensures s.spreadsheetId != "" && r.Err? ==> r.msg == "Sheet '" + title + "' already exists"
    ensures r.Ok? ==> Valid(r.value.0) && r.value.1 == title
    ensures s.spreadsheetId != "" && r.Ok? ==>
      && r.value.0.spreadsheetId == s.spreadsheetId
      && r.value.0.book.titles == s.book.titles + [title]
      && r.value.0.book.tabs == s.book.tabs[title := []]
  {
    if s.spreadsheetId == "" then
      Ok((Service(newId, Spreadsheet([title], map[title := []])), title))
    else if title in s.book.tabs then
      TitleTakenReportedAsDuplicate(title);
      Err(CreateError(title, TitleTaken(title)))
    else
      Ok((s.(book := AddSheet(s.book, title)), title))
  }

  /** `get_all_sheets`: the tab titles, or none without a spreadsheet. */
  function GetAllSheets(s: Service): (r: seq<string>)
    requires Valid(s)
    ensures s.spreadsheetId == "" ==> r == []
    ensures s.spreadsheetId != "" ==> Distinct(r) && forall n :: n in r <==> n in s.book.tabs
  {
    if s.spreadsheetId == "" then [] else s.book.titles
  }

  /** `get_columns`: row 1 of the tab; a failed request or an empty tab gives
      no columns. */
  function GetColumns(s: Service, name: string): (r: Row)
    ensures !Reachable(s, name) ==> r == []
    ensures Reachable(s, name) ==> r == HeaderOf(s.book.tabs[name])
  {
    if !Reachable(s, name) then [] else HeaderOf(s.book.tabs[name])
  }

  /** The header `add_columns` writes: the columns verbatim over an empty
      header, otherwise the header followed by the requested names it lacks. */
  function NewHeader(current: Row, cols: seq<string>): Row {
    if |current| == 0 then cols else Merge(current, cols)
  }

  /** `add_columns`: writes the new header from A1, even when nothing was
      added; a failed request becomes "Failed to add columns: ...". */
  function AddColumns(s: Service, name: string, cols: seq<string>): (r: Result<Service>)
    requires Valid(s)
    ensures r.Err? <==> !Reachable(s, name)
    ensures r.Err? ==> r.msg == "Failed to add columns: " + Unreachable(s, name).message
    ensures r.Ok? ==> Valid(r.value) && r.value.spreadsheetId == s.spreadsheetId && r.value.book.titles == s.book.titles
    ensures r.Ok? ==> r.value.book.tabs == s.book.tabs[name := PutRow(s.book.tabs[name], 0, Present(NewHeader(GetColumns(s, name), cols)))]
  {
    if !Reachable(s, name) then Err("Failed to add columns: " + Unreachable(s, name).message)
    else
      var header := NewHeader(GetColumns(s, name), cols);
      Ok(s.(book := WriteRow(s.book, name, 0, Present(header))))
  }

  /** After `add_columns` every requested name is in the header, a non-empty
      header keeps its cells in place and gains exactly the names it lacked,
      and the data rows and other tabs are unchanged. */
  lemma AddColumnsHeader(s: Service, name: string, cols: seq<string>)
    requires Valid(s) && Reachable(s, name)
    ensures var s' := AddColumns(s, name, cols).value;
      var h := GetColumns(s, name);
      var h' := GetColumns(s', name);
      && (forall c :: c in cols ==> c in h')
      && (|h| > 0 ==> h' == Merge(h, cols))
      && (|h| == 0 ==> h' == cols)
      && (forall j :: 1 <= j < |s.book.tabs[name]| ==> s'.book.tabs[name][j] == s.book.tabs[name][j])
      && (forall n :: n in s.book.tabs && n != name ==> s'.book.tabs[n] == s.book.tabs[n])
  {
    var h := GetColumns(s, name);
    OverlayPresent(h, NewHeader(h, cols));
  }

  /** Adding the same names a second time leaves the header as it was. */
  lemma AddColumnsIdempotent(s: Service, name: string, cols: seq<string>)
    requires Valid(s) && Reachable(s, name)
    ensures var s1 := AddColumns(s, name, cols).value;
      GetColumns(AddColumns(s1, name, cols).value, name) == GetColumns(s1, name)
  {
    var s1 := AddColumns(s, name, cols).value;
    AddColumnsHeader(s, name, cols);
    AddColumnsHeader(s1, name, cols);
    var h1 := GetColumns(s1, name);
    if |h1| > 0 {
      MergeAbsorbed(h1, cols);
    } else {
      assert cols == [];
    }
  }

  /** Over an empty header the names are written as given, repeats included. */
  lemma AddColumnsKeepsRepeatsOnEmptyHeader()
    ensures var s := Service("id", Spreadsheet(["T"], map["T" := []]));
      && Valid(s)
      && GetColumns(AddColumns(s, "T", ["a", "a"]).value, "T") == ["a", "a"]
  {
    var s := Service("id", Spreadsheet(["T"], map["T" := []]));
    AddColumnsHeader(s, "T", ["a", "a"]);
  }

  /** `append_row`: a tab without header columns (or one that cannot be read)
      refuses the row with "Sheet has no columns"; otherwise one row with a
      cell per header column goes after the last row. */
  function AppendRow(s: Service, name: string, data: Dict<string>): (r: Result<Service>)
    requires Valid(s)
    ensures r.Err? <==> GetColumns(s, name) == []
    ensures r.Err? ==> r.msg == "Sheet has no columns"
    ensures r.Ok? ==> Valid(r.value) && r.value.spreadsheetId == s.spreadsheetId && r.value.book.titles == s.book.titles
    ensures r.Ok? ==>
      var columns := GetColumns(s, name);
      var rows := s.book.tabs[name];
      && name in r.value.book.tabs
      && var rows' := r.value.book.tabs[name];
      && |rows'| == |rows| + 1 && rows'[..|rows|] == rows
      && |rows'[|rows'| - 1]| == |columns|
      && (forall i :: 0 <= i < |columns| ==> rows'[|rows'| - 1][i] == GetOr(data, columns[i], ""))
      && (forall n :: n in s.book.tabs && n != name ==> r.value.book.tabs[n] == s.book.tabs[n])
  {
    var columns := GetColumns(s, name);
    if columns == [] then Err("Sheet has no columns")
    else
      var s' := s.(book := Sheets.AppendRow(s.book, name, RowFor(columns, data)));
      assert s'.book.tabs[name][..|s.book.tabs[name]|] == s.book.tabs[name];
      Ok(s')
  }

  /** Appending a row leaves the header row as it was. */
  lemma AppendRowKeepsHeader(s: Service, name: string, data: Dict<string>)
    requires Valid(s) && GetColumns(s, name) != []
    ensures GetColumns(AppendRow(s, name, data).value, name) == GetColumns(s, name)
  {
    var rows' := AppendRow(s, name, data).value.book.tabs[name];
    assert rows'[0] == s.book.tabs[name][0];
  }

  /** One row of `get_rows`: each cell under a header column is stored under
      that column's name; cells past the header are dropped. */
  function RowDictUpTo(columns: seq<string>, row: Row, n: nat): (d: Dict<string>)
    requires n <= |row| && n <= |columns|
    ensures Wf(d)
    ensures forall k :: k in Keys(d) <==> k in columns[..n]
    ensures Distinct(columns) ==> forall i :: 0 <= i < n ==> Get(d, columns[i]) == Some(row[i])
    ensures Distinct(columns) ==> |d| == n
  {
    if n == 0 then []
    else
      var d := RowDictUpTo(columns, row, n - 1);
      Seqs.TakeSnoc(columns, n);
      PutKeys(d, columns[n - 1], row[n - 1]);
      PutWf(d, columns[n - 1], row[n - 1]);
      if Distinct(columns) then
        assert forall i :: 0 <= i < n - 1 ==> columns[i] != columns[n - 1];
        PutKeepsEarlier(d, columns, row, n);
        Put(d, columns[n - 1], row[n - 1])
      else
        Put(d, columns[n - 1], row[n - 1])
  }

  function Min(a: int, b: int): int {
    if a <= b then a else b
  }

  function RowDict(columns: seq<string>, row: Row): (d: Dict<string>)
    ensures Wf(d)
    ensures forall k :: k in Keys(d) <==> k in columns[..Min(|row|, |columns|)]
    ensures Distinct(columns) ==> forall i :: 0 <= i < Min(|row|, |columns|) ==> Get(d, columns[i]) == Some(row[i])
    ensures Distinct(columns) ==> |d| == Min(|row|, |columns|)
  {
    RowDictUpTo(columns, row, Min(|row|, |columns|))
  }

  /** `get_rows`: the rows from row `startRow` (counted from 1) on, each as a
      column map; a failed request, an invalid start row or no rows give none. */
  function GetRows(s: Service, name: string, startRow: int): (r: seq<Dict<string>>)
    ensures !Reachable(s, name) || startRow < 1 || startRow > |s.book.tabs[name]| ==> r == []
    ensures Reachable(s, name) && 1 <= startRow <= |s.book.tabs[name]| ==>
      var rows := s.book.tabs[name];
      && |r| == |rows| - (startRow - 1)
      && forall i :: 0 <= i < |r| ==> r[i] == RowDict(GetColumns(s, name), rows[startRow - 1 + i])
  {
    if !Reachable(s, name) || startRow < 1 then []
    else
      var rows := s.book.tabs[name];
      if startRow > |rows| then []
      else
        var columns := GetColumns(s, name);
        seq(|rows| - (startRow - 1), i requires 0 <= i < |rows| - (startRow - 1) => RowDict(columns, rows[startRow - 1 + i]))
  }

  /** Reading back an appended row: with distinct header names, the last
      entry of `get_rows` holds every data key that names a header column,
      with the appended value. */
  lemma AppendThenGetRows(s: Service, name: string, data: Dict<string>)
    requires Valid(s) && GetColumns(s, name) != [] && Distinct(GetColumns(s, name))
    ensures var rows := GetRows(AppendRow(s, name, data).value, name, 2);
      && |rows| > 0
      && forall k :: k in Keys(data) && k in GetColumns(s, name) ==> Get(rows[|rows| - 1], k) == Get(data, k)
  {
    var columns := GetColumns(s, name);
    var s' := AppendRow(s, name, data).value;
    var rows' := s'.book.tabs[name];
    assert |s.book.tabs[name]| >= 1;
    assert GetColumns(s', name) == columns by {
      assert rows'[0] == s.book.tabs[name][0];
    }
    var last := rows'[|rows'| - 1];
    var d := GetRows(s', name, 2)[|rows'| - 2];
    assert d == RowDict(columns, last);
    forall k | k in Keys(data) && k in columns ensures Get(d, k) == Get(data, k) {
      var i :| 0 <= i < |columns| && columns[i] == k;
      assert Get(d, k) == Some(last[i]);
    }
  }
}

=== FILE: sheet_states.dfy ===
/** The two states of src/states/sheet_states.py over `SheetsService`:
    `SelectSheetState` (create or pick a sheet) and `InputDataState` (records
    and the new-column negotiation, kept in `state_data`). Every handler gives
    the new state object, `user_data` and store, the gateway calls made (a
    failing one included) and the replies sent; an exception that escapes a
    handler ends it with a `Crashed` reply, keeping what was changed before. */
module SheetStates {
  import opened Results
  import opened Text
  import opened Dicts
  import opened Schema
  import opened Parser
  import opened Keyboards
  import opened Calls
  import opened BaseState
  import Service
  import Sheets
  import Seqs

  /** The replies; the message texts themselves are not modelled. */
  datatype Notice =
    | AskSheetName
    | SheetSelected(name: string)
    | Failure(message: string)
    | AskColumn(column: string, keyboard: Keyboard)
    | DataAdded
    | Crashed(error: string)

  const NoSheetSelected := "No sheet selected. Please use /start to select a sheet."
  const InvalidFormat := "Invalid format. Please send data in the format:\nfield1: value1\nfield2: value2"

  /** The state object handling the update, the user's data and the store. */
  datatype Ctx = Ctx(state: State, user: UserData, store: Service.Service)

  datatype Step = Step(ctx: Ctx, calls: seq<Call>, notices: seq<Notice>)

  function Prefix(calls: seq<Call>, s: Step): Step {
    s.(calls := calls + s.calls)
  }

  /** The store stays consistent and keeps its spreadsheet and tabs. */
  ghost predicate SameTabs(c: Ctx, c': Ctx) {
    && Service.Valid(c'.store)
    && c'.store.spreadsheetId == c.store.spreadsheetId
    && c'.store.book.tabs.Keys == c.store.book.tabs.Keys
  }

  // ---------------------------------------------------------------------
  // SelectSheetState.

  /** `SelectSheetState.handle_message`: ignored unless a name is awaited;
      otherwise the stripped text becomes a new sheet (`newId` is the id the
      store gives a first spreadsheet), which is selected, and the state asks
      to move to a new `InputDataState`. A failure is reported as an error. */
  function SelectMessage(c: Ctx, text: string, newId: string): (s: Step)
    requires Service.Valid(c.store)
    ensures Service.Valid(s.ctx.store)
  {
    if !c.user.awaitingSheetName then Step(c, [], [])
    else
      var name := Strip(text);
      match Service.CreateSheet(c.store, name, newId)
      case Ok(r) =>
        var u := c.user.(currentSheet := Some(name), awaitingSheetName := false);
        Step(Ctx(c.state.(nextState := Some(InputData)), u, r.0), [CreateSheetCall(name)], [SheetSelected(name)])
      case Err(e) => Step(c, [CreateSheetCall(name)], [Failure(e)])
  }

  /** `SelectSheetState.handle_callback`: the new-sheet button sets the flag;
      a sheet choice selects the sheet and asks to move on; anything else is
      ignored. */
  function SelectCallback(c: Ctx, data: string): Step {
    if data == CreateSheetData then
      Step(c.(user := c.user.(awaitingSheetName := true)), [], [AskSheetName])
    else if StartsWith(data, "select_sheet:") then
      var name := DecodeSelectSheet(data).value;
      Step(Ctx(c.state.(nextState := Some(InputData)), c.user.(currentSheet := Some(name)), c.store), [], [SheetSelected(name)])
    else Step(c, [], [])
  }

  /** Without an awaited name a message changes nothing; with one, a free
      name on an existing spreadsheet becomes a new selected tab and the
      state hands over to `InputDataState`, while a taken name is reported
      and changes nothing. */
  lemma SelectMessageTransitions(c: Ctx, text: string, newId: string)
    requires Service.Valid(c.store)
    ensures !c.user.awaitingSheetName ==> SelectMessage(c, text, newId) == Step(c, [], [])
    ensures c.user.awaitingSheetName && c.store.spreadsheetId != "" ==>
      var name := Strip(text);
      var s := SelectMessage(c, text, newId);
      && s.calls == [CreateSheetCall(name)]
      && (name in c.store.book.tabs ==> s == Step(c, [CreateSheetCall(name)], [Failure("Sheet '" + name + "' already exists")]))
      && (name !in c.store.book.tabs ==>
           && s.notices == [SheetSelected(name)]
           && s.ctx.user == c.user.(currentSheet := Some(name), awaitingSheetName := false)
           && GetNextState(s.ctx.state) == Some(InputData)
           && name in s.ctx.store.book.tabs && s.ctx.store.book.tabs[name] == []
           && Service.GetAllSheets(s.ctx.store) == Service.GetAllSheets(c.store) + [name])
  {
  }

  /** The buttons of the sheets keyboard work as labelled: the new-sheet
      button starts waiting for a name, a sheet's button selects exactly that
      sheet and hands over to `InputDataState`. */
  lemma SelectCallbackOfButtons(c: Ctx, sheets: seq<string>, i: nat)
    requires i <= |sheets|
    ensures var k := BuildSheetsKeyboard(sheets);
      var s := SelectCallback(c, k[i][0].data);
      && s.calls == []
      && s.ctx.store == c.store
      && (i == |sheets| ==> s.ctx.user == c.user.(awaitingSheetName := true) && s.ctx.state == c.state)
      && (i < |sheets| ==>
           && s.ctx.user == c.user.(currentSheet := Some(sheets[i]))
           && GetNextState(s.ctx.state) == Some(InputData)
           && s.notices == [SheetSelected(sheets[i])])
  {
    if i < |sheets| {
      SelectButtonSelects(c, sheets[i]);
    }
  }

  lemma SelectButtonSelects(c: Ctx, name: string)
    ensures SelectCallback(c, SelectSheetData(name))
      == Step(Ctx(c.state.(nextState := Some(InputData)), c.user.(currentSheet := Some(name)), c.store), [], [SheetSelected(name)])
  {
    var data := SelectSheetData(name);
    SelectSheetRoundTrip(name);
    assert data[..13] == "select_sheet:";
    assert data[0] == 's';
  }

  // ---------------------------------------------------------------------
  // InputDataState.

  /** `state_data['pending_columns'].remove(column)` when the list is there. */
  function Unpend(d: StateData, column: string): (r: Result<StateData>)
    ensures r.Err? <==> d.pendingColumns.Some? && column !in d.pendingColumns.value
    ensures r.Err? ==> r.msg == NotInList
    ensures r.Ok? ==> r.value.pendingData == d.pendingData
    ensures r.Ok? && d.pendingColumns.Some? ==>
      && r.value.pendingColumns.Some?
      && multiset(r.value.pendingColumns.value) == multiset(d.pendingColumns.value) - multiset{column}
    ensures d.pendingColumns.None? ==> r == Ok(d)
  {
    match d.pendingColumns
    case None => Ok(d)
    case Some(p) => if column in p then Ok(d.(pendingColumns := Some(RemoveFirst(p, column)))) else Err(NotInList)
  }

  /** `if state_data.get('pending_data')`: present and non-empty. */
  predicate HasPendingData(d: StateData) {
    d.pendingData.Some? && |d.pendingData.value| > 0
  }

  /** `append_row(sheet, data)` and the success reply; after a negotiation
      `state_data` is cleared. */
  function Commit(c: Ctx, sheet: string, data: Dict<string>, clear: bool): (s: Step)
    requires Service.Valid(c.store)
    ensures SameTabs(c, s.ctx)
    ensures s.calls == [AppendRowCall(sheet, data)]
    ensures s.ctx.user.currentSheet == c.user.currentSheet
  {
    match Service.AppendRow(c.store, sheet, data)
    case Err(e) => Step(c, [AppendRowCall(sheet, data)], [Crashed(e)])
    case Ok(st) =>
      var u := if clear then ClearStateData(c.user) else c.user;
      Step(Ctx(c.state, u, st), [AppendRowCall(sheet, data)], [DataAdded])
  }

  /** `_handle_object_data`: the record's keys missing from the header are
      offered one at a time, the pending list and data being seeded only when
      `state_data` has no pending list; with none missing, or once the list
      is empty, the record is appended. */
  function ObjectData(c: Ctx, data: Dict<string>, sheet: string): (s: Step)
    requires Service.Valid(c.store)
    ensures SameTabs(c, s.ctx)
    ensures s.ctx.user.currentSheet == c.user.currentSheet
    ensures forall k :: 0 <= k < |s.calls| ==> s.calls[k] == AppendRowCall(sheet, data)
  {
    var added := NewColumns(Keys(data), Service.GetColumns(c.store, sheet));
    if |added| == 0 then Commit(c, sheet, data, false)
    else
      var (u1, d) := GetStateData(c.user);
      var d1 := if d.pendingColumns.None? then StateData(Some(added), Some(data)) else d;
      var c1 := c.(user := u1.(stateData := Some(d1)));
      var pending := d1.pendingColumns.value;
      if |pending| == 0 then Commit(c1, sheet, data, true)
      else Step(c1, [], [AskColumn(pending[0], BuildColumnConfirmationKeyboard(sheet, pending[0]))])
  }

  /** `InputDataState.handle_message`. */
  function InputMessage(c: Ctx, text: string): (s: Step)
    requires Service.Valid(c.store)
    ensures SameTabs(c, s.ctx)
  {
    if !Truthy(c.user.currentSheet) then Step(c, [], [Failure(NoSheetSelected)])
    else
      match ParseObject(text)
      case None => Step(c, [], [Failure(InvalidFormat)])
      case Some(d) => ObjectData(c, d, c.user.currentSheet.value)
  }

  /** How `InputDataState.handle_callback` reads callback data: a Yes
      (whose decoding can fail to unpack), a No, or anything else. */
  datatype Reading = YesFor(target: Result<string>) | NoFor(column: string) | Other

  function ReadAnswer(data: string): Reading {
    if StartsWith(data, "add_column:") then
      match DecodeAddColumn(data)
      case Err(e) => YesFor(Err(e))
      case Ok(t) => if t.None? then Other else YesFor(Ok(t.value.1))
    else if StartsWith(data, "skip_column:") then NoFor(DecodeSkipColumn(data).value)
    else Other
  }

  /** After the answer: drop the column from the pending list and retry the
      pending data on the current sheet. */
  function Retry(c: Ctx, sheet: string, column: string, calls: seq<Call>): (s: Step)
    requires Service.Valid(c.store)
    ensures SameTabs(c, s.ctx)
  {
    var (u1, d) := GetStateData(c.user);
    match Unpend(d, column)
    case Err(e) => Step(c.(user := u1), calls, [Crashed(e)])
    case Ok(d1) =>
      var c1 := c.(user := u1.(stateData := Some(d1)));
      if HasPendingData(d1) then Prefix(calls, ObjectData(c1, d1.pendingData.value, sheet))
      else Step(c1, calls, [])
  }

  /** `InputDataState.handle_callback` once the data is read: nothing without
      a selected sheet; a Yes adds the column to the current sheet (the
      sheet in the data is not used) before the retry, a No only retries. */
  function InputAnswer(c: Ctx, r: Reading): (s: Step)
    requires Service.Valid(c.store)
    ensures SameTabs(c, s.ctx)
  {
    if !Truthy(c.user.currentSheet) then Step(c, [], [])
    else
      var sheet := c.user.currentSheet.value;
      match r
      case YesFor(Err(e)) => Step(c, [], [Crashed(e)])
      case YesFor(Ok(column)) =>
        var call := AddColumnsCall(sheet, [column]);
        (match Service.AddColumns(c.store, sheet, [column])
         case Err(e) => Step(c, [call], [Crashed(e)])
         case Ok(st) => Retry(c.(store := st), sheet, column, [call]))
      case NoFor(column) => Retry(c, sheet, column, [])
      case Other => Step(c, [], [])
  }

  function InputCallback(c: Ctx, data: string): (s: Step)
    requires Service.Valid(c.store)
    ensures SameTabs(c, s.ctx)
  {
    InputAnswer(c, ReadAnswer(data))
  }

  // ---------------------------------------------------------------------
  // One update.

  /** Without a selected sheet a message is answered with an error and a
      callback does nothing; nothing is parsed or written either way. */
  lemma NoSheetSelectedDoesNothing(c: Ctx, text: string, data: string)
    requires Service.Valid(c.store) && !Truthy(c.user.currentSheet)
    ensures InputMessage(c, text) == Step(c, [], [Failure(NoSheetSelected)])
    ensures InputCallback(c, data) == Step(c, [], [])
  {
  }

  /** A message that is not a record is answered with the format help. */
  lemma MalformedRecordIsRefused(c: Ctx, text: string)
    requires Service.Valid(c.store) && Truthy(c.user.currentSheet) && ParseObject(text).None?
    ensures InputMessage(c, text) == Step(c, [], [Failure(InvalidFormat)])
  {
  }

  function Fresh(c: Ctx, data: Dict<string>, sheet: string): seq<string> {
    NewColumns(Keys(data), Service.GetColumns(c.store, sheet))
  }

  /** With no key missing from the header the record is appended at once and
      `state_data` is not touched (not even created); the appended row has a
      cell for every header column. */
  lemma ObjectDataAppendsAtOnce(c: Ctx, data: Dict<string>, sheet: string)
    requires Service.Valid(c.store) && Fresh(c, data, sheet) == []
    requires Service.GetColumns(c.store, sheet) != []
    ensures var s := ObjectData(c, data, sheet);
      && s.calls == [AppendRowCall(sheet, data)]
      && s.notices == [DataAdded]
      && s.ctx == c.(store := Service.AppendRow(c.store, sheet, data).value)
  {
  }

  /** With a missing key and an emptied pending list the record is appended
      once and `state_data` is cleared to `{}`. */
  lemma ObjectDataCommitsAndClears(c: Ctx, data: Dict<string>, sheet: string)
    requires Service.Valid(c.store) && Fresh(c, data, sheet) != []
    requires c.user.stateData.Some? && c.user.stateData.value.pendingColumns == Some([])
    requires Service.GetColumns(c.store, sheet) != []
    ensures var s := ObjectData(c, data, sheet);
      && s.calls == [AppendRowCall(sheet, data)]
      && s.notices == [DataAdded]
      && s.ctx == Ctx(c.state, c.user.(stateData := Some(EmptyData)), Service.AppendRow(c.store, sheet, data).value)
  {
  }

  /** With a missing key and pending columns left (or none seeded yet)
      nothing is written and the first pending column is offered; the
      pending list and data are seeded only when there was no pending list. */
  lemma ObjectDataAsks(c: Ctx, data: Dict<string>, sheet: string)
    requires Service.Valid(c.store) && Fresh(c, data, sheet) != []
    requires c.user.stateData.None? || c.user.stateData.value.pendingColumns != Some([])
    ensures var d := GetStateData(c.user).1;
      var d1 := if d.pendingColumns.None? then StateData(Some(Fresh(c, data, sheet)), Some(data)) else d;
      var pending := d1.pendingColumns.value;
      var s := ObjectData(c, data, sheet);
      && |pending| > 0
      && s.calls == []
      && s.notices == [AskColumn(pending[0], BuildColumnConfirmationKeyboard(sheet, pending[0]))]
      && s.ctx == c.(user := c.user.(stateData := Some(d1)))
  {
  }

  // ---------------------------------------------------------------------
  // The whole negotiation.

  /** The header `after` holds nothing but what `before` held and `extra`. */
  predicate GainsAtMost(before: seq<string>, after: seq<string>, extra: seq<string>) {
    forall x :: x in after ==> x in before || x in extra
  }

  /** The column a Yes adds. */
  function YesColumn(column: string, yes: bool): seq<string> {
    if yes then [column] else []
  }

  /** The columns answered Yes, in order. */
  function Accepted(pending: seq<string>, answers: seq<bool>): (r: seq<string>)
    requires |answers| == |pending|
    ensures forall x :: x in r ==> exists i :: 0 <= i < |pending| && answers[i] && pending[i] == x
  {
    if |answers| == 0 then []
    else
      var rest := Accepted(pending[1..], answers[1..]);
      assert forall x :: x in rest ==> exists i :: 0 <= i < |pending| && answers[i] && pending[i] == x by {
        forall x | x in rest ensures exists i :: 0 <= i < |pending| && answers[i] && pending[i] == x {
          var j :| 0 <= j < |pending| - 1 && answers[1..][j] && pending[1..][j] == x;
          assert answers[j + 1] && pending[j + 1] == x;
        }
      }
      YesColumn(pending[0], answers[0]) + rest
  }

  /** The header after all the answers gained at most the Yes columns. */
  lemma HeaderAfterAnswers(h0: seq<string>, h1: seq<string>, h2: seq<string>, pending: seq<string>, answers: seq<bool>)
    requires |answers| == |pending| > 0
    requires GainsAtMost(h0, h1, YesColumn(pending[0], answers[0]))
    requires |pending| == 1 ==> h2 == h1
    requires |pending| > 1 ==> GainsAtMost(h1, h2, Accepted(pending[1..], answers[1..]))
    ensures GainsAtMost(h0, h2, Accepted(pending, answers))
  {
  }

  /** The callback data of the Yes (or the No) button under the prompt for `column`. */
  function Answer(sheet: string, column: string, yes: bool): string {
    var k := BuildColumnConfirmationKeyboard(sheet, column);
    if yes then k[0][0].data else k[0][1].data
  }

  function Pressed(column: string, yes: bool): Reading {
    if yes then YesFor(Ok(column)) else NoFor(column)
  }

  /** The prompt's buttons are read as the answer they stand for (for a
      Yes, as long as the sheet name has no ':'). */
  lemma ReadAnswerOfButtons(sheet: string, column: string, yes: bool)
    requires yes ==> ':' !in sheet
    ensures ReadAnswer(Answer(sheet, column, yes)) == Pressed(column, yes)
  {
    if yes {
      ReadYesAnswer(sheet, column);
    } else {
      ReadNoAnswer(sheet, column);
    }
  }

  lemma ReadYesAnswer(sheet: string, column: string)
    requires ':' !in sheet
    ensures ReadAnswer(Answer(sheet, column, true)) == Pressed(column, true)
  {
    var data := Answer(sheet, column, true);
    assert data == AddColumnData(sheet, column);
    assert data[..11] == "add_column:";
    AddColumnRoundTrip(sheet, column);
  }

  lemma ReadNoAnswer(sheet: string, column: string)
    ensures ReadAnswer(Answer(sheet, column, false)) == Pressed(column, false)
  {
    var data := Answer(sheet, column, false);
    SkipColumnRoundTrip(column);
    assert data[..12] == "skip_column:";
    assert data[0] == 's';
    CharDiffers(data, "add_column:", 0);
  }

  /** Pressing, for each answer in turn, Yes or No under the prompt for the
      first pending column; it stops once nothing is pending. */
  function Negotiate(c: Ctx, answers: seq<bool>): (s: Step)
    requires Service.Valid(c.store)
    ensures SameTabs(c, s.ctx)
    decreases |answers|
  {
    var d := c.user.stateData;
    if |answers| == 0 || d.None? || d.value.pendingColumns.None? || |d.value.pendingColumns.value| == 0 then Step(c, [], [])
    else
      var s := InputAnswer(c, Pressed(d.value.pendingColumns.value[0], answers[0]));
      var rest := Negotiate(s.ctx, answers[1..]);
      Step(rest.ctx, s.calls + rest.calls, s.notices + rest.notices)
  }

  /** The prompts for `columns`, in order. */
  function Prompts(sheet: string, columns: seq<string>): seq<Notice> {
    if |columns| == 0 then []
    else [AskColumn(columns[0], BuildColumnConfirmationKeyboard(sheet, columns[0]))] + Prompts(sheet, columns[1..])
  }

  /** The user side of a negotiation for `data` on `sheet` with `pending` left. */
  predicate Open(u: UserData, sheet: string, data: Dict<string>, pending: seq<string>) {
    && u.currentSheet == Some(sheet) && sheet != ""
    && u.stateData == Some(StateData(Some(pending), Some(data))) && |data| > 0
  }

  /** A negotiation in progress on a reachable tab, with or without a
      header: the pending columns are distinct keys of the data the header
      still lacks. */
  ghost predicate Negotiating(c: Ctx, sheet: string, data: Dict<string>, pending: seq<string>) {
    && Service.Valid(c.store) && Service.Reachable(c.store, sheet)
    && Open(c.user, sheet, data, pending)
    && Unsettled(pending, Keys(data), Service.GetColumns(c.store, sheet))
  }

  /** A Yes adds the column to the header (which gains nothing else and
      keeps what it had; an empty header becomes just that column) and
      retries with the column dropped. */
  lemma YesRetries(c: Ctx, sheet: string, data: Dict<string>, pending: seq<string>)
    requires Service.Valid(c.store) && Service.Reachable(c.store, sheet)
    requires Open(c.user, sheet, data, pending) && |pending| > 0
    ensures var st := Service.AddColumns(c.store, sheet, [pending[0]]).value;
      var c1 := Ctx(c.state, c.user.(stateData := Some(StateData(Some(pending[1..]), Some(data)))), st);
      && Service.Valid(st) && Service.Reachable(st, sheet) && Service.GetColumns(st, sheet) != []
      && (forall x :: x in Service.GetColumns(st, sheet) ==> x in Service.GetColumns(c.store, sheet) || x == pending[0])
      && InputAnswer(c, Pressed(pending[0], true)) == Prefix([AddColumnsCall(sheet, [pending[0]])], ObjectData(c1, data, sheet))
  {
    Service.AddColumnsHeader(c.store, sheet, [pending[0]]);
    var st := Service.AddColumns(c.store, sheet, [pending[0]]).value;
    UnpendFirst(c.user.stateData.value, pending);
    YesIsRetry(c, sheet, pending[0], st);
  }

  lemma YesIsRetry(c: Ctx, sheet: string, column: string, st: Service.Service)
    requires Service.Valid(c.store) && c.user.currentSheet == Some(sheet) && sheet != ""
    requires Service.AddColumns(c.store, sheet, [column]) == Ok(st)
    ensures InputAnswer(c, Pressed(column, true)) == Retry(c.(store := st), sheet, column, [AddColumnsCall(sheet, [column])])
  {
  }

  /** Answering the first pending column drops it from the front. */
  lemma UnpendFirst(d: StateData, pending: seq<string>)
    requires d.pendingColumns == Some(pending) && |pending| > 0
    ensures Unpend(d, pending[0]) == Ok(d.(pendingColumns := Some(pending[1..])))
  {
  }

  /** A No retries with the column dropped and the store untouched. */
  lemma NoRetries(c: Ctx, sheet: string, data: Dict<string>, pending: seq<string>)
    requires Service.Valid(c.store)
    requires Open(c.user, sheet, data, pending) && |pending| > 0
    ensures var c1 := c.(user := c.user.(stateData := Some(StateData(Some(pending[1..]), Some(data)))));
      InputAnswer(c, Pressed(pending[0], false)) == ObjectData(c1, data, sheet)
  {
    UnpendFirst(c.user.stateData.value, pending);
    var c1 := c.(user := c.user.(stateData := Some(StateData(Some(pending[1..]), Some(data)))));
    assert Retry(c, sheet, pending[0], []) == Prefix([], ObjectData(c1, data, sheet));
  }

  /** An answer retries on a store whose header gained at most the answered
      column. */
  lemma AnswerRetries(c: Ctx, sheet: string, data: Dict<string>, pending: seq<string>, yes: bool)
    requires Service.Valid(c.store) && Service.Reachable(c.store, sheet)
    requires Open(c.user, sheet, data, pending) && |pending| > 0
    ensures var st := if yes then Service.AddColumns(c.store, sheet, [pending[0]]).value else c.store;
      var c1 := Ctx(c.state, c.user.(stateData := Some(StateData(Some(pending[1..]), Some(data)))), st);
      && Service.Valid(st) && Service.Reachable(st, sheet)
      && (Service.GetColumns(st, sheet) != [] <==> yes || Service.GetColumns(c.store, sheet) != [])
      && (forall x :: x in Service.GetColumns(st, sheet) ==> x in Service.GetColumns(c.store, sheet) || x == pending[0])
      && InputAnswer(c, Pressed(pending[0], yes))
         == Prefix(if yes then [AddColumnsCall(sheet, [pending[0]])] else [], ObjectData(c1, data, sheet))
  {
    if yes {
      YesRetries(c, sheet, data, pending);
    } else {
      NoRetries(c, sheet, data, pending);
      var c1 := c.(user := c.user.(stateData := Some(StateData(Some(pending[1..]), Some(data)))));
      var s := ObjectData(c1, data, sheet);
      assert Prefix([], s) == s;
    }
  }

  /** Once the first pending column is answered the negotiation goes on
      over the others. */
  lemma StillNegotiating(c: Ctx, sheet: string, data: Dict<string>, pending: seq<string>, st: Service.Service)
    requires Negotiating(c, sheet, data, pending) && |pending| > 0
    requires Service.Valid(st) && Service.Reachable(st, sheet)
    requires forall x :: x in Service.GetColumns(st, sheet) ==> x in Service.GetColumns(c.store, sheet) || x == pending[0]
    ensures Negotiating(Ctx(c.state, c.user.(stateData := Some(StateData(Some(pending[1..]), Some(data)))), st), sheet, data, pending[1..])
  {
    var keys := Keys(data);
    UnsettledWiden(pending[1..], keys, keys, Service.GetColumns(c.store, sheet), Service.GetColumns(st, sheet), pending[0]);
  }

  /** The first pending column of a negotiation is still missing from the header. */
  lemma FirstPendingIsFresh(c: Ctx, sheet: string, data: Dict<string>, pending: seq<string>)
    requires Negotiating(c, sheet, data, pending) && |pending| > 0
    ensures pending[0] in Fresh(c, data, sheet)
  {
  }

  /** Re-entering with columns left offers the next one and changes nothing. */
  lemma NextPrompt(c: Ctx, sheet: string, data: Dict<string>, pending: seq<string>)
    requires |pending| >= 2 && Negotiating(c, sheet, data, pending[1..])
    ensures var s := ObjectData(c, data, sheet);
      && s.calls == []
      && s.notices == Prompts(sheet, pending[1..2])
      && s.ctx == c
  {
    FirstPendingIsFresh(c, sheet, data, pending[1..]);
    ObjectDataAsks(c, data, sheet);
    FirstPrompt(sheet, pending[1..]);
    assert pending[1..][..1] == pending[1..2];
  }

  lemma FirstPrompt(sheet: string, pending: seq<string>)
    requires |pending| > 0
    ensures Prompts(sheet, pending[..1]) == [AskColumn(pending[0], BuildColumnConfirmationKeyboard(sheet, pending[0]))]
  {
    assert pending[..1][1..] == [];
  }

  /** An answer with more columns pending offers the next one and writes
      nothing but the Yes column. */
  lemma AnswerAsksNext(c: Ctx, sheet: string, data: Dict<string>, pending: seq<string>, yes: bool)
    requires Negotiating(c, sheet, data, pending) && |pending| >= 2
    ensures var s := InputAnswer(c, Pressed(pending[0], yes));
      && s.calls == (if yes then [AddColumnsCall(sheet, [pending[0]])] else [])
      && s.notices == Prompts(sheet, pending[1..2])
      && Negotiating(s.ctx, sheet, data, pending[1..])
      && GainsAtMost(Service.GetColumns(c.store, sheet), Service.GetColumns(s.ctx.store, sheet), YesColumn(pending[0], yes))
      && (Service.GetColumns(s.ctx.store, sheet) != [] <==> yes || Service.GetColumns(c.store, sheet) != [])
  {
    AnswerRetries(c, sheet, data, pending, yes);
    var st := if yes then Service.AddColumns(c.store, sheet, [pending[0]]).value else c.store;
    var c1 := Ctx(c.state, c.user.(stateData := Some(StateData(Some(pending[1..]), Some(data)))), st);
    StillNegotiating(c, sheet, data, pending, st);
    NextPrompt(c1, sheet, data, pending);
    var calls := if yes then [AddColumnsCall(sheet, [pending[0]])] else [];
    PrefixKeepsPrompt(InputAnswer(c, Pressed(pending[0], yes)), ObjectData(c1, data, sheet), c1, calls, sheet, data, pending);
  }

  lemma PrefixKeepsPrompt(s: Step, h: Step, c1: Ctx, calls: seq<Call>, sheet: string, data: Dict<string>, pending: seq<string>)
    requires |pending| >= 2 && s == Prefix(calls, h)
    requires h.calls == [] && h.notices == Prompts(sheet, pending[1..2]) && h.ctx == c1
    requires Negotiating(c1, sheet, data, pending[1..])
    ensures s.calls == calls && s.notices == Prompts(sheet, pending[1..2]) && Negotiating(s.ctx, sheet, data, pending[1..])
    ensures s.ctx == c1
  {
  }

  /** The answer to the last pending column appends the record once. The
      `state_data` is cleared only when the record still has a key the header
      lacks; otherwise the retry takes the no-new-column path and the emptied
      pending list stays. On a tab without a header only a Yes gets this
      far (a No there is `AnswerFailsOnHeaderlessTab`). */
  lemma AnswerCommits(c: Ctx, sheet: string, data: Dict<string>, pending: seq<string>, yes: bool)
    requires Negotiating(c, sheet, data, pending) && |pending| == 1
    requires yes || Service.GetColumns(c.store, sheet) != []
    ensures var s := InputAnswer(c, Pressed(pending[0], yes));
      && s.calls == (if yes then [AddColumnsCall(sheet, [pending[0]])] else []) + [AppendRowCall(sheet, data)]
      && s.notices == [DataAdded]
      && s.ctx.user.stateData == Settled(s.ctx, sheet, data)
      && GainsAtMost(Service.GetColumns(c.store, sheet), Service.GetColumns(s.ctx.store, sheet), YesColumn(pending[0], yes))
  {
    AnswerRetries(c, sheet, data, pending, yes);
    var st := if yes then Service.AddColumns(c.store, sheet, [pending[0]]).value else c.store;
    var c1 := Ctx(c.state, c.user.(stateData := Some(StateData(Some(pending[1..]), Some(data)))), st);
    LastAnswerCommits(c1, sheet, data);
  }

  /** Declining the last pending column of a tab that still has no header
      leaves the retry nothing to append to: `append_row` raises "Sheet has
      no columns", the store is unchanged and `state_data` keeps the emptied
      list, since the clearing comes after the append. */
  lemma AnswerFailsOnHeaderlessTab(c: Ctx, sheet: string, data: Dict<string>, pending: seq<string>)
    requires Negotiating(c, sheet, data, pending) && |pending| == 1
    requires Service.GetColumns(c.store, sheet) == []
    ensures var s := InputAnswer(c, Pressed(pending[0], false));
      && s.calls == [AppendRowCall(sheet, data)]
      && s.notices == [Crashed("Sheet has no columns")]
      && s.ctx == c.(user := c.user.(stateData := Some(StateData(Some([]), Some(data)))))
  {
    NoRetries(c, sheet, data, pending);
    var c1 := c.(user := c.user.(stateData := Some(StateData(Some([]), Some(data)))));
    assert pending[1..] == [];
    assert data[0].0 in Keys(data);
    assert data[0].0 in Fresh(c1, data, sheet);
  }

  /** What `state_data` holds once a negotiation for `data` has appended it. */
  function Settled(c: Ctx, sheet: string, data: Dict<string>): Option<StateData> {
    if Fresh(c, data, sheet) == [] then Some(StateData(Some([]), Some(data))) else Some(EmptyData)
  }

  /** Retrying with an emptied list appends the record; `state_data` is
      cleared exactly when a key is still missing from the header. */
  lemma LastAnswerCommits(c1: Ctx, sheet: string, data: Dict<string>)
    requires Service.Valid(c1.store) && Service.GetColumns(c1.store, sheet) != []
    requires c1.user.stateData == Some(StateData(Some([]), Some(data)))
    ensures var s := ObjectData(c1, data, sheet);
      && s.calls == [AppendRowCall(sheet, data)]
      && s.notices == [DataAdded]
      && s.ctx.store == Service.AppendRow(c1.store, sheet, data).value
      && Service.GetColumns(s.ctx.store, sheet) == Service.GetColumns(c1.store, sheet)
      && s.ctx.user.stateData == Settled(s.ctx, sheet, data)
  {
    Service.AppendRowKeepsHeader(c1.store, sheet, data);
    if Fresh(c1, data, sheet) == [] {
      ObjectDataAppendsAtOnce(c1, data, sheet);
    } else {
      ObjectDataCommitsAndClears(c1, data, sheet);
    }
  }

  /** One answer, then the rest. */
  lemma NegotiateStep(c: Ctx, pending: seq<string>, answers: seq<bool>)
    requires Service.Valid(c.store) && c.user.stateData.Some? && c.user.stateData.value.pendingColumns == Some(pending)
    requires |pending| > 0 && |answers| > 0
    ensures var s := InputAnswer(c, Pressed(pending[0], answers[0]));
      var rest := Negotiate(s.ctx, answers[1..]);
      Negotiate(c, answers) == Step(rest.ctx, s.calls + rest.calls, s.notices + rest.notices)
  {
  }

  /** However the prompts are answered, a negotiation over `pending` ends
      after exactly `|pending|` answers with the Yes columns added in order,
      then exactly one `append_row` of the record, every column but the
      first offered on the way, as long as the tab has a header or some
      answer is Yes (otherwise see `DecliningAllOnHeaderlessTabFails`).
      `state_data` ends as `{}` when a key is still missing from the header,
      and otherwise keeps the emptied pending list. */
  lemma {:induction false} NegotiationAppendsOnce(c: Ctx, sheet: string, data: Dict<string>, pending: seq<string>, answers: seq<bool>)
    requires Negotiating(c, sheet, data, pending) && |answers| == |pending| > 0
    requires Service.GetColumns(c.store, sheet) != [] || true in answers
    ensures var s := Negotiate(c, answers);
      && s.calls == Additions(sheet, pending, answers) + [AppendRowCall(sheet, data)]
      && s.notices == Prompts(sheet, pending[1..]) + [DataAdded]
      && s.ctx.user.stateData == Settled(s.ctx, sheet, data)
      && GainsAtMost(Service.GetColumns(c.store, sheet), Service.GetColumns(s.ctx.store, sheet), Accepted(pending, answers))
    decreases |pending|
  {
    if |pending| == 1 {
      NegotiationLast(c, sheet, data, pending, answers);
    } else {
      var s := InputAnswer(c, Pressed(pending[0], answers[0]));
      NegotiationGoesOn(c, sheet, data, pending, answers);
      NegotiationAppendsOnce(s.ctx, sheet, data, pending[1..], answers[1..]);
      NegotiationMore(c, sheet, data, pending, answers);
    }
  }

  /** What `NegotiationAppendsOnce` promises for a run `n` of the answers. */
  ghost predicate Concluded(c: Ctx, n: Step, sheet: string, data: Dict<string>, pending: seq<string>, answers: seq<bool>)
    requires |answers| == |pending| > 0
  {
    && n.calls == Additions(sheet, pending, answers) + [AppendRowCall(sheet, data)]
    && n.notices == Prompts(sheet, pending[1..]) + [DataAdded]
    && n.ctx.user.stateData == Settled(n.ctx, sheet, data)
    && GainsAtMost(Service.GetColumns(c.store, sheet), Service.GetColumns(n.ctx.store, sheet), Accepted(pending, answers))
  }

  /** The last answer of a negotiation concludes it. */
  lemma NegotiationLast(c: Ctx, sheet: string, data: Dict<string>, pending: seq<string>, answers: seq<bool>)
    requires Negotiating(c, sheet, data, pending) && |answers| == |pending| == 1
    requires Service.GetColumns(c.store, sheet) != [] || true in answers
    ensures Concluded(c, Negotiate(c, answers), sheet, data, pending, answers)
  {
    var s := InputAnswer(c, Pressed(pending[0], answers[0]));
    var rest := Negotiate(s.ctx, answers[1..]);
    NegotiateStep(c, pending, answers);
    assert answers[0] || Service.GetColumns(c.store, sheet) != [] by {
      if Service.GetColumns(c.store, sheet) == [] {
        var i :| 0 <= i < |answers| && answers[i];
        assert i == 0;
      }
    }
    AnswerCommits(c, sheet, data, pending, answers[0]);
    ConcludeLast(Negotiate(c, answers), s, rest, sheet, data, pending, answers);
    HeaderAfterAnswers(Service.GetColumns(c.store, sheet), Service.GetColumns(s.ctx.store, sheet), Service.GetColumns(s.ctx.store, sheet), pending, answers);
  }

  /** After a first answer with more left, the rest is again a negotiation
      that can append. */
  lemma NegotiationGoesOn(c: Ctx, sheet: string, data: Dict<string>, pending: seq<string>, answers: seq<bool>)
    requires Negotiating(c, sheet, data, pending) && |answers| == |pending| >= 2
    requires Service.GetColumns(c.store, sheet) != [] || true in answers
    ensures var s := InputAnswer(c, Pressed(pending[0], answers[0]));
      && Negotiating(s.ctx, sheet, data, pending[1..])
      && (Service.GetColumns(s.ctx.store, sheet) != [] || true in answers[1..])
  {
    AnswerAsksNext(c, sheet, data, pending, answers[0]);
    if !answers[0] && Service.GetColumns(c.store, sheet) == [] {
      YesAmongRest(answers);
    }
  }

  /** A first answer followed by a concluded rest concludes the whole. */
  lemma NegotiationMore(c: Ctx, sheet: string, data: Dict<string>, pending: seq<string>, answers: seq<bool>)
    requires Negotiating(c, sheet, data, pending) && |answers| == |pending| >= 2
    requires var s := InputAnswer(c, Pressed(pending[0], answers[0]));
      Concluded(s.ctx, Negotiate(s.ctx, answers[1..]), sheet, data, pending[1..], answers[1..])
    ensures Concluded(c, Negotiate(c, answers), sheet, data, pending, answers)
  {
    var s := InputAnswer(c, Pressed(pending[0], answers[0]));
    var rest := Negotiate(s.ctx, answers[1..]);
    NegotiateStep(c, pending, answers);
    AnswerAsksNext(c, sheet, data, pending, answers[0]);
    ConcludeMore(Negotiate(c, answers), s, rest, sheet, data, pending, answers);
    HeaderAfterAnswers(Service.GetColumns(c.store, sheet), Service.GetColumns(s.ctx.store, sheet), Service.GetColumns(rest.ctx.store, sheet), pending, answers);
  }

  /** A Yes that is not the first answer is among the later ones. */
  lemma YesAmongRest(answers: seq<bool>)
    requires true in answers && |answers| > 0 && !answers[0]
    ensures true in answers[1..]
  {
    var i :| 0 <= i < |answers| && answers[i];
    assert answers[1..][i - 1] == answers[i];
  }

  lemma ConcludeLast(n: Step, s: Step, rest: Step, sheet: string, data: Dict<string>, pending: seq<string>, answers: seq<bool>)
    requires |answers| == |pending| == 1
    requires n == Step(rest.ctx, s.calls + rest.calls, s.notices + rest.notices) && rest == Step(s.ctx, [], [])
    requires s.calls == (if answers[0] then [AddColumnsCall(sheet, [pending[0]])] else []) + [AppendRowCall(sheet, data)]
    requires s.notices == [DataAdded] && s.ctx.user.stateData == Settled(s.ctx, sheet, data)
    ensures n.calls == Additions(sheet, pending, answers) + [AppendRowCall(sheet, data)]
    ensures n.notices == Prompts(sheet, pending[1..]) + [DataAdded]
    ensures n.ctx.user.stateData == Settled(n.ctx, sheet, data)
    ensures n.ctx == s.ctx
  {
    assert Additions(sheet, pending[1..], answers[1..]) == [];
  }

  lemma ConcludeMore(n: Step, s: Step, rest: Step, sheet: string, data: Dict<string>, pending: seq<string>, answers: seq<bool>)
    requires |answers| == |pending| >= 2
    requires n == Step(rest.ctx, s.calls + rest.calls, s.notices + rest.notices)
    requires s.calls == (if answers[0] then [AddColumnsCall(sheet, [pending[0]])] else [])
    requires s.notices == Prompts(sheet, pending[1..2])
    requires rest.calls == Additions(sheet, pending[1..], answers[1..]) + [AppendRowCall(sheet, data)]
    requires rest.notices == Prompts(sheet, pending[1..][1..]) + [DataAdded]
    requires rest.ctx.user.stateData == Settled(rest.ctx, sheet, data)
    ensures n.calls == Additions(sheet, pending, answers) + [AppendRowCall(sheet, data)]
    ensures n.notices == Prompts(sheet, pending[1..]) + [DataAdded]
    ensures n.ctx.user.stateData == Settled(n.ctx, sheet, data)
    ensures n.ctx == rest.ctx
  {
    CallsAfterFirst(sheet, data, pending, answers, s.calls, rest.calls);
    PromptsAfterFirst(sheet, pending, s.notices, rest.notices, DataAdded);
  }

  lemma PromptsAfterFirst(sheet: string, pending: seq<string>, first: seq<Notice>, later: seq<Notice>, last: Notice)
    requires |pending| >= 2
    requires first == Prompts(sheet, pending[1..2])
    requires later == Prompts(sheet, pending[1..][1..]) + [last]
    ensures first + later == Prompts(sheet, pending[1..]) + [last]
  {
    var p := pending[1..];
    Seqs.DropTake(pending, 1, 1);
    Seqs.HeadTail(p);
    PromptsAppend(sheet, p[..1], p[1..]);
    Seqs.Assoc(Prompts(sheet, p[..1]), Prompts(sheet, p[1..]), [last]);
  }

  lemma {:induction false} PromptsAppend(sheet: string, xs: seq<string>, ys: seq<string>)
    ensures Prompts(sheet, xs + ys) == Prompts(sheet, xs) + Prompts(sheet, ys)
    decreases |xs|
  {
    if |xs| > 0 {
      assert (xs + ys)[1..] == xs[1..] + ys;
      PromptsAppend(sheet, xs[1..], ys);
    } else {
      assert xs + ys == ys;
    }
  }

  /** A single No is enough for `state_data` to end as `{}`: the declined
      column never reaches the header, so the last retry still finds it
      missing and takes the clearing path. */
  lemma DecliningClearsStateData(c: Ctx, sheet: string, data: Dict<string>, pending: seq<string>, answers: seq<bool>, i: nat)
    requires Negotiating(c, sheet, data, pending) && |answers| == |pending| > 0
    requires i < |answers| && !answers[i]
    requires Service.GetColumns(c.store, sheet) != [] || true in answers
    ensures Negotiate(c, answers).ctx.user.stateData == Some(EmptyData)
  {
    var s := Negotiate(c, answers);
    NegotiationAppendsOnce(c, sheet, data, pending, answers);
    UnsettledAt(pending, Keys(data), Service.GetColumns(c.store, sheet), i);
    var x := pending[i];
    assert x !in Accepted(pending, answers);
    assert x !in Service.GetColumns(s.ctx.store, sheet);
    assert x in Fresh(s.ctx, data, sheet);
  }

  /** Answering Yes to the only new column of a record takes the retry down
      the no-new-column path: the record is appended but the emptied pending
      list stays in `state_data`, so the next record with an unknown key is
      appended at once, without any prompt. */
  lemma AcceptingAllLeavesPendingList()
    ensures var c := AcceptExample();
      var s := Negotiate(c, [true]);
      && Service.Valid(c.store)
      && s.ctx.user.stateData == Some(StateData(Some([]), Some([("a", "1"), ("b", "2")])))
      && ObjectData(s.ctx, [("c", "3")], "T").calls == [AppendRowCall("T", [("c", "3")])]
      && ObjectData(s.ctx, [("c", "3")], "T").notices == [DataAdded]
  {
    var c := AcceptExample();
    AcceptOnlyColumn();
    var s := Negotiate(c, [true]);
    assert Keys([("c", "3")]) == ["c"];
    ObjectDataCommitsAndClears(s.ctx, [("c", "3")], "T");
  }

  /** Tab `T` with header `a`, and a negotiation over `b` for the record `a: 1`, `b: 2`. */
  function AcceptExample(): Ctx {
    var store := Service.Service("id", Sheets.Spreadsheet(["T"], map["T" := [["a"]]]));
    Ctx(NewState(InputData), UserData(Some("T"), false, Some(StateData(Some(["b"]), Some([("a", "1"), ("b", "2")])))), store)
  }

  /** Adding `b` to the example's tab gives the header `a`, `b`. */
  lemma AcceptExampleHeader()
    ensures var r := Service.AddColumns(AcceptExample().store, "T", ["b"]);
      r.Ok? && Service.Valid(r.value) && Service.GetColumns(r.value, "T") == ["a", "b"]
  {
    Service.AddColumnsHeader(AcceptExample().store, "T", ["b"]);
    assert Merge(["a"], ["b"]) == ["a", "b"];
  }

  lemma AcceptOnlyColumn()
    ensures var c := AcceptExample();
      var s := Negotiate(c, [true]);
      && Service.Valid(c.store)
      && s.ctx.user.stateData == Some(StateData(Some([]), Some([("a", "1"), ("b", "2")])))
      && Service.GetColumns(s.ctx.store, "T") == ["a", "b"]
  {
    var c := AcceptExample();
    var data := [("a", "1"), ("b", "2")];
    assert Keys(data) == ["a", "b"];
    YesRetries(c, "T", data, ["b"]);
    AcceptExampleHeader();
    var st := Service.AddColumns(c.store, "T", ["b"]).value;
    var c1 := Ctx(c.state, c.user.(stateData := Some(StateData(Some([]), Some(data)))), st);
    assert Fresh(c1, data, "T") == [];
    ObjectDataAppendsAtOnce(c1, data, "T");
    Service.AppendRowKeepsHeader(st, "T", data);
    NegotiateStep(c, ["b"], [true]);
  }

  /** A record with keys the header lacks, sent with a sheet selected and no
      negotiation open, opens one over exactly those keys: nothing is
      written and the first of them is offered. */
  lemma SubmissionOpensNegotiation(c: Ctx, text: string, sheet: string, data: Dict<string>)
    requires Service.Valid(c.store) && Service.Reachable(c.store, sheet)
    requires c.user.currentSheet == Some(sheet) && sheet != "" && c.user.stateData.None?
    requires ParseObject(text) == Some(data) && Fresh(c, data, sheet) != []
    ensures var pending := Fresh(c, data, sheet);
      var s := InputMessage(c, text);
      && s.calls == []
      && s.notices == Prompts(sheet, pending[..1])
      && Negotiating(s.ctx, sheet, data, pending)
  {
    var pending := Fresh(c, data, sheet);
    assert InputMessage(c, text) == ObjectData(c, data, sheet);
    ObjectDataAsks(c, data, sheet);
    NewColumnsUnsettled(Keys(data), Service.GetColumns(c.store, sheet));
    FirstPrompt(sheet, pending);
  }

  /** On a tab without a header, declining every pending column keeps the
      header empty, so the last retry's `append_row` raises "Sheet has no
      columns": every later column is offered, nothing but the failing
      append is requested, and `state_data` keeps the emptied list. */
  lemma {:induction false} DecliningAllOnHeaderlessTabFails(c: Ctx, sheet: string, data: Dict<string>, pending: seq<string>, answers: seq<bool>)
    requires Negotiating(c, sheet, data, pending) && |answers| == |pending| > 0
    requires Service.GetColumns(c.store, sheet) == [] && true !in answers
    ensures var s := Negotiate(c, answers);
      && s.calls == [AppendRowCall(sheet, data)]
      && s.notices == Prompts(sheet, pending[1..]) + [Crashed("Sheet has no columns")]
      && s.ctx.user.stateData == Some(StateData(Some([]), Some(data)))
      && Service.GetColumns(s.ctx.store, sheet) == []
    decreases |pending|
  {
    if |pending| == 1 {
      DecliningLastOnHeaderlessTab(c, sheet, data, pending, answers);
    } else {
      var s := InputAnswer(c, Pressed(pending[0], answers[0]));
      DecliningGoesOn(c, sheet, data, pending, answers);
      DecliningAllOnHeaderlessTabFails(s.ctx, sheet, data, pending[1..], answers[1..]);
      DecliningMore(c, sheet, data, pending, answers);
    }
  }

  /** What `DecliningAllOnHeaderlessTabFails` promises for a run `n`. */
  ghost predicate FailedOnHeaderlessTab(n: Step, sheet: string, data: Dict<string>, pending: seq<string>)
    requires |pending| > 0
  {
    && n.calls == [AppendRowCall(sheet, data)]
    && n.notices == Prompts(sheet, pending[1..]) + [Crashed("Sheet has no columns")]
    && n.ctx.user.stateData == Some(StateData(Some([]), Some(data)))
    && Service.GetColumns(n.ctx.store, sheet) == []
  }

  /** Declining the only pending column of a headerless tab fails. */
  lemma DecliningLastOnHeaderlessTab(c: Ctx, sheet: string, data: Dict<string>, pending: seq<string>, answers: seq<bool>)
    requires Negotiating(c, sheet, data, pending) && |answers| == |pending| == 1
    requires Service.GetColumns(c.store, sheet) == [] && true !in answers
    ensures FailedOnHeaderlessTab(Negotiate(c, answers), sheet, data, pending)
  {
    assert !answers[0] by { assert answers[0] in answers; }
    NegotiateStep(c, pending, answers);
    AnswerFailsOnHeaderlessTab(c, sheet, data, pending);
    assert pending[1..] == [];
  }

  /** Declining the first of several columns of a headerless tab leaves a
      headerless negotiation with only No answers ahead. */
  lemma DecliningGoesOn(c: Ctx, sheet: string, data: Dict<string>, pending: seq<string>, answers: seq<bool>)
    requires Negotiating(c, sheet, data, pending) && |answers| == |pending| >= 2
    requires Service.GetColumns(c.store, sheet) == [] && true !in answers
    ensures var s := InputAnswer(c, Pressed(pending[0], answers[0]));
      && Negotiating(s.ctx, sheet, data, pending[1..])
      && Service.GetColumns(s.ctx.store, sheet) == []
      && true !in answers[1..]
  {
    assert !answers[0] by { assert answers[0] in answers; }
    AnswerAsksNext(c, sheet, data, pending, false);
    forall k | 0 <= k < |answers[1..]| ensures answers[1..][k] != true {
      assert answers[1..][k] == answers[k + 1] && answers[k + 1] in answers;
    }
  }

  /** A declined first column followed by a failing rest fails as a whole. */
  lemma DecliningMore(c: Ctx, sheet: string, data: Dict<string>, pending: seq<string>, answers: seq<bool>)
    requires Negotiating(c, sheet, data, pending) && |answers| == |pending| >= 2
    requires Service.GetColumns(c.store, sheet) == [] && true !in answers
    requires var s := InputAnswer(c, Pressed(pending[0], answers[0]));
      FailedOnHeaderlessTab(Negotiate(s.ctx, answers[1..]), sheet, data, pending[1..])
    ensures FailedOnHeaderlessTab(Negotiate(c, answers), sheet, data, pending)
  {
    assert !answers[0] by { assert answers[0] in answers; }
    var s := InputAnswer(c, Pressed(pending[0], false));
    var rest := Negotiate(s.ctx, answers[1..]);
    NegotiateStep(c, pending, answers);
    AnswerAsksNext(c, sheet, data, pending, false);
    PromptsAfterFirst(sheet, pending, s.notices, rest.notices, Crashed("Sheet has no columns"));
  }

  /** With no header at all, declining every column leaves the record with
      nowhere to go: the append fails with "Sheet has no columns". */
  lemma DecliningOnHeaderlessTabFails()
    ensures var store := Service.Service("id", Sheets.Spreadsheet(["T"], map["T" := []]));
      var data := [("a", "1")];
      var c := Ctx(NewState(InputData), UserData(Some("T"), false, Some(StateData(Some(["a"]), Some(data)))), store);
      && Service.Valid(store)
      && Negotiate(c, [false]).notices == [Crashed("Sheet has no columns")]
  {
    var store := Service.Service("id", Sheets.Spreadsheet(["T"], map["T" := []]));
    var data := [("a", "1")];
    var c := Ctx(NewState(InputData), UserData(Some("T"), false, Some(StateData(Some(["a"]), Some(data)))), store);
    assert Keys(data) == ["a"];
    assert Service.GetColumns(store, "T") == [];
    NegotiateStep(c, ["a"], [false]);
  }
}

=== FILE: sheets.dfy ===
/** The spreadsheet as an in-memory value: its tab titles in order and, per
    tab, the rows of cells (row 0 is the header row). This replaces the remote
    Google Sheets API that both gateway classes talk to. */
module Sheets {
  import opened Results
  import opened Dicts

  type Row = seq<string>

  datatype Spreadsheet = Spreadsheet(titles: seq<string>, tabs: map<string, seq<Row>>)

  /** Tab titles are unique and name exactly the tabs that hold rows. */
  ghost predicate Valid(b: Spreadsheet) {
    Distinct(b.titles) && forall t :: t in b.titles <==> t in b.tabs
  }

  /** The header row of a tab, empty when the tab has no rows. */
  function HeaderOf(rows: seq<Row>): Row {
    if |rows| == 0 then [] else rows[0]
  }

  /** The cells after writing `cells` from column A: a present value replaces
      the cell, an absent one (`None`, which the API skips) keeps it. */
  function Overlay(before: Row, cells: seq<Option<string>>): (r: Row)
    ensures |r| == Max(|before|, |cells|)
    ensures forall k :: 0 <= k < |cells| && cells[k].Some? ==> r[k] == cells[k].value
    ensures forall k :: 0 <= k < |before| && (k >= |cells| || cells[k].None?) ==> r[k] == before[k]
  {
    seq(Max(|before|, |cells|), k requires 0 <= k < Max(|before|, |cells|) =>
      if k < |cells| && cells[k].Some? then cells[k].value
      else if k < |before| then before[k]
      else "")
  }

  function Present(cells: Row): seq<Option<string>> {
    seq(|cells|, k requires 0 <= k < |cells| => Some(cells[k]))
  }

  lemma OverlayPresent(before: Row, cells: Row)
    requires |before| <= |cells|
    ensures Overlay(before, Present(cells)) == cells
  {
  }

  /** Rows after writing `cells` into row `i` (missing rows in between are empty). */
  function PutRow(rows: seq<Row>, i: nat, cells: seq<Option<string>>): (r: seq<Row>)
    ensures |r| == Max(|rows|, i + 1)
    ensures r[i] == Overlay(if i < |rows| then rows[i] else [], cells)
    ensures forall j :: 0 <= j < |r| && j != i ==> r[j] == if j < |rows| then rows[j] else []
  {
    if i < |rows| then rows[i := Overlay(rows[i], cells)]
    else rows + seq(i - |rows|, _ => []) + [Overlay([], cells)]
  }

  /** A new, empty tab at the end of the tab list. */
  function AddSheet(b: Spreadsheet, title: string): (r: Spreadsheet)
    requires title !in b.tabs
    ensures Valid(b) ==> Valid(r)
    ensures r.titles == b.titles + [title]
    ensures r.tabs == b.tabs[title := []]
  {
    Spreadsheet(b.titles + [title], b.tabs[title := []])
  }

  /** `values().append(...)`: the row goes after the last one of the tab. */
  function AppendRow(b: Spreadsheet, name: string, row: Row): (r: Spreadsheet)
    requires name in b.tabs
    ensures Valid(b) ==> Valid(r)
    ensures r.titles == b.titles && r.tabs.Keys == b.tabs.Keys
    ensures r.tabs[name] == b.tabs[name] + [row]
    ensures forall t :: t in b.tabs && t != name ==> r.tabs[t] == b.tabs[t]
  {
    b.(tabs := b.tabs[name := b.tabs[name] + [row]])
  }

  /** `values().update(...)` of one row starting at column A. */
  function WriteRow(b: Spreadsheet, name: string, i: nat, cells: seq<Option<string>>): (r: Spreadsheet)
    requires name in b.tabs
    ensures Valid(b) ==> Valid(r)
    ensures r.titles == b.titles && r.tabs.Keys == b.tabs.Keys
    ensures r.tabs[name] == PutRow(b.tabs[name], i, cells)
    ensures forall t :: t in b.tabs && t != name ==> r.tabs[t] == b.tabs[t]
  {
    b.(tabs := b.tabs[name := PutRow(b.tabs[name], i, cells)])
  }
}

=== FILE: sorting.dfy ===
/** Python's `sorted(xs, key=...)` on an integer key: a stable sort, written
    as an insertion sort on sequences. */
module Sorting {

  predicate SortedBy<T>(s: seq<T>, key: T -> int) {
    forall i, j :: 0 <= i < j < |s| ==> key(s[i]) <= key(s[j])
  }

  /** The elements of `s` whose key is `d`, in their order in `s`. */
  function WithKey<T>(s: seq<T>, key: T -> int, d: int): seq<T> {
    if |s| == 0 then []
    else (if key(s[0]) == d then [s[0]] else []) + WithKey(s[1..], key, d)
  }

  lemma WithKeyCons<T>(x: T, s: seq<T>, key: T -> int, d: int)
    ensures WithKey([x] + s, key, d) == (if key(x) == d then [x] else []) + WithKey(s, key, d)
  {
    assert ([x] + s)[1..] == s;
  }

  /** Place `x` before the first element whose key is not smaller. */
  function Insert<T>(x: T, s: seq<T>, key: T -> int): seq<T> {
    if |s| == 0 || key(x) <= key(s[0]) then [x] + s
    else [s[0]] + Insert(x, s[1..], key)
  }

  lemma {:induction false} InsertPermutes<T>(x: T, s: seq<T>, key: T -> int)
    ensures multiset(Insert(x, s, key)) == multiset([x] + s)
  {
    if |s| > 0 && key(x) > key(s[0]) {
      InsertPermutes(x, s[1..], key);
      assert s == [s[0]] + s[1..];
    }
  }

  lemma {:induction false} InsertSorted<T>(x: T, s: seq<T>, key: T -> int)
    requires SortedBy(s, key)
    ensures SortedBy(Insert(x, s, key), key)
  {
    if |s| > 0 && key(x) > key(s[0]) {
      InsertSorted(x, s[1..], key);
      InsertAboveHead(x, s, key);
      ConsSorted(s[0], Insert(x, s[1..], key), key);
    }
  }

  /** When `x` goes past the head of `s`, everything the rest becomes is
      keyed no lower than that head. */
  lemma InsertAboveHead<T>(x: T, s: seq<T>, key: T -> int)
    requires SortedBy(s, key) && |s| > 0 && key(x) > key(s[0])
    ensures forall j :: 0 <= j < |Insert(x, s[1..], key)| ==> key(s[0]) <= key(Insert(x, s[1..], key)[j])
  {
    var rest := Insert(x, s[1..], key);
    InsertPermutes(x, s[1..], key);
    forall j | 0 <= j < |rest| ensures key(s[0]) <= key(rest[j]) {
      assert rest[j] in multiset(rest);
      assert rest[j] == x || rest[j] in s[1..];
    }
  }

  /** A sorted sequence stays sorted under a head keyed no higher than it. */
  lemma ConsSorted<T>(y: T, rest: seq<T>, key: T -> int)
    requires SortedBy(rest, key)
    requires forall j :: 0 <= j < |rest| ==> key(y) <= key(rest[j])
    ensures SortedBy([y] + rest, key)
  {
    var r := [y] + rest;
    forall i, j | 0 <= i < j < |r| ensures key(r[i]) <= key(r[j]) {
      assert r[j] == rest[j - 1];
      if i > 0 {
        assert r[i] == rest[i - 1];
      }
    }
  }

  lemma {:induction false} InsertStable<T>(x: T, s: seq<T>, key: T -> int, d: int)
    ensures WithKey(Insert(x, s, key), key, d) == WithKey([x] + s, key, d)
  {
    if |s| > 0 && key(x) > key(s[0]) {
      var rest := Insert(x, s[1..], key);
      InsertStable(x, s[1..], key, d);
      assert s == [s[0]] + s[1..];
      WithKeyCons(s[0], rest, key, d);
      WithKeyCons(x, s[1..], key, d);
      WithKeyCons(x, s, key, d);
      WithKeyCons(s[0], s[1..], key, d);
    }
  }

  /** The sorted sequence is ordered by key, a permutation of the input and
      stable: elements with equal keys keep their input order. */
  function SortBy<T>(s: seq<T>, key: T -> int): (r: seq<T>)
    ensures SortedBy(r, key)
    ensures multiset(r) == multiset(s)
    ensures forall d :: WithKey(r, key, d) == WithKey(s, key, d)
  {
    if |s| == 0 then []
    else
      var rest := SortBy(s[1..], key);
      InsertPermutes(s[0], rest, key);
      InsertSorted(s[0], rest, key);
      forall d ensures WithKey(Insert(s[0], rest, key), key, d) == WithKey([s[0]] + rest, key, d) {
        InsertStable(s[0], rest, key, d);
      }
      assert s == [s[0]] + s[1..];
      forall d ensures WithKey([s[0]] + rest, key, d) == WithKey(s, key, d) {
        WithKeyCons(s[0], rest, key, d);
        WithKeyCons(s[0], s[1..], key, d);
      }
      Insert(s[0], rest, key)
  }
}

=== FILE: tables.dfy ===
/** `Table` of sheets_manager.py: a tab name, its ordered columns and a
    lower-cased name → position index kept beside them. */
module Tables {
  import opened Results
  import opened Text

  datatype Table = Table(name: string, columns: seq<string>, index: map<string, nat>)

  function LowerNames(cols: seq<string>): (r: seq<string>)
    ensures |r| == |cols|
    ensures forall i :: 0 <= i < |cols| ==> r[i] == Lower(cols[i])
  {
    seq(|cols|, i requires 0 <= i < |cols| => Lower(cols[i]))
  }

  /** The index maps each lower-cased column name to its LAST position, as the
      dict comprehension over `enumerate(columns)` does, and holds no other key. */
  ghost predicate Valid(t: Table) {
    && (forall key :: key in t.index ==>
          && t.index[key] < |t.columns|
          && Lower(t.columns[t.index[key]]) == key
          && forall j :: t.index[key] < j < |t.columns| ==> Lower(t.columns[j]) != key)
    && (forall i :: 0 <= i < |t.columns| ==> Lower(t.columns[i]) in t.index)
  }

  function BuildIndex(cols: seq<string>): map<string, nat> {
    if |cols| == 0 then map[]
    else BuildIndex(cols[..|cols| - 1])[Lower(cols[|cols| - 1]) := |cols| - 1]
  }

  lemma {:induction false} BuildIndexValid(name: string, cols: seq<string>)
    ensures Valid(Table(name, cols, BuildIndex(cols)))
  {
    if |cols| > 0 {
      var n := |cols|;
      var init := cols[..n - 1];
      BuildIndexValid(name, init);
      var idx0 := BuildIndex(init);
      var last := Lower(cols[n - 1]);
      var idx := idx0[last := n - 1];
      assert BuildIndex(cols) == idx;
      assert forall i :: 0 <= i < |init| ==> init[i] == cols[i];
      forall key | key in idx
        ensures idx[key] < n && Lower(cols[idx[key]]) == key
        ensures forall j :: idx[key] < j < n ==> Lower(cols[j]) != key
      {
        if key != last {
          assert key in idx0 && idx[key] == idx0[key];
          assert Lower(init[idx0[key]]) == key;
          forall j | idx[key] < j < n ensures Lower(cols[j]) != key {
            if j < n - 1 {
              assert Lower(init[j]) != key;
            }
          }
        }
      }
      forall i | 0 <= i < n ensures Lower(cols[i]) in idx {
        if i < n - 1 {
          assert Lower(init[i]) in idx0;
        }
      }
    }
  }

  /** `Table(name, columns)`. */
  function FromHeader(name: string, cols: seq<string>): (t: Table)
    ensures Valid(t) && t.name == name && t.columns == cols
  {
    BuildIndexValid(name, cols);
    Table(name, cols, BuildIndex(cols))
  }

  /** `get_column_index`: case-insensitive; raises when no column matches. */
  function GetColumnIndex(t: Table, column: string): (r: Result<nat>)
    requires Valid(t)
    ensures r.Ok? ==> r.value < |t.columns| && Lower(t.columns[r.value]) == Lower(column)
    ensures r.Ok? ==> forall j :: r.value < j < |t.columns| ==> Lower(t.columns[j]) != Lower(column)
    ensures r.Err? ==> forall i :: 0 <= i < |t.columns| ==> Lower(t.columns[i]) != Lower(column)
    ensures r.Err? ==> r.msg == "Column '" + Lower(column) + "' not found in table '" + t.name + "'"
  {
    var key := Lower(column);
    if key in t.index then Ok(t.index[key])
    else Err("Column '" + key + "' not found in table '" + t.name + "'")
  }

  /** `has_column`: agrees with `get_column_index`. */
  function HasColumn(t: Table, column: string): (b: bool)
    requires Valid(t)
    ensures b <==> Lower(column) in LowerNames(t.columns)
    ensures b <==> GetColumnIndex(t, column).Ok?
  {
    var r := GetColumnIndex(t, column);
    assert r.Ok? ==> LowerNames(t.columns)[r.value] == Lower(column);
    Lower(column) in t.index
  }

  /** `add_column`: a no-op when the column is present (case-insensitively);
      otherwise it goes last and no existing index entry moves. */
  function AddColumn(t: Table, column: string): (t': Table)
    requires Valid(t)
    ensures Valid(t') && t'.name == t.name
    ensures HasColumn(t', column)
    ensures HasColumn(t, column) ==> t' == t
    ensures !HasColumn(t, column) ==>
      && t'.columns == t.columns + [column]
      && t'.index == t.index[Lower(column) := |t.columns|]
      && GetColumnIndex(t', column) == Ok(|t.columns|)
    ensures forall key :: key in t.index ==> key in t'.index && t'.index[key] == t.index[key]
  {
    if HasColumn(t, column) then t
    else
      var t' := Table(t.name, t.columns + [column], t.index[Lower(column) := |t.columns|]);
      assert forall i :: 0 <= i < |t.columns| ==> t'.columns[i] == t.columns[i];
      assert Lower(t'.columns[|t.columns|]) == Lower(column);
      t'
  }

  /** `add_column` applied to each of `cols` in turn. */
  function AddAll(t: Table, cols: seq<string>): (t': Table)
    requires Valid(t)
    ensures Valid(t') && t'.name == t.name
    ensures t.columns <= t'.columns
    ensures forall c :: c in cols ==> HasColumn(t', c)
    ensures forall k :: |t.columns| <= k < |t'.columns| ==> t'.columns[k] in cols
    decreases |cols|
  {
    if |cols| == 0 then t
    else
      var t1 := AddColumn(t, cols[0]);
      var t' := AddAll(t1, cols[1..]);
      HasColumnKept(t1, t', cols[0]);
      AppendedFromCols(t, t1, t', cols);
      t'
  }

  /** The columns after `t` came from `cols`: the first one, if it was
      added, and the rest from `cols[1..]`. */
  lemma AppendedFromCols(t: Table, t1: Table, t': Table, cols: seq<string>)
    requires Valid(t) && |cols| > 0 && t1 == AddColumn(t, cols[0]) && t1.columns <= t'.columns
    requires forall k :: |t1.columns| <= k < |t'.columns| ==> t'.columns[k] in cols[1..]
    ensures forall k :: |t.columns| <= k < |t'.columns| ==> t'.columns[k] in cols
  {
    forall k | |t.columns| <= k < |t'.columns| ensures t'.columns[k] in cols {
      if k < |t1.columns| {
        assert t'.columns[k] == t1.columns[k] == cols[0];
      } else {
        assert t'.columns[k] in cols[1..];
      }
    }
  }

  /** A column stays present when columns are only appended. */
  lemma HasColumnKept(t: Table, t': Table, column: string)
    requires Valid(t) && Valid(t') && t.columns <= t'.columns && HasColumn(t, column)
    ensures HasColumn(t', column)
  {
    var i :| 0 <= i < |t.columns| && LowerNames(t.columns)[i] == Lower(column);
    assert LowerNames(t'.columns)[i] == Lower(column);
  }

  /** What `get_range` designates: the whole tab, or the span between the
      positions of the first and last requested columns. */
  datatype Range = WholeSheet | Span(first: nat, last: nat)

  function ColumnIndices(t: Table, cols: seq<string>): (r: Result<seq<nat>>)
    requires Valid(t)
    ensures r.Ok? ==> |r.value| == |cols| && forall i :: 0 <= i < |cols| ==> GetColumnIndex(t, cols[i]) == Ok(r.value[i])
    ensures r.Err? <==> exists i :: 0 <= i < |cols| && !HasColumn(t, cols[i])
  {
    if |cols| == 0 then Ok([])
    else
      var first :- GetColumnIndex(t, cols[0]);
      var rest :- ColumnIndices(t, cols[1..]);
      assert forall i :: 1 <= i < |cols| ==> cols[i] == cols[1..][i - 1];
      Ok([first] + rest)
  }

  /** `get_range`: all columns when none are named; otherwise raises on the
      first unknown column (A1 letters are not modelled). */
  function GetRange(t: Table, cols: seq<string>): (r: Result<Range>)
    requires Valid(t)
    ensures |cols| == 0 ==> r == Ok(WholeSheet)
    ensures |cols| > 0 ==> (r.Err? <==> exists i :: 0 <= i < |cols| && !HasColumn(t, cols[i]))
    ensures |cols| > 0 && r.Ok? ==>
      r.value == Span(GetColumnIndex(t, cols[0]).value, GetColumnIndex(t, cols[|cols| - 1]).value)
  {
    if |cols| == 0 then Ok(WholeSheet)
    else
      var indices :- ColumnIndices(t, cols);
      Ok(Span(indices[0], indices[|indices| - 1]))
  }
}

=== FILE: text.dfy ===
/** The pieces of Python's `str` that the bot relies on: `strip`, `split` with
    and without a limit, `in`, `startswith`, `lower`/`upper`, `str(int)` and
    `int(str)`. */
module Text {
  import opened Results

  /** The characters Python's `str.isspace` accepts (and `str.strip()` removes). */
  predicate IsSpace(c: char) {
    var n := c as int;
    (9 <= n <= 13) || (28 <= n <= 32) || n == 0x85 || n == 0xA0 || n == 0x1680
    || (0x2000 <= n <= 0x200A) || n == 0x2028 || n == 0x2029 || n == 0x202F
    || n == 0x205F || n == 0x3000
  }

  function LeadingSpaces(s: string): (n: nat)
    ensures n <= |s|
    ensures forall k :: 0 <= k < n ==> IsSpace(s[k])
    ensures n < |s| ==> !IsSpace(s[n])
  {
    if |s| == 0 || !IsSpace(s[0]) then 0 else 1 + LeadingSpaces(s[1..])
  }

  function TrailingSpaces(s: string): (n: nat)
    ensures n <= |s|
    ensures forall k :: |s| - n <= k < |s| ==> IsSpace(s[k])
    ensures n < |s| ==> !IsSpace(s[|s| - n - 1])
  {
    if |s| == 0 || !IsSpace(s[|s| - 1]) then 0 else 1 + TrailingSpaces(s[..|s| - 1])
  }

  /** `s.strip()`: the longest slice of `s` without surrounding whitespace. */
  function Strip(s: string): (r: string)
    ensures |r| > 0 ==> !IsSpace(r[0]) && !IsSpace(r[|r| - 1])
    ensures forall k :: 0 <= k < |r| ==> r[k] in s
    ensures |r| == 0 <==> forall k :: 0 <= k < |s| ==> IsSpace(s[k])
    ensures exists i, j :: 0 <= i <= j <= |s| && r == s[i..j] && Surrounds(s, i, j)
  {
    var i := LeadingSpaces(s);
    var j := |s| - TrailingSpaces(s[i..]);
    StripBounds(s, i, j);
    s[i..j]
  }

  /** The bounds `strip` cuts at: whitespace outside, none at either end
      inside, and an empty slice only for an all-whitespace string. */
  lemma {:induction false} StripBounds(s: string, i: nat, j: int)
    requires i == LeadingSpaces(s) && j == |s| - TrailingSpaces(s[i..])
    ensures i <= j <= |s| && Surrounds(s, i, j)
    ensures i < j ==> !IsSpace(s[i]) && !IsSpace(s[j - 1])
    ensures i == j <==> forall k :: 0 <= k < |s| ==> IsSpace(s[k])
  {
    var rest := s[i..];
    var t := TrailingSpaces(rest);
    forall k | j <= k < |s| ensures IsSpace(s[k]) {
      assert s[k] == rest[k - i];
    }
    if i < j {
      assert s[j - 1] == rest[|rest| - t - 1];
    }
  }

  /** Everything of `s` outside the slice `s[i..j]` is whitespace. */
  predicate Surrounds(s: string, i: nat, j: nat)
    requires i <= j <= |s|
  {
    && (forall k :: 0 <= k < i ==> IsSpace(s[k]))
    && (forall k :: j <= k < |s| ==> IsSpace(s[k]))
  }

  /** Position of the first `c` in `s`, or `|s|` when there is none. */
  function IndexOf(s: string, c: char): (i: nat)
    ensures i <= |s|
    ensures i < |s| ==> s[i] == c
    ensures forall k :: 0 <= k < i ==> s[k] != c
  {
    if |s| == 0 then 0 else if s[0] == c then 0 else 1 + IndexOf(s[1..], c)
  }

  /** Inverse of the splitting functions: the pieces glued back with `sep`. */
  function Join(parts: seq<string>, sep: char): string {
    if |parts| == 0 then ""
    else if |parts| == 1 then parts[0]
    else parts[0] + [sep] + Join(parts[1..], sep)
  }

  /** `s.split(sep)` for a one-character separator. */
  function Split(s: string, sep: char): (parts: seq<string>)
    ensures |parts| >= 1
    ensures forall k :: 0 <= k < |parts| ==> sep !in parts[k]
    ensures Join(parts, sep) == s
    decreases |s|
  {
    var i := IndexOf(s, sep);
    if i == |s| then [s]
    else
      var rest := Split(s[i + 1..], sep);
      assert s == s[..i] + [sep] + s[i + 1..];
      [s[..i]] + rest
  }

  /** `s.split(sep, n)`: at most `n` splits, the last piece keeps the rest. */
  function SplitN(s: string, sep: char, n: nat): (parts: seq<string>)
    ensures 1 <= |parts| <= n + 1
    ensures forall k :: 0 <= k < |parts| - 1 ==> sep !in parts[k]
    ensures |parts| <= n ==> sep !in parts[|parts| - 1]
    ensures Join(parts, sep) == s
    decreases n
  {
    var i := IndexOf(s, sep);
    if n == 0 || i == |s| then [s]
    else
      var rest := SplitN(s[i + 1..], sep, n - 1);
      assert s == s[..i] + [sep] + s[i + 1..];
      [s[..i]] + rest
  }

  /** Splitting the join of separator-free pieces gives the pieces back. */
  lemma {:induction false} SplitJoin(parts: seq<string>, sep: char)
    requires |parts| >= 1
    requires forall k :: 0 <= k < |parts| ==> sep !in parts[k]
    ensures Split(Join(parts, sep), sep) == parts
    decreases |parts|
  {
    if |parts| == 1 {
      assert IndexOf(parts[0], sep) == |parts[0]|;
    } else {
      SplitJoin(parts[1..], sep);
      SplitAfterPrefix(parts[0], sep, Join(parts[1..], sep));
    }
  }

  /** A join starts with its first piece. */
  lemma JoinFirst(parts: seq<string>, sep: char)
    requires |parts| >= 1 && |parts[0]| > 0
    ensures |Join(parts, sep)| > 0 && Join(parts, sep)[0] == parts[0][0]
  {
  }

  /** A join ends with its last piece. */
  lemma {:induction false} JoinLast(parts: seq<string>, sep: char)
    requires |parts| >= 1 && |parts[|parts| - 1]| > 0
    ensures var j := Join(parts, sep);
      |j| > 0 && j[|j| - 1] == parts[|parts| - 1][|parts[|parts| - 1]| - 1]
    decreases |parts|
  {
    if |parts| > 1 {
      var rest := parts[1..];
      assert rest[|rest| - 1] == parts[|parts| - 1];
      JoinLast(rest, sep);
    }
  }

  /** Splitting just after a separator-free prefix. */
  lemma SplitNAfterPrefix(a: string, sep: char, b: string, n: nat)
    requires sep !in a
    ensures SplitN(a + [sep] + b, sep, n + 1) == [a] + SplitN(b, sep, n)
  {
    var s := a + [sep] + b;
    var i := IndexOf(s, sep);
    assert s[|a|] == sep;
    assert forall k :: 0 <= k < |a| ==> s[k] == a[k];
    assert i == |a|;
    assert s[..i] == a;
    assert s[i + 1..] == b;
  }

  lemma SplitAfterPrefix(a: string, sep: char, b: string)
    requires sep !in a
    ensures Split(a + [sep] + b, sep) == [a] + Split(b, sep)
  {
    var s := a + [sep] + b;
    var i := IndexOf(s, sep);
    assert s[|a|] == sep;
    assert forall k :: 0 <= k < |a| ==> s[k] == a[k];
    assert i == |a|;
    assert s[..i] == a;
    assert s[i + 1..] == b;
  }

  predicate StartsWith(s: string, prefix: string) {
    |prefix| <= |s| && s[..|prefix|] == prefix
  }

  /** Strings that differ at a position shared with a prefix do not start
      with it. */
  lemma CharDiffers(s: string, prefix: string, i: nat)
    requires i < |s| && i < |prefix| && s[i] != prefix[i]
    ensures !StartsWith(s, prefix) && s != prefix
  {
    if |prefix| <= |s| {
      assert s[..|prefix|][i] == s[i];
    }
  }

  /** Python's `sub in s` for strings. */
  predicate Contains(s: string, sub: string)
    decreases |s|
  {
    StartsWith(s, sub) || (|s| > 0 && Contains(s[1..], sub))
  }

  lemma {:induction false} ContainsInMiddle(a: string, sub: string, b: string)
    ensures Contains(a + sub + b, sub)
    decreases |a|
  {
    if |a| == 0 {
      assert a + sub + b == sub + b;
      assert (sub + b)[..|sub|] == sub;
    } else {
      ContainsInMiddle(a[1..], sub, b);
      assert (a + sub + b)[1..] == a[1..] + sub + b;
    }
  }

  function LowerChar(c: char): char {
    if 'A' <= c <= 'Z' then (c as int + 32) as char else c
  }

  function UpperChar(c: char): char {
    if 'a' <= c <= 'z' then (c as int - 32) as char else c
  }

  /** `s.lower()` restricted to ASCII letters. */
  function Lower(s: string): (r: string)
    ensures |r| == |s|
  {
    seq(|s|, i requires 0 <= i < |s| => LowerChar(s[i]))
  }

  /** `s.upper()` restricted to ASCII letters. */
  function Upper(s: string): (r: string)
    ensures |r| == |s|
  {
    seq(|s|, i requires 0 <= i < |s| => UpperChar(s[i]))
  }

  predicate IsDigit(c: char) {
    '0' <= c <= '9'
  }

  function DigitChar(d: nat): (c: char)
    requires d < 10
    ensures IsDigit(c)
  {
    ('0' as int + d) as char
  }

  /** Decimal digits of `n`, most significant first, as `str(n)` writes them. */
  function NatToString(n: nat): (s: string)
    ensures |s| > 0
    ensures forall k :: 0 <= k < |s| ==> IsDigit(s[k])
  {
    if n < 10 then [DigitChar(n)] else NatToString(n / 10) + [DigitChar(n % 10)]
  }

  /** `str(i)` for a Python `int`. */
  function IntToString(i: int): string {
    if i < 0 then "-" + NatToString(-i) else NatToString(i)
  }

  function DigitsValue(s: string): nat
    requires forall k :: 0 <= k < |s| ==> IsDigit(s[k])
  {
    if |s| == 0 then 0
    else
      var d := s[|s| - 1] as int - '0' as int;
      assert IsDigit(s[|s| - 1]);
      DigitsValue(s[..|s| - 1]) * 10 + d
  }

  function ParseUnsigned(s: string): Option<nat> {
    if |s| > 0 && forall k :: 0 <= k < |s| ==> IsDigit(s[k]) then Some(DigitsValue(s)) else None
  }

  /** `int(s)` for a `str`: surrounding whitespace, an optional sign and at
      least one ASCII digit; `None` where Python raises `ValueError`. */
  function ParseInt(s: string): Option<int> {
    var t := Strip(s);
    if |t| > 0 && t[0] == '-' then
      match ParseUnsigned(t[1..])
      case Some(n) => Some(0 - n as int)
      case None => None
    else if |t| > 0 && t[0] == '+' then
      ParseUnsigned(t[1..])
    else
      ParseUnsigned(t)
  }

  lemma {:induction false} DigitsOfNat(n: nat)
    ensures DigitsValue(NatToString(n)) == n
  {
    if n >= 10 {
      DigitsOfNat(n / 10);
      var s := NatToString(n);
      assert s[..|s| - 1] == NatToString(n / 10);
    }
  }

  lemma StripOfNoSpace(s: string)
    requires forall k :: 0 <= k < |s| ==> !IsSpace(s[k])
    ensures Strip(s) == s
  {
    if |s| > 0 {
      assert LeadingSpaces(s) == 0;
      assert TrailingSpaces(s) == 0;
    }
  }

  /** A string that neither starts nor ends with whitespace is its own strip. */
  lemma StripTrimmed(s: string)
    requires |s| > 0 && !IsSpace(s[0]) && !IsSpace(s[|s| - 1])
    ensures Strip(s) == s
  {
    assert LeadingSpaces(s) == 0;
    assert s[0..] == s;
    assert TrailingSpaces(s) == 0;
  }

  /** Stripping a blank-prefixed trimmed string drops just the blank. */
  lemma StripAfterBlank(s: string)
    requires |s| > 0 && !IsSpace(s[0]) && !IsSpace(s[|s| - 1])
    ensures Strip(" " + s) == s
  {
    var t := " " + s;
    assert t[1..] == s;
    assert LeadingSpaces(t) == 1 + LeadingSpaces(s);
    assert LeadingSpaces(s) == 0;
    assert TrailingSpaces(s) == 0;
  }

  /** `int(str(i)) == i`. */
  lemma ParseIntOfIntToString(i: int)
    ensures ParseInt(IntToString(i)) == Some(i)
  {
    var n: nat := if i < 0 then -i else i;
    DigitsOfNat(n);
    if i < 0 {
      ParseNegatedDigits(NatToString(n));
    } else {
      ParseDigits(NatToString(n));
    }
  }

  /** A run of digits parses to its value. */
  lemma ParseDigits(digits: string)
    requires |digits| > 0 && forall k :: 0 <= k < |digits| ==> IsDigit(digits[k])
    ensures ParseInt(digits) == Some(DigitsValue(digits) as int)
  {
    assert forall k :: 0 <= k < |digits| ==> !IsSpace(digits[k]);
    StripOfNoSpace(digits);
  }

  /** A run of digits after a minus sign parses to the negated value. */
  lemma {:induction false} ParseNegatedDigits(digits: string)
    requires |digits| > 0 && forall k :: 0 <= k < |digits| ==> IsDigit(digits[k])
    ensures ParseInt("-" + digits) == Some(0 - DigitsValue(digits) as int)
  {
    var s := "-" + digits;
    assert Strip(s) == s by {
      SignedDigitsNoSpace(digits);
      StripOfNoSpace(s);
    }
    assert s[1..] == digits;
    ParseMinus(s);
  }

  /** A string that is its own strip and starts with '-' parses as the
      negated number after the sign. */
  lemma ParseMinus(s: string)
    requires Strip(s) == s && |s| > 0 && s[0] == '-'
    ensures ParseInt(s) == match ParseUnsigned(s[1..]) case Some(n) => Some(0 - n as int) case None => None
  {
  }

  lemma SignedDigitsNoSpace(digits: string)
    requires forall k :: 0 <= k < |digits| ==> IsDigit(digits[k])
    ensures forall k :: 0 <= k < |"-" + digits| ==> !IsSpace(("-" + digits)[k])
  {
    var s := "-" + digits;
    forall k | 0 <= k < |s| ensures !IsSpace(s[k]) {
      if k > 0 { assert s[k] == digits[k - 1]; }
    }
  }
}
